=== FILE: README.md ===
# GenSheet core, modelled in Dafny

GenSheet is a web application for building and running inspection
checksheets. An author composes a checksheet in the builder: an ordered
list of checkpoints, each with a title, a field type and a section. The
author may have it drafted by a generative model and saves it through the
checksheet endpoint. An inspector then fills it in on the execution form,
with photos, a rating, text and dates, and the form submits an execution
result to the results endpoint. A search endpoint looks through
checksheets, public best-practice templates and results, and the top bar's
search box presents what it returns. A route gate keeps anonymous visitors
and non-administrators out of protected pages. The dashboard frame shows
the navigation, the user menu, a language selector and a dark-mode
preference.

This project models that core as pure functions over immutable data. One
module follows each source file:

| module | source |
|---|---|
| `Builder` | `components/ChecksheetBuilder.tsx` |
| `ChecksheetsApi` | `app/api/checksheets/route.ts` |
| `ResultsApi` | `app/api/results/route.ts` |
| `SearchApi` | `app/api/search/route.ts` |
| `AiGenerateRoute` | `app/api/ai/generate/route.ts` |
| `Gemini` | `lib/gemini.ts` |
| `Proxy` | `proxy.ts` |
| `ChecksheetForm` | `components/ChecksheetForm.tsx` |
| `PhotoUpload` | `components/PhotoUpload.tsx` |
| `GlobalSearch` | `components/GlobalSearch.tsx` |
| `DashboardLayout` | `components/DashboardLayout.tsx` |

Shared modules:
- `Base`: options, results, the session and user, JSON values, HTTP replies and JavaScript truthiness.
- `Strings`: prefix and substring tests, ASCII case mapping and decimal rendering.
- `Query`: Prisma `where` objects and what it means for a row to satisfy one.

The model is built on these conventions:

- A request handler is a function from the session to a `Reply`, which is a status plus a body. The other inputs are the request body and the stored rows it reads.
- The session is `Option<User>`. A user's organization id has three states: absent (`undefined`), `null`, or an id. The code passes the value through as it is in one place and through `|| undefined` in another, so the three states behave differently.
- A Prisma filter is a map from keys to clauses. Object spread is right-biased map union, so a key present in both objects keeps the right operand's clause.
- The database is not modelled. Which rows a filter selects follows an assumed reading of Prisma's semantics:
  - a scalar filter whose value is `undefined` constrains nothing;
  - `null` matches a NULL column;
  - `contains` never matches NULL.
- Each endpoint has two descriptions of what it lists: the `where` object the handler builds, and a predicate that says the listing rule in words. A lemma proves the two select the same rows.
- Every React state update is a function from the old state to the new one.
- The network, the clock, the model call, `JSON.parse` and the upload service are inputs or parameters, never calls.

## Model

| member | source | states |
|---|---|---|
| Builder.AddCheckpoint | components/ChecksheetBuilder.tsx:196-207 | Adding appends exactly one checkpoint with the fresh id. It is an untitled, optional CHECKBOX with empty description and section and an empty config. The earlier checkpoints are unchanged. |
| Builder.UpdateCheckpoint | components/ChecksheetBuilder.tsx:209-213 | The list keeps its length. Every checkpoint with the id has the update applied, and every other checkpoint is left as it was. |
| Builder.UpdateNoOp | components/ChecksheetBuilder.tsx:209-213 | An update with no fields changes nothing. An update of an id the list does not hold also changes nothing. The helper `ApplyPatch` is `{ ...cp, ...updates }`. |
| Builder.UpdateKeepsIds | components/ChecksheetBuilder.tsx:209-213 | An update that does not supply an id keeps every id in its place. |
| Builder.UpdateTwice | components/ChecksheetBuilder.tsx:209-213 | Applying the same update twice is the same as applying it once, even when the update changes the id. |
| Builder.DeleteCheckpoint | components/ChecksheetBuilder.tsx:215-217 | No checkpoint with the id survives. Every checkpoint with another id survives, and nothing new appears. |
| Builder.DeleteAppend | components/ChecksheetBuilder.tsx:216 | Deleting from a concatenation deletes from each part. With `DeleteSingle`, this means the survivors keep their relative order. |
| Builder.DeleteSingle | components/ChecksheetBuilder.tsx:216 | A one-element list loses its element exactly when the element has the id. |
| Builder.DeleteAbsent | components/ChecksheetBuilder.tsx:215-217 | Deleting an id that is not in the list is a no-op. |
| Builder.DeleteUndoesAdd | components/ChecksheetBuilder.tsx:196-217 | Adding a checkpoint under an id the list does not hold, then deleting that id, gives back the list. |
| Builder.DeleteCount | components/ChecksheetBuilder.tsx:215-217 | The list shrinks by exactly the number of checkpoints that carry the id. |
| Builder.FindIndex | components/ChecksheetBuilder.tsx:189-190 | The result is the first index holding the id, or -1 exactly when no checkpoint holds it. |
| Builder.InsertAt | components/ChecksheetBuilder.tsx:191 | Inserting puts the element at the index, and removing it again gives back the original list. |
| Builder.ArrayMove | components/ChecksheetBuilder.tsx:191 | Moving is a permutation that puts the moved element at the target index. The other elements keep their relative order. |
| Builder.ArrayMoveSame | components/ChecksheetBuilder.tsx:187-191 | Moving an element onto its own index changes nothing. |
| Builder.HandleDragEnd | components/ChecksheetBuilder.tsx:184-194 | A drop outside every item, or onto the dragged item itself, leaves the list as it was. Any other drop puts the dragged checkpoint at the drop target's index and keeps the rest in order. Nothing is lost or duplicated. |
| Builder.NumberFrom | components/ChecksheetBuilder.tsx:260-268 | Each saved checkpoint carries the fields of the checkpoint at the same position, with an order counting up from the start. |
| Builder.HandleSave | components/ChecksheetBuilder.tsx:255-270 | The save payload keeps the editor's title, description and category, and has one entry per checkpoint, in list order. The entry at position i carries the six fields of checkpoint i and has order i. |
| Builder.SaveOrdersAreRange | components/ChecksheetBuilder.tsx:255-270 | The orders of a save payload, in list order, are exactly 0, 1, ..., N-1. |
| Builder.CanSavePayload | components/ChecksheetBuilder.tsx:401 | An enabled save always sends a truthy title and at least one checkpoint. The first checkpoint has order 0. |
| Builder.SaveAfterAdd | components/ChecksheetBuilder.tsx:196-207 | Saving after an addition sends the earlier checkpoints as before, and the new one last as an optional CHECKBOX with order N, where N is the old length. |
| Builder.GeneratedIdInjective | components/ChecksheetBuilder.tsx:239 | Two generated ids are equal only for the same index, whatever clock readings they were built from. The index follows the last `-`, and a decimal number holds no `-`. |
| Builder.AssignIds | components/ChecksheetBuilder.tsx:236-241 | Each element of the reply's list gives one checkpoint. The checkpoint holds the element's own fields, `undefined` where it has none, and an id built from its own clock reading and its index. The ids of one batch are pairwise distinct. |
| Builder.ApplyGenerated | components/ChecksheetBuilder.tsx:219-253 | A failed request, an unparsable body, a reply that is not ok, or an ok reply whose body is `null`, leaves the editor unchanged. Any other ok reply sets the title, description and category to what the body holds, possibly `undefined`. The checkpoint list is replaced exactly when the body's `checkpoints` is an array. The new checkpoint i then holds the six fields of list element i, `undefined` where it has none, and the id built from its own clock reading and i (the helper `WithGeneratedId`). These ids are pairwise distinct. Otherwise the old list stays beside the new title. |
| Builder.SaveAfterGenerate | components/ChecksheetBuilder.tsx:219-270 | Saving right after an ok reply with a list sends the reply's title. It also sends, entry by entry in the reply's order, the six fields of the generated checkpoints (title, description, fieldType, section, isRequired and config), numbered from 0. |
| Builder.ReplyWithoutListMixes | components/ChecksheetBuilder.tsx:233-243 | An ok reply `{"title": "Generated"}` overwrites the title, leaves the description `undefined` and keeps the old checkpoints. |
| ChecksheetsApi.FieldTypeIndex | app/api/checksheets/route.ts:16-20 | Every field type has a position in the schema's list of types. |
| ChecksheetsApi.NameIndex | app/api/checksheets/route.ts:16-20 | The search finds the first position holding the name, or runs off the end exactly when no later position holds it. |
| ChecksheetsApi.ParseFieldType | app/api/checksheets/route.ts:16-20 | A string is accepted exactly when it is one of the fourteen names, and it parses to the type of that name. |
| ChecksheetsApi.FieldTypeRoundTrip | app/api/checksheets/route.ts:16-20 | Parsing a field type's name gives back that field type. |
| ChecksheetsApi.FieldTypeCount | app/api/checksheets/route.ts:16-20 | There are exactly fourteen field type names, all distinct. |
| ChecksheetsApi.TagItemIssues | app/api/checksheets/route.ts:12 | No issue is reported exactly when every tag is a string. |
| ChecksheetsApi.CheckpointIssues | app/api/checksheets/route.ts:13-24 | No issue is reported exactly when the checkpoint is an object with a string title, a known field type and optional fields of the right types. |
| ChecksheetsApi.CheckpointsOkStep | app/api/checksheets/route.ts:13-24 | All checkpoints from a position on are well formed exactly when the one at the position is and all after it are. |
| ChecksheetsApi.CheckpointListIssues | app/api/checksheets/route.ts:13-24 | No issue is reported exactly when every checkpoint of the list is well formed. |
| ChecksheetsApi.TitleIssues | app/api/checksheets/route.ts:7 | No issue is reported exactly when the title is a string of length at least one. |
| ChecksheetsApi.BodyIssues | app/api/checksheets/route.ts:6-25 | A body has no issue exactly when it has the shape the schema accepts. |
| ChecksheetsApi.Validate | app/api/checksheets/route.ts:95 | Validation succeeds exactly on acceptable bodies. A failure carries at least one issue. A success keeps the title and the number of checkpoints, and an absent list stays absent. |
| ChecksheetsApi.EncodeCheckpointCarries | app/api/checksheets/route.ts:13-24 | An encoded checkpoint is an object whose keys hold exactly the input's fields, each with the type the schema expects. |
| ChecksheetsApi.EncodeScalarsCarries | app/api/checksheets/route.ts:7-11 | The scalar keys of an encoded body hold the input's title, description, category, industry and template flag, with no list keys yet. |
| ChecksheetsApi.CarriesScalarsPut | app/api/checksheets/route.ts:12-24 | Adding the tags or checkpoints key keeps every scalar key of the body. |
| ChecksheetsApi.EncodeFields | app/api/checksheets/route.ts:6-25 | An encoded body carries the scalar fields, and it has the tags and checkpoints keys exactly when the input has those lists. |
| ChecksheetsApi.EncodeCheckpointRoundTrip | app/api/checksheets/route.ts:13-24 | Any checkpoint input, written as a JSON object, is accepted and decodes back to itself. |
| ChecksheetsApi.ValidateEncode | app/api/checksheets/route.ts:6-25 | Any input with a non-empty title, written as a request body, passes the schema and decodes back to itself. |
| ChecksheetsApi.SortedCons | app/api/checksheets/route.ts:112-116 | An element no larger than the head of an ordered list can be put in front of it, and the list stays ordered. |
| ChecksheetsApi.SortedTail | app/api/checksheets/route.ts:112-116 | The tail of an ordered list is ordered, and its head is no smaller than the removed head. |
| ChecksheetsApi.InsertByOrder | app/api/checksheets/route.ts:112-116 | Inserting into an ordered list keeps it ordered and adds exactly the new element. |
| ChecksheetsApi.SortByOrder | app/api/checksheets/route.ts:61-65 | The checkpoints come back as a permutation of the stored ones, in ascending order. |
| ChecksheetsApi.SortSortedIsIdentity | app/api/checksheets/route.ts:112-116 | A list already in ascending order comes back unchanged. |
| ChecksheetsApi.NumberCheckpoints | app/api/checksheets/route.ts:105-108 | An absent list gives no checkpoints. Otherwise the i-th stored checkpoint is the i-th input with order i. |
| ChecksheetsApi.CreateChecksheet | app/api/checksheets/route.ts:97-110 | The created checksheet belongs to the caller and to the caller's organization. It keeps the title, description, category, industry, template flag and tags of the input, and its checkpoints are the numbered input checkpoints (`NumberCheckpoints`). The body sets no status, so it starts with the assumed column default DRAFT. |
| ChecksheetsApi.PostChecksheet | app/api/checksheets/route.ts:87-134 | A request without a session gets 401, and a body that is not JSON gets 500. A body the schema refuses gets 400 with its issues. Every acceptable body gets 201 with a checksheet owned by the caller, with its checkpoints in order. |
| ChecksheetsApi.PostNumbersCheckpoints | app/api/checksheets/route.ts:99-120 | For every acceptable body, the reply is 201. Its checkpoint at position i is the body's checkpoint i, decoded, with order i. There are as many as the body lists, and none when the body has no list. |
| ChecksheetsApi.PostEncodedChecksheet | app/api/checksheets/route.ts:87-120 | Posting the encoding of an input with a non-empty title replies 201 with exactly the checksheet created from that input, so its checkpoints are the input's in request order, numbered from 0. |
| ChecksheetsApi.AccessOrHolds | app/api/checksheets/route.ts:45-50 | The access condition admits a checksheet exactly when the caller created it or its organization matches the caller's. |
| ChecksheetsApi.CategoryPartHolds | app/api/checksheets/route.ts:42 | The category part of the filter admits a checksheet exactly when no category is asked for or the checksheet has that category. |
| ChecksheetsApi.StatusPartHolds | app/api/checksheets/route.ts:43 | The status part of the filter admits a checksheet exactly when no status is asked for or the checksheet has that status. |
| ChecksheetsApi.TemplatePartHolds | app/api/checksheets/route.ts:44 | The template part of the filter admits a checksheet exactly when templates are not asked for or the checksheet is a template. |
| ChecksheetsApi.ListWhereMeansListed | app/api/checksheets/route.ts:39-52 | The handler's filter selects exactly the checksheets of the listing rule: the optional category, status and template filters, and for non-ADMIN callers the access condition. |
| ChecksheetsApi.NonAdminSeesOnlyOwnOrOrg | app/api/checksheets/route.ts:45-50 | A non-ADMIN caller with an organization sees only their own checksheets and those of their organization. |
| ChecksheetsApi.UndefinedOrgSeesEverything | app/api/checksheets/route.ts:48 | A caller whose organization id is undefined passes a filter that admits every checksheet. |
| ChecksheetsApi.ListedSorted | app/api/checksheets/route.ts:39-65 | The listing never has more entries than the store. Every entry follows the listing rule and has its checkpoints in ascending order. Every stored checksheet that follows the rule appears, with its checkpoints sorted. |
| ChecksheetsApi.ListedSortedSound | app/api/checksheets/route.ts:39-65 | Every checksheet of the listing follows the listing rule and has its checkpoints in ascending order. |
| ChecksheetsApi.ListedSortedComplete | app/api/checksheets/route.ts:39-65 | Every stored checksheet that follows the listing rule appears in the listing, with its checkpoints sorted. |
| ChecksheetsApi.ListChecksheets | app/api/checksheets/route.ts:27-85 | Without a session the reply is 401. A non-empty status outside the checksheet status enum gets 500 "Failed to fetch checksheets", because the database refuses to compare with it. Otherwise the reply is 200 with exactly the listed checksheets of the store, each with its checkpoints in order. |
| ResultsApi.StoreResponse | app/api/results/route.ts:81-93 | A stored response keeps its checkpoint id. Absent photo and file lists become empty lists, and the status is never empty. |
| ResultsApi.StoreResponses | app/api/results/route.ts:80-95 | An absent list stores nothing. Otherwise there is one stored response per input, in order. |
| ResultsApi.PostResult | app/api/results/route.ts:62-115 | Without a session the reply is 401. A body the database cannot store gets 500. Otherwise the reply is 201 with an IN_PROGRESS result of the caller for the named checksheet. |
| ResultsApi.PostKeepsResponses | app/api/results/route.ts:72-96 | Each response sent is stored once, in order, with its checkpoint id. A status or inspector id in the body has no effect. |
| ResultsApi.PostDefaults | app/api/results/route.ts:88-92 | Absent photo and file lists become empty lists. A missing or empty response status becomes PENDING (the helper `StatusOrPending`), and any other status is kept. |
| ResultsApi.ListWhereMeansListed | app/api/results/route.ts:16-25 | The handler's filter selects exactly the results matching the optional checksheet and status filters. An INSPECTOR sees only their own. |
| ResultsApi.NonInspectorUnrestricted | app/api/results/route.ts:21-23 | Without filters, every role but INSPECTOR sees every result, whatever organization it belongs to. |
| ResultsApi.ListResults | app/api/results/route.ts:5-60 | Without a session the reply is 401. A non-empty status outside the result status enum gets 500 "Failed to fetch results". Otherwise the reply is 200 with exactly the stored results of the listing rule. |
| SearchApi.SearchConditionHolds | app/api/search/route.ts:19-24 | The text condition holds exactly when the title or the description contains the query, ignoring case. |
| SearchApi.ChecksheetWhereMeansHit | app/api/search/route.ts:27-36 | The checksheet filter as written selects exactly the text matches for ADMIN. For anyone else it selects the checksheets the access condition admits. |
| SearchApi.TemplateWhereMeansHit | app/api/search/route.ts:49-53 | The template filter selects exactly the public templates that match the text. |
| SearchApi.ResultWhereMeansHit | app/api/search/route.ts:65-71 | The result filter selects exactly the results whose checksheet matches the text. An INSPECTOR gets only their own. |
| SearchApi.Search | app/api/search/route.ts:5-100 | Without a session the reply is 401. A missing, empty or one-character query gets three empty lists. Otherwise each list holds the first five hits of its kind, in store order. |
| SearchApi.NonAdminChecksheetHitsIgnoreQuery | app/api/search/route.ts:28-36 | For a non-ADMIN caller, any two queries find the same checksheets. |
| SearchApi.NonAdminFindsOwnWhateverQuery | app/api/search/route.ts:28-36 | A non-ADMIN caller's own checksheet is found under any query. |
| SearchApi.NoOrgSearchSeesEveryChecksheet | app/api/search/route.ts:33 | A non-ADMIN caller without an organization passes an undefined organization filter, which admits every checksheet. |
| SearchApi.SpreadDropsTextMatch | app/api/search/route.ts:28-36 | A non-ADMIN caller's own checksheet that does not contain the query is found by the filter as written. The intended filter does not find it. |
| SearchApi.IntendedChecksheetWhereMeansHit | app/api/search/route.ts:27-36 | The corrected filter selects exactly the checksheets that match the text and that the caller may see. |
| SearchApi.IntendedNarrowsAsWritten | app/api/search/route.ts:27-36 | Everything the corrected filter selects, the filter as written selects too. |
| Gemini.LeadingEnd | lib/gemini.ts:76 | The result ends the run of white space that starts at the given position: everything before it is white space, and the character at it is not. |
| Gemini.TrailingStart | lib/gemini.ts:76 | The result starts the run of white space that ends at the given position, without going below the lower bound. The character just before it is not white space. |
| Gemini.Trim | lib/gemini.ts:76 | Trimming gives a slice of the text with only white space outside it and no white space at either end. |
| Gemini.TrimIdentity | lib/gemini.ts:76 | A text without white space at either end is unchanged. |
| Gemini.RemoveAllIdentity | lib/gemini.ts:78-80 | Removing a marker from a text that does not contain it is a no-op. |
| Gemini.RemoveFenceLeavesNone | lib/gemini.ts:78-80 | After the fences are removed, no three backticks remain. |
| Gemini.RemoveFenceInside | lib/gemini.ts:78-80 | A fence after a backtick-free prefix is removed together with one newline after it. The prefix is kept. |
| Gemini.ExtractJson | lib/gemini.ts:76-81 | An unfenced reply is parsed as trimmed. A reply starting with a json fence, or with a plain fence, loses every fence. No fence survives in either case. |
| Gemini.ExtractFencedJson | lib/gemini.ts:76-83 | For a body without backticks, a json-fenced reply yields the body followed by one newline. |
| Gemini.FullPromptExtends | lib/gemini.ts:67-69 | A missing or empty category gives the prompt without a category, and that prompt is a strict prefix of the prompt with a truthy category. The assembly is the helper `FullPrompt`. |
| Gemini.FullPromptCategoryInjective | lib/gemini.ts:67-69 | Two truthy categories give the same prompt only when they are equal, so the category can be read back from the prompt. |
| Gemini.GenerateChecksheet | lib/gemini.ts:71-104 | A failed model call is classified. A reply succeeds exactly when the extracted text parses, and then carries the parsed data. |
| Gemini.SuggestImprovements | lib/gemini.ts:107-157 | A failed model call is classified without the rate-limit case. A reply succeeds exactly when the extracted text parses. |
| Gemini.SameExtraction | lib/gemini.ts:76-81 | Both entry points hand the parser the same text, so they succeed together and with the same data. |
| Gemini.RateLimitOnlySpecialInGenerate | lib/gemini.ts:89-104 | A rate-limited call gives the quota message in generation, but the error's own message in suggestions. The two `catch` clauses are the helpers `ClassifyGenerateError` and `ClassifySuggestError`. |
| AiGenerateRoute.PostGenerate | app/api/ai/generate/route.ts:5-38 | The handler replies with a status and body as follows: - 401 without a session; - 500 for a body that is not JSON; - 400 for a falsy prompt; - 200 with the generated data exactly when generation succeeds; - 500 with the generator's message when generation fails. |
| AiGenerateRoute.GeneratorNotCalledWhenRejected | app/api/ai/generate/route.ts:7-19 | A rejected request never depends on the generator. |
| AiGenerateRoute.RateLimitReported | app/api/ai/generate/route.ts:21-28 | A rate-limited generation reaches the client as a 500 with the quota message. |
| Proxy.Decide | proxy.ts:4-23 | An anonymous request for a non-public path goes to sign-in. A non-ADMIN request for an admin path goes to the dashboard. The request passes exactly when it is public or signed in, and an admin path also needs an ADMIN. |
| Proxy.AdminPathNotPublic | proxy.ts:10 | No admin path is public. |
| Proxy.UnauthenticatedAdminGoesToSignIn | proxy.ts:13-20 | An anonymous request for an admin page goes to sign-in, not to the dashboard. |
| Proxy.AuthorsIsPublic | proxy.ts:10 | The public test is a plain prefix test: "/authors" is public and an anonymous request for it passes. |
| Proxy.RedirectTargets | proxy.ts:13-22 | The only redirect targets are sign-in and the dashboard, and an ADMIN is never redirected. |
| ChecksheetForm.Keys | components/ChecksheetForm.tsx:72 | The keys of the answers are the checkpoint ids, in entry order. |
| ChecksheetForm.Lookup | components/ChecksheetForm.tsx:35 | An answer is found exactly for a key that is present, and it is that key's entry. |
| ChecksheetForm.Put | components/ChecksheetForm.tsx:88-94 | After a put, the key holds the new answer. |
| ChecksheetForm.PutOthers | components/ChecksheetForm.tsx:88-94 | A put leaves every other key's answer alone. |
| ChecksheetForm.PutKeys | components/ChecksheetForm.tsx:88-94 | A put keeps the key order for a known key and appends a new key at the end. |
| ChecksheetForm.PutUnique | components/ChecksheetForm.tsx:88-94 | A put keeps the keys distinct. |
| ChecksheetForm.UpdateResponse | components/ChecksheetForm.tsx:87-95 | The checkpoint's answer gets the field set, starting from an empty answer when there was none. Every other checkpoint's answer is unchanged, and the keys stay distinct. |
| ChecksheetForm.UpdateKeepsOtherFields | components/ChecksheetForm.tsx:87-95 | Setting one field of an existing answer keeps the answer's other fields. The helper `SetField` is `{ ...data, [field]: value }`. |
| ChecksheetForm.AddPhoto | components/ChecksheetForm.tsx:35-41 | The new url is appended after the photos already there, and no other field changes. |
| ChecksheetForm.UploadAsWritten | components/ChecksheetForm.tsx:20-50 | A failed upload keeps the current answers. After a successful one, the checkpoint's answer is the snapshot's with the url appended, and every other answer comes from the snapshot taken when the upload began, not from the current answers. |
| ChecksheetForm.UploadAsWrittenWithoutInterleaving | components/ChecksheetForm.tsx:20-50 | When nothing changed during the upload, the upload as written equals the corrected upload. |
| ChecksheetForm.UploadAsWrittenAgreesIff | components/ChecksheetForm.tsx:36-42 | After a successful upload, the as-written and corrected results agree on every other checkpoint exactly when the snapshot and the answers at the end agree there. |
| ChecksheetForm.UploadAsWrittenDropsNewAnswers | components/ChecksheetForm.tsx:36-42 | An answer given during a successful upload to a checkpoint the snapshot did not hold is missing afterwards. |
| ChecksheetForm.UploadAsWrittenLosesConcurrentAnswer | components/ChecksheetForm.tsx:36-42 | An answer given to another checkpoint while a photo uploads is lost when the upload finishes. |
| ChecksheetForm.Upload | components/ChecksheetForm.tsx:20-50 | The corrected upload starts from the answers current when it finishes. A failed upload changes nothing. A successful one appends the url to that checkpoint's photos and changes nothing else. |
| ChecksheetForm.FailedUploadAlertsOnlyOnThrow | components/ChecksheetForm.tsx:20-50 | A failed upload leaves the answers alone. Only an upload that threw raises the alert, with the fixed text; a refused one is silent. |
| ChecksheetForm.UploadsAccumulate | components/ChecksheetForm.tsx:35-41 | Two successful uploads to a fresh checkpoint leave both urls in order. |
| ChecksheetForm.FormNeverWritesGps | components/ChecksheetForm.tsx:193-205 | No field input and no upload ever writes a latitude into an answer, so the per-checkpoint location line is never shown. |
| ChecksheetForm.NoGpsPut | components/ChecksheetForm.tsx:88-94 | Putting an answer without a latitude keeps all answers free of one. |
| ChecksheetForm.SectionMembers | components/ChecksheetForm.tsx:243-249 | A section never has more members than there are checkpoints. |
| ChecksheetForm.SectionMembersIn | components/ChecksheetForm.tsx:243-249 | A section holds exactly the checkpoints that name it. |
| ChecksheetForm.AddToSections | components/ChecksheetForm.tsx:247-248 | One grouping step adds at most one section. |
| ChecksheetForm.AddToSectionsNames | components/ChecksheetForm.tsx:247 | A step keeps the section names for a known section, and appends the new name otherwise. |
| ChecksheetForm.AddToSectionsMembersStep | components/ChecksheetForm.tsx:248 | A step appends the checkpoint to its own section and to no other. |
| ChecksheetForm.AddToSectionsNew | components/ChecksheetForm.tsx:247-248 | A checkpoint of a new section opens that section at the end, with itself as its only member. |
| ChecksheetForm.AddToSectionsDistinct | components/ChecksheetForm.tsx:247 | A step keeps the section names distinct. |
| ChecksheetForm.AddToSectionsMembers | components/ChecksheetForm.tsx:245-249 | After a step on a correct grouping, each section holds exactly its checkpoints of the longer list. |
| ChecksheetForm.AddToSectionsNonEmpty | components/ChecksheetForm.tsx:247-248 | A step on sections that are all non-empty leaves every section non-empty. |
| ChecksheetForm.AddToSectionsCovers | components/ChecksheetForm.tsx:247 | If every checkpoint's section has a group, then after a step every checkpoint of the longer list, the new one included, still has one. |
| ChecksheetForm.AddToSectionsGrouped | components/ChecksheetForm.tsx:245-249 | A step preserves a correct grouping. |
| ChecksheetForm.SectionMembersSnoc | components/ChecksheetForm.tsx:248 | Appending a checkpoint appends it to its own section's members only. |
| ChecksheetForm.SectionMembersNone | components/ChecksheetForm.tsx:243-249 | A section that no checkpoint names has no members. |
| ChecksheetForm.AddToSectionsInOrder | components/ChecksheetForm.tsx:243-249 | One step of the grouping keeps the sections in the order of their first checkpoints. A known section keeps its first position (`FirstIndexSnoc`), and a new section starts at the new checkpoint. |
| ChecksheetForm.GroupBySectionGrouped | components/ChecksheetForm.tsx:243-249 | The plain grouping has distinct section names in first-seen order: for sections i < j, the first checkpoint of section i comes before the first checkpoint of section j (`FirstIndex`). Each section holds exactly its checkpoints, in order, and is never empty. Every checkpoint's section is shown. A truthy section names itself, and anything else is "General". |
| ChecksheetForm.HasInheritedSectionSnoc | components/ChecksheetForm.tsx:244-248 | A list has a section named like an inherited object property exactly when its front has one or its last checkpoint has one. |
| ChecksheetForm.RenderSectionsFails | components/ChecksheetForm.tsx:244-248 | The grouping loop throws exactly when some checkpoint's section is named like a property every object inherits, such as "constructor". |
| ChecksheetForm.RenderSectionsSucceeds | components/ChecksheetForm.tsx:243-249 | When the loop does not throw, it produces the plain grouping. |
| ChecksheetForm.RenderSectionsGrouped | components/ChecksheetForm.tsx:243-249 | The form fails to render exactly when a section has an inherited name. Otherwise every section is shown once and holds exactly its checkpoints. |
| ChecksheetForm.ConstructorSectionStopsRender | components/ChecksheetForm.tsx:246-247 | A checkpoint whose section is "constructor" stops the render. |
| ChecksheetForm.RatingStars | components/ChecksheetForm.tsx:218-221 | A missing or zero maximum shows five stars, a positive one that many, and a negative one none. |
| ChecksheetForm.RatingClick | components/ChecksheetForm.tsx:221-230 | Clicking a star records a rating between one and the number of stars. Afterwards exactly the stars up to the clicked one are lit. |
| ChecksheetForm.ToInput | components/ChecksheetForm.tsx:72-75 | Each entry becomes a response with its checkpoint id and its answer's fields. |
| ChecksheetForm.Submit | components/ChecksheetForm.tsx:69-84 | The payload names the checksheet and has one response per answered checkpoint, in answer order. The location and coordinates are present exactly when a location was taken, and no status or inspector is sent. |
| ChecksheetForm.PostedSubmissionCreated | components/ChecksheetForm.tsx:69-84 | The form hands its payload to the parent. If the parent posts it to the results endpoint for a signed-in user, and the ids name stored rows, the result is created with 201, whatever was left blank. The stored responses carry the answered checkpoint ids, in order. |
| PhotoUpload.HandleFileChange | components/PhotoUpload.tsx:18-58 | A file is handled as follows: - no file does nothing; - a non-image gets the type alert and a file over 10 MiB the size alert, with nothing sent; - a request is sent exactly for an image of at most 10 MiB; - the parent gets the url exactly on an OK reply; - a refused reply alerts its error or the fallback; - a throw alerts the fallback. |
| PhotoUpload.RejectedFileIgnoresServer | components/PhotoUpload.tsx:19-32 | A file rejected by the checks has an outcome that does not depend on the server, and nothing reaches the parent. |
| PhotoUpload.SizeLimitBoundary | components/PhotoUpload.tsx:29 | An image of exactly 10485760 bytes is sent, and one byte more is refused. |
| PhotoUpload.TypeCheckedBeforeSize | components/PhotoUpload.tsx:23-32 | An oversized non-image gets the type alert. |
| PhotoUpload.UploadedPhotoIsPreviewed | components/PhotoUpload.tsx:45-117 | Once the parent stores the url a successful upload reported, the component shows the preview of exactly that url. The view is the helper `Render`. |
| GlobalSearch.ShortQueryHidesDropdown | components/GlobalSearch.tsx:45-54 | A query too short to send hides the dropdown, and no request is sent for it. The helpers are `QueryChanged` and `RequestFor`. |
| GlobalSearch.RequestsAreNeverTooShort | components/GlobalSearch.tsx:46-54 | Every request the box sends passes the endpoint's length check. The dropdown then lists at most fifteen hits. |
| GlobalSearch.NoResultsMeansEmptyAnswer | components/GlobalSearch.tsx:88-123 | "No results" shows exactly when the answer has no hit of any kind. The count is the helper `TotalResults`. |
| GlobalSearch.LateAnswerAfterClear | components/GlobalSearch.tsx:52-68 | An answer arriving after a clear reopens the dropdown while the box is empty. |
| GlobalSearch.TypeThenAnswer | components/GlobalSearch.tsx:45-64 | Typing a query long enough to send, then receiving its OK answer, shows a dropdown with exactly that answer for that query, with the spinner off. |
| GlobalSearch.FailedAnswerKeepsView | components/GlobalSearch.tsx:52-64 | An answer that is not OK stops the spinner and leaves what was shown. |
| GlobalSearch.ClearedBoxStaysClosed | components/GlobalSearch.tsx:82-101 | After a clear, focusing the empty box does not bring the dropdown back. |
| GlobalSearch.RefocusRestores | components/GlobalSearch.tsx:71-101 | Closing the dropdown by a click elsewhere and focusing the box again restores the state exactly. |
| DashboardLayout.ActiveItems | components/DashboardLayout.tsx:233-235 | The highlighted items are exactly the navigation items whose link is the page or lies above it. |
| DashboardLayout.OwnPageActive | components/DashboardLayout.tsx:233-235 | Every navigation link is highlighted on its own page. |
| DashboardLayout.ActiveItemsInOrder | components/DashboardLayout.tsx:233-235 | On any page the highlighted links appear in the order of the navigation. |
| DashboardLayout.CreatePageHighlightsTwo | components/DashboardLayout.tsx:40-50 | On the create page both "Create Checksheet" and "My Checksheets" are highlighted, but not "Dashboard". |
| DashboardLayout.PrefixSiblingNotActive | components/DashboardLayout.tsx:235 | A page that only shares a prefix with a link, without the separator, does not highlight it. |
| DashboardLayout.NoPathnameNothingActive | components/DashboardLayout.tsx:235 | Without a pathname nothing is highlighted. |
| DashboardLayout.AvatarLetter | components/DashboardLayout.tsx:182 | The avatar shows one character: the name's first letter, else the email's, else "A". |
| DashboardLayout.NamelessLabels | components/DashboardLayout.tsx:185-194 | Without a name the heading is "User". Without a role the role line is "USER". The button shows the email when it is non-empty, else "User". |
| DashboardLayout.AvatarMatchesButton | components/DashboardLayout.tsx:182-186 | The avatar letter is the upper-cased first letter of the button label. The helpers are `FirstLetter` (`charAt(0).toUpperCase()`) and `FirstTruthy` (`a || b || fallback`). |
| DashboardLayout.CaptionIsShortName | components/DashboardLayout.tsx:142-157 | After any offered language is picked (`SelectLanguage`), the caption (`LangCaption`) is the short name the menu lists for it. |
| DashboardLayout.LangMenuToggleTwice | components/DashboardLayout.tsx:142-146 | The language button flips the menu. Flipping it twice restores it, and the caption never changes. |
| DashboardLayout.ToggleSurvivesReload | components/DashboardLayout.tsx:71-90 | Reloading from what a toggle (`Toggle`) stored gives back the toggled mode through the mount effect (`Mount`). |
| DashboardLayout.ToggleTwice | components/DashboardLayout.tsx:81-90 | Two toggles restore the mode, with the class in step with it. |
| DashboardLayout.OnlyExactTrueIsDark | components/DashboardLayout.tsx:72-73 | Only the exact text "true" selects dark mode. |

## Left out

The framework and outside services:
- Authentication, the session store and the Prisma client are not part of this model. The session is a parameter, and the stored rows are sequences in store order.
- Which rows a filter selects rests on the assumed Prisma semantics above.
- The database schema is not part of this model. These facts about it are assumed:
  - the checksheet status enum has the values DRAFT, ACTIVE and ARCHIVED, and DRAFT is the column default that a created checksheet gets;
  - the result status enum has the values IN_PROGRESS and COMPLETED;
  - the response status column is an enum that holds PENDING; its other values are not known to this model;
  - filtering an enum column by a value outside its enum makes the query throw.
- Other column defaults, foreign-key checks other than the missing checksheet and checkpoint ids, and the `include`/`select` shaping of replies are not modelled.
- The network, `fetch`, the upload service, the generative model, `JSON.parse`, `console.error` and `alert` boxes are replaced by inputs. The alert texts are kept where a component raises them.
- Timers and concurrency: the 300 ms debounce and its cancelled timers, and the interleaving of React renders. `Date.now()` is an input: a string for an added checkpoint's id, and a reading per element for generated ids. The one interleaving that matters is the upload finding below.
- Rendering, styling, icons and the sidebar's open/closed toggle; the sign-out button, links and routing beyond the gate's decision.
- The gate's `config.matcher` (proxy.ts:25-29) keeps it from running on paths that begin with `/api`, `/_next/static`, `/_next/image` or `/favicon.ico`. `Proxy.Decide` is the decision for a path that reaches the gate.
- Floating point: coordinates and numbers are `real`. `toFixed`, `parseFloat` and NaN from the NUMBER input are not modelled.
- Strings are sequences of code points. JavaScript's UTF-16 `length` and the Unicode case mapping of `toUpperCase` and of Prisma's case-insensitive `contains` are reduced to ASCII.
- `Object.entries` lists integer-like keys first; the model keeps insertion order for every key.

The operations:
- The `orderBy: { updatedAt | createdAt: 'desc' }` of the listings is not modelled. The lists keep store order.
- `handleAIGenerate`'s request, its alerts and its spinner are not modelled; only its effect on the editor (`Builder.ApplyGenerated`) is.
- A generated checkpoint keeps only the six fields the editor and the save read. Other keys of a reply element are dropped, since nothing reads them.
- The form's per-checkpoint `uploading` flags and `getLocation` are not modelled. The location is a `Submit` input.
- The form's default branch ("Unsupported field type") and the inputs' rendered values are not modelled.
- The rest of the repository (other pages, other endpoints, the seed data, the other components) is not part of this model.

Weaker contracts:
- Builder.HandleDragEnd: requires both ids, when present, to be items of the list. The drag-and-drop library only reports such ids. A missing id would make `arrayMove` receive -1, which is not modelled.
- Builder.ArrayMove: the library's `arrayMove` is assumed to mean remove-then-insert, and the contract is stated for indices inside the list only.
- Builder.AddCheckpoint: takes the timestamp id as a parameter. Two additions within one millisecond would share an id, and this is not modelled.
- Builder.ApplyGenerated: field values are JSON values or `undefined`. JavaScript values a JSON reply cannot carry, and NaN, are not modelled.
- ResultsApi.PostResult: a response status outside the response-status enum, or a checksheet id that names no checksheet, would make the database throw (500). Only the missing ids are modelled as refused. The result's own status is always IN_PROGRESS, and a status in the body is ignored. The body is a typed record, so ill-typed JSON fields are not representable. Examples are a `null` body, a numeric `checksheetId`, `responses` that is not an array, a `null` response, or a string `photoUrls`. The handler destructures the body without validating it, so each of these throws and gets 500.
- ChecksheetForm.RatingStars: `Array.from` with a non-integer or huge length is not modelled. A negative maximum gives zero stars, as in JavaScript, where the length is clamped to 0.
- Gemini.GenerateChecksheet: a thrown `null` or `undefined`, on which reading `status` in the `catch` throws again, is not modelled.
- AiGenerateRoute.PostGenerate: a non-string truthy `prompt` is not modelled. Prompts are strings.
- ChecksheetForm.Put: states only that the key holds the new answer. The key order and the other keys are stated by `PutKeys` and `PutOthers`.
- ChecksheetForm.AddToSections: states only how many sections a step adds. The names and members are stated by the lemmas that follow it.

## Behaviour worth knowing

- The checkpoint schema accepts fourteen field types, including RATING.
- The execution form does not refuse to submit with required checkpoints unanswered. It only marks them with an asterisk, and `ChecksheetForm.PostedSubmissionCreated` shows that the payload is accepted whatever was left blank.
- For a non-ADMIN caller, search does not require both the text match and the access condition. The spread keeps only the access condition; see the finding below.
- A non-ADMIN caller whose organization id is undefined sees every checksheet in the listing (`ChecksheetsApi.UndefinedOrgSeesEverything`). In search, the same holds for any caller without an organization id (`SearchApi.NoOrgSearchSeesEveryChecksheet`). Both rest on the assumed Prisma semantics of `undefined`, so they are recorded as behaviour and not as findings.
- A status filter outside the enum is not validated by the listings; the database query fails and the client gets a 500 (`ChecksheetsApi.ListChecksheets`, `ResultsApi.ListResults`).
- A checkpoint section named like a property every object inherits, such as "constructor", makes the execution form throw while grouping (`ChecksheetForm.RenderSectionsFails`).
- An ok generation reply without a `checkpoints` array still overwrites the title, description and category, and keeps the old checkpoints (`Builder.ReplyWithoutListMixes`).
- `toggleDarkMode` is defined in the dashboard frame but no control calls it.
- The response `gpsLat` line on the GPS field can never show, since nothing writes that field (`ChecksheetForm.FormNeverWritesGps`).
- An answer that arrives after the search box is cleared reopens the dropdown with an empty query (`GlobalSearch.LateAnswerAfterClear`).

## Findings

| source | as written | input that shows it | evidently intended | confidence | as-written member | corrected member |
|---|---|---|---|---|---|---|
| components/ChecksheetForm.tsx:36-42 | After the upload's `await`, the answers are rebuilt from `responses` as they were when the upload began. | The inspector types "ok" into checkpoint "b" while a photo for checkpoint "a" uploads. When the upload succeeds, the answer for "b" is gone. | Append the url to the answers as they are when the upload finishes, keeping everything else. | high, not executed | ChecksheetForm.UploadAsWritten, ChecksheetForm.UploadAsWrittenLosesConcurrentAnswer | ChecksheetForm.Upload |
| app/api/search/route.ts:28-36 | `{ ...searchCondition, ...{ OR: access } }`: both objects have the key `OR`, so the access condition replaces the text condition. | A non-ADMIN user searches "zz" and owns a checksheet titled "Boiler" with no description. It is returned. | Require both the text match and the access condition. | high, not executed | SearchApi.ChecksheetWhere, SearchApi.SpreadDropsTextMatch | SearchApi.IntendedChecksheetWhere, SearchApi.IntendedChecksheetWhereMeansHit |

`SearchApi.Search` models the endpoint as written. `SearchApi.IntendedNarrowsAsWritten` relates the corrected filter to it.

=== FILE: ai_generate_route.dfy ===
/** `POST /api/ai/generate`: a signed-in user's prompt (and optional
    category) is handed to the generator of the adapter, and its outcome is
    turned into an HTTP reply. */
module AiGenerateRoute {
  import opened Base
  import opened Gemini

  /** The JSON body; `None` is a missing key. */
  datatype AiBody = AiBody(prompt: Option<string>, category: Option<string>)

  const PromptRequired := "Prompt is required"

  /** The reply of the handler. `body` is `None` when the request body is not
      JSON (which the handler's `catch` turns into a 500), `generate` stands
      for `generateChecksheet`. */
  function PostGenerate<D>(session: Session, body: Option<AiBody>,
                           generate: (string, Option<string>) -> GenResult<D>): (r: Reply<D>)
    ensures session.None? ==> r == Unauthorized()
    ensures session.Some? && body.None? ==> r == Reply(500, ErrorMsg(GenerateFallback))
    ensures session.Some? && body.Some? && !Truthy(body.value.prompt) ==>
      r == Reply(400, ErrorMsg(PromptRequired))
    ensures r.status == 200 <==>
      session.Some? && body.Some? && Truthy(body.value.prompt)
      && generate(body.value.prompt.value, body.value.category).GenOk?
    ensures r.status == 200 ==>
      r.body == Data(generate(body.value.prompt.value, body.value.category).data)
    ensures (session.Some? && body.Some? && Truthy(body.value.prompt)
             && generate(body.value.prompt.value, body.value.category).GenFailed?) ==>
      r == Reply(500, ErrorMsg(generate(body.value.prompt.value, body.value.category).error))
  {
    if session.None? then Unauthorized()
    else if body.None? then Reply(500, ErrorMsg(GenerateFallback))
    else if !Truthy(body.value.prompt) then Reply(400, ErrorMsg(PromptRequired))
    else
      match generate(body.value.prompt.value, body.value.category)
      case GenOk(d) => Reply(200, Data(d))
      case GenFailed(e) => Reply(500, ErrorMsg(e))
  }

  /** The generator is never consulted without a session, without a JSON
      body, or without a non-empty prompt: any two generators give the same
      reply. */
  lemma GeneratorNotCalledWhenRejected<D>(session: Session, body: Option<AiBody>,
                                          g1: (string, Option<string>) -> GenResult<D>,
                                          g2: (string, Option<string>) -> GenResult<D>)
    requires session.None? || body.None? || !Truthy(body.value.prompt)
    ensures PostGenerate(session, body, g1) == PostGenerate(session, body, g2)
  {
  }

  /** The error text of a failed generation reaches the client verbatim, so a
      rate-limited model call is reported with the quota message. */
  lemma RateLimitReported<D>(u: User, prompt: string, category: Option<string>, e: Thrown,
                             parse: string -> Result<D, Thrown>)
    requires prompt != "" && e.status == Some(429)
    ensures PostGenerate(Some(u), Some(AiBody(Some(prompt), category)),
                         (p, c) => GenerateChecksheet(Failure(e), parse))
         == Reply(500, ErrorMsg(QuotaMessage))
  {
  }
}

=== FILE: base.dfy ===
/** Shared vocabulary of the GenSheet model: optional values, the session that
    the authentication layer hands to every request handler, HTTP replies,
    untyped JSON values, and the small sequence helpers (filter, take) the
    request handlers are built from. */
module Base {

  datatype Option<+T> = None | Some(value: T)

  /** Result of an operation that can fail with an error value. */
  datatype Result<+R, +E> = Success(value: R) | Failure(error: E)

  /** The four user roles of the application. */
  datatype Role = Admin | Supervisor | Inspector | Viewer

  /** `session.user.organizationId` is typed `string | null | undefined`; the
      three states behave differently once they reach a database filter, so
      all three are kept apart. */
  datatype OrgRef = OrgUndefined | OrgNull | OrgId(id: string)

  datatype User = User(id: string, role: Role, organizationId: OrgRef)

  /** `auth()` either yields a session with a user or nothing usable; both
      "no session" and "session without user" are `None`. */
  type Session = Option<User>

  /** Untyped JSON, for request bodies and free-form configuration. */
  datatype Json =
    | JNull
    | JBool(b: bool)
    | JNum(n: real)
    | JStr(s: string)
    | JArr(items: seq<Json>)
    | JObj(fields: map<string, Json>)

  /** The body of a JSON reply. */
  datatype Body<+T> =
    | Data(value: T)
    | ErrorMsg(error: string)
    | ValidationError(error: string, details: seq<Issue>)

  /** One schema-validation issue: where in the body, and what kind. */
  datatype Issue = Issue(path: seq<string>, code: IssueCode)
  datatype IssueCode = InvalidType | TooSmall | InvalidEnumValue

  datatype Reply<+T> = Reply(status: nat, body: Body<T>)

  /** The reply every handler gives when `auth()` yields no user. */
  function Unauthorized<T>(): Reply<T>
  {
    Reply(401, ErrorMsg("Unauthorized"))
  }

  /** JavaScript truthiness of an optional string (`undefined`, `null` and
      `""` are falsy). */
  predicate Truthy(s: Option<string>)
  {
    s.Some? && s.value != ""
  }

  /** A status query parameter the database can compare against an enum
      column with the values `statuses`: absent, empty (no filter) or one of
      the values. */
  predicate StatusParamOk(status: Option<string>, statuses: seq<string>)
  {
    !Truthy(status) || status.value in statuses
  }

  /** `Array.prototype.filter`: the elements satisfying `p`, in order. */
  function Filter<T>(s: seq<T>, p: T -> bool): (r: seq<T>)
    ensures |r| <= |s|
    ensures forall x :: x in r ==> x in s && p(x)
    ensures forall x :: x in s && p(x) ==> x in r
  {
    if |s| == 0 then []
    else if p(s[0]) then [s[0]] + Filter(s[1..], p)
    else Filter(s[1..], p)
  }

  /** Filtering a concatenation filters each part. */
  lemma {:induction false} FilterAppend<T>(a: seq<T>, b: seq<T>, p: T -> bool)
    ensures Filter(a + b, p) == Filter(a, p) + Filter(b, p)
  {
    if |a| == 0 {
      assert a + b == b;
    } else {
      assert (a + b)[1..] == a[1..] + b;
      FilterAppend(a[1..], b, p);
    }
  }

  /** A predicate that no element satisfies selects nothing. */
  lemma {:induction false} FilterNone<T>(s: seq<T>, p: T -> bool)
    requires forall x :: x in s ==> !p(x)
    ensures Filter(s, p) == []
  {
    if |s| > 0 {
      assert s[0] in s;
      assert forall x :: x in s[1..] ==> x in s;
      FilterNone(s[1..], p);
    }
  }

  /** Two predicates that agree on every element select the same elements. */
  lemma {:induction false} FilterCongruent<T>(s: seq<T>, p: T -> bool, q: T -> bool)
    requires forall x :: x in s ==> p(x) == q(x)
    ensures Filter(s, p) == Filter(s, q)
  {
    if |s| > 0 {
      assert s[0] in s;
      assert forall x :: x in s[1..] ==> x in s;
      FilterCongruent(s[1..], p, q);
    }
  }

  /** `a` is `b` with some elements left out, the rest in their order. */
  predicate Subsequence<T(==)>(a: seq<T>, b: seq<T>)
    decreases |b|
  {
    |a| == 0 || (|b| > 0 && ((a[0] == b[0] && Subsequence(a[1..], b[1..])) || Subsequence(a, b[1..])))
  }

  /** Filtering keeps the selected elements in their original order. */
  lemma {:induction false} FilterSubsequence<T>(s: seq<T>, p: T -> bool)
    ensures Subsequence(Filter(s, p), s)
  {
    if |s| > 0 {
      FilterSubsequence(s[1..], p);
    }
  }

  /** Prisma's `take: n`: at most the first `n` elements. */
  function Take<T>(s: seq<T>, n: nat): (r: seq<T>)
    ensures |r| <= n && |r| <= |s|
    ensures |s| <= n ==> r == s
    ensures forall i :: 0 <= i < |r| ==> r[i] == s[i]
  {
    if |s| <= n then s else s[..n]
  }

  /** The sequence 0, 1, ..., n-1. */
  function Iota(n: nat): (r: seq<nat>)
    ensures |r| == n && forall i :: 0 <= i < n ==> r[i] == i
  {
    if n == 0 then [] else Iota(n - 1) + [n - 1]
  }
}

=== FILE: builder.dfy ===
/** The checkpoint list editor of the checksheet builder: the client-side list
    of checkpoints that the author adds to, edits, deletes from and reorders by
    drag and drop, and the payload that saving it sends to the server. */
module Builder {
  import opened Base
  import opened Strings

  /** A JavaScript value an editor field can hold: `undefined`, or a value
      that a parsed JSON reply can carry. The inputs only ever store strings
      and booleans; the AI reply can store anything. */
  datatype JsVal = Undefined | Defined(v: Json)

  /** What a text input's `onChange` stores: the input's string. */
  function Text(s: string): JsVal
  {
    Defined(JStr(s))
  }

  /** JavaScript truthiness of a field value (`!title` is its negation). */
  predicate JsTruthy(x: JsVal)
  {
    match x
    case Undefined => false
    case Defined(j) =>
      match j
      case JNull => false
      case JBool(b) => b
      case JNum(n) => n != 0.0
      case JStr(s) => s != ""
      case _ => true
  }

  /** `o.k` on a parsed JSON value: an object's own property, and `undefined`
      on anything else. None of the keys read here names a property that
      parsed values inherit. */
  function Prop(o: Json, k: string): JsVal
  {
    if o.JObj? && k in o.fields then Defined(o.fields[k]) else Undefined
  }

  /** A checkpoint as the editor holds it; `id` is a client-side key only. */
  datatype Checkpoint = Checkpoint(
    id: string,
    title: JsVal,
    description: JsVal,
    fieldType: JsVal,
    section: JsVal,
    isRequired: JsVal,
    config: JsVal)

  /** `Partial<Checkpoint>`: `None` is a key the update object does not have. */
  datatype Patch = Patch(
    id: Option<string>,
    title: Option<JsVal>,
    description: Option<JsVal>,
    fieldType: Option<JsVal>,
    section: Option<JsVal>,
    isRequired: Option<JsVal>,
    config: Option<JsVal>)

  /** A checkpoint as the save payload carries it: no id, an explicit order. */
  datatype SavedCheckpoint = SavedCheckpoint(
    title: JsVal,
    description: JsVal,
    fieldType: JsVal,
    section: JsVal,
    isRequired: JsVal,
    config: JsVal,
    order: nat)

  datatype SavePayload = SavePayload(
    title: JsVal,
    description: JsVal,
    category: JsVal,
    checkpoints: seq<SavedCheckpoint>)

  /** The editor state that the AI generator and the save button touch. */
  datatype Editor = Editor(
    title: JsVal,
    description: JsVal,
    category: JsVal,
    checkpoints: seq<Checkpoint>)

  /** What `handleAIGenerate` got from `POST /api/ai/generate`: a reply whose
      body parsed as JSON, with the reply's `ok` flag, or a request or parse
      that threw. */
  datatype GenerateOutcome = Replied(ok: bool, data: Json) | Threw

  // ---------------------------------------------------------------- add

  /** The checkpoint that "Add Checkpoint" appends. */
  const Blank: Checkpoint := Checkpoint("", Text(""), Text(""), Text("CHECKBOX"), Text(""),
                                         Defined(JBool(false)), Defined(JObj(map[])))

  /** Adding a checkpoint; `freshId` stands for the timestamp-based id. */
  function AddCheckpoint(cps: seq<Checkpoint>, freshId: string): (r: seq<Checkpoint>)
    ensures |r| == |cps| + 1
    ensures r[..|cps|] == cps
    ensures r[|cps|].id == freshId
    ensures r[|cps|].title == Text("") && r[|cps|].description == Text("") && r[|cps|].section == Text("")
    ensures r[|cps|].fieldType == Text("CHECKBOX") && r[|cps|].isRequired == Defined(JBool(false))
    ensures r[|cps|].config == Defined(JObj(map[]))
  {
    cps + [Blank.(id := freshId)]
  }

  // ------------------------------------------------------------- update

  /** `{ ...cp, ...updates }`. */
  function ApplyPatch(cp: Checkpoint, u: Patch): Checkpoint
  {
    Checkpoint(
      if u.id.Some? then u.id.value else cp.id,
      if u.title.Some? then u.title.value else cp.title,
      if u.description.Some? then u.description.value else cp.description,
      if u.fieldType.Some? then u.fieldType.value else cp.fieldType,
      if u.section.Some? then u.section.value else cp.section,
      if u.isRequired.Some? then u.isRequired.value else cp.isRequired,
      if u.config.Some? then u.config.value else cp.config)
  }

  const NoChange: Patch := Patch(None, None, None, None, None, None, None)

  function UpdateCheckpoint(cps: seq<Checkpoint>, id: string, u: Patch): (r: seq<Checkpoint>)
    ensures |r| == |cps|
    ensures forall i :: 0 <= i < |cps| && cps[i].id == id ==> r[i] == ApplyPatch(cps[i], u)
    ensures forall i :: 0 <= i < |cps| && cps[i].id != id ==> r[i] == cps[i]
  {
    if |cps| == 0 then []
    else [if cps[0].id == id then ApplyPatch(cps[0], u) else cps[0]]
         + UpdateCheckpoint(cps[1..], id, u)
  }

  /** An update that supplies no field changes nothing, and an update of an
      id the list does not hold changes nothing either. */
  lemma UpdateNoOp(cps: seq<Checkpoint>, id: string, u: Patch)
    requires u == NoChange || forall i :: 0 <= i < |cps| ==> cps[i].id != id
    ensures UpdateCheckpoint(cps, id, u) == cps
  {
    var r := UpdateCheckpoint(cps, id, u);
    forall i | 0 <= i < |cps|
      ensures r[i] == cps[i]
    {
      if cps[i].id == id {
        assert u == NoChange;
      }
    }
  }

  /** An update that does not touch the id keeps every id where it was, so
      the list stays keyed as before. */
  lemma UpdateKeepsIds(cps: seq<Checkpoint>, id: string, u: Patch)
    requires u.id.None?
    ensures forall i :: 0 <= i < |cps| ==> UpdateCheckpoint(cps, id, u)[i].id == cps[i].id
  {
  }

  /** Applying the same update twice is the same as applying it once, even
      when the update changes the id. */
  lemma UpdateTwice(cps: seq<Checkpoint>, id: string, u: Patch)
    ensures UpdateCheckpoint(UpdateCheckpoint(cps, id, u), id, u) == UpdateCheckpoint(cps, id, u)
  {
    var once := UpdateCheckpoint(cps, id, u);
    var twice := UpdateCheckpoint(once, id, u);
    forall i | 0 <= i < |cps|
      ensures twice[i] == once[i]
    {
      if once[i].id == id {
        assert ApplyPatch(once[i], u) == once[i];
      }
    }
  }

  // ------------------------------------------------------------- delete

  function DeleteCheckpoint(cps: seq<Checkpoint>, id: string): (r: seq<Checkpoint>)
    ensures |r| <= |cps|
    ensures forall i :: 0 <= i < |r| ==> r[i].id != id
    ensures forall c :: c in r <==> c in cps && c.id != id
  {
    if |cps| == 0 then []
    else if cps[0].id == id then DeleteCheckpoint(cps[1..], id)
    else [cps[0]] + DeleteCheckpoint(cps[1..], id)
  }

  /** Deleting from a concatenation deletes from each part: together with
      the one-element cases this says the survivors keep their relative
      order. */
  lemma {:induction false} DeleteAppend(a: seq<Checkpoint>, b: seq<Checkpoint>, id: string)
    ensures DeleteCheckpoint(a + b, id) == DeleteCheckpoint(a, id) + DeleteCheckpoint(b, id)
  {
    if |a| == 0 {
      assert a + b == b;
    } else {
      assert (a + b)[1..] == a[1..] + b;
      DeleteAppend(a[1..], b, id);
    }
  }

  lemma DeleteSingle(c: Checkpoint, id: string)
    ensures DeleteCheckpoint([c], id) == if c.id == id then [] else [c]
  {
  }

  /** Deleting an id that is not in the list is a no-op. */
  lemma {:induction false} DeleteAbsent(cps: seq<Checkpoint>, id: string)
    requires forall i :: 0 <= i < |cps| ==> cps[i].id != id
    ensures DeleteCheckpoint(cps, id) == cps
  {
    if |cps| > 0 {
      DeleteAbsent(cps[1..], id);
    }
  }

  /** Adding a checkpoint under an id the list does not hold and deleting
      that id again gives back the list. */
  lemma DeleteUndoesAdd(cps: seq<Checkpoint>, id: string)
    requires forall i :: 0 <= i < |cps| ==> cps[i].id != id
    ensures DeleteCheckpoint(AddCheckpoint(cps, id), id) == cps
  {
    DeleteAppend(cps, [Blank.(id := id)], id);
    DeleteAbsent(cps, id);
    DeleteSingle(Blank.(id := id), id);
  }

  /** The count of checkpoints carrying `id`. */
  function CountId(cps: seq<Checkpoint>, id: string): nat
  {
    if |cps| == 0 then 0 else (if cps[0].id == id then 1 else 0) + CountId(cps[1..], id)
  }

  /** Deleting removes exactly the entries carrying the id. */
  lemma {:induction false} DeleteCount(cps: seq<Checkpoint>, id: string)
    ensures |DeleteCheckpoint(cps, id)| == |cps| - CountId(cps, id)
  {
    if |cps| > 0 {
      DeleteCount(cps[1..], id);
    }
  }

  // ------------------------------------------------------------- reorder

  /** `items.findIndex(item => item.id === id)`: the first index, or -1. */
  function FindIndex(cps: seq<Checkpoint>, id: string): (r: int)
    ensures -1 <= r < |cps|
    ensures r == -1 <==> forall i :: 0 <= i < |cps| ==> cps[i].id != id
    ensures r >= 0 ==> cps[r].id == id && forall j :: 0 <= j < r ==> cps[j].id != id
  {
    if |cps| == 0 then -1
    else if cps[0].id == id then 0
    else
      var k := FindIndex(cps[1..], id);
      if k == -1 then -1 else k + 1
  }

  function RemoveAt<T>(s: seq<T>, i: nat): (r: seq<T>)
    requires i < |s|
    ensures |r| == |s| - 1
  {
    s[..i] + s[i + 1..]
  }

  function InsertAt<T>(s: seq<T>, i: nat, x: T): (r: seq<T>)
    requires i <= |s|
    ensures |r| == |s| + 1
    ensures r[i] == x
    ensures RemoveAt(r, i) == s
  {
    var r := s[..i] + [x] + s[i..];
    assert r[..i] == s[..i] && r[i + 1..] == s[i..];
    r
  }

  /** `arrayMove(items, from, to)` of the drag-and-drop library, which is not
      part of this model: ASSUMED to remove the element at `from` and insert
      it at `to`. */
  function ArrayMove<T>(s: seq<T>, from: nat, to: nat): (r: seq<T>)
    requires from < |s| && to < |s|
    ensures |r| == |s|
    ensures r[to] == s[from]
    ensures RemoveAt(r, to) == RemoveAt(s, from)
    ensures multiset(r) == multiset(s)
  {
    var rest := RemoveAt(s, from);
    assert s == s[..from] + [s[from]] + s[from + 1..];
    assert multiset(s) == multiset(rest) + multiset{s[from]};
    var r := InsertAt(rest, to, s[from]);
    assert r == rest[..to] + [s[from]] + rest[to..];
    assert rest == rest[..to] + rest[to..];
    r
  }

  /** Moving an element onto its own place changes nothing. */
  lemma ArrayMoveSame<T>(s: seq<T>, i: nat)
    requires i < |s|
    ensures ArrayMove(s, i, i) == s
  {
    var r := ArrayMove(s, i, i);
    assert r == r[..i] + [r[i]] + r[i + 1..];
    assert r[..i] == RemoveAt(r, i)[..i] == s[..i];
    assert r[i + 1..] == RemoveAt(r, i)[i..] == s[i + 1..];
    assert s == s[..i] + [s[i]] + s[i + 1..];
  }

  /** Dropping the dragged item `activeId` over the item `over`. A drop
      outside every item (`over` null) makes the handler throw on `over.id`
      before it touches the list, so the list stays as it was. Both ids, when
      present, are keys of the sortable list. */
  function HandleDragEnd(cps: seq<Checkpoint>, activeId: string, over: Option<string>): (r: seq<Checkpoint>)
    requires FindIndex(cps, activeId) >= 0
    requires over.Some? ==> FindIndex(cps, over.value) >= 0
    ensures over.None? || activeId == over.value ==> r == cps
    ensures |r| == |cps|
    ensures multiset(r) == multiset(cps)
    ensures over.Some? ==> r[FindIndex(cps, over.value)] == cps[FindIndex(cps, activeId)]
    ensures over.Some? ==> RemoveAt(r, FindIndex(cps, over.value)) == RemoveAt(cps, FindIndex(cps, activeId))
  {
    if over.Some? && activeId != over.value then
      ArrayMove(cps, FindIndex(cps, activeId), FindIndex(cps, over.value))
    else
      cps
  }

  // ---------------------------------------------------------------- save

  function ToSaved(cp: Checkpoint, order: nat): SavedCheckpoint
  {
    SavedCheckpoint(cp.title, cp.description, cp.fieldType, cp.section, cp.isRequired, cp.config, order)
  }

  /** `checkpoints.map((cp, index) => ({ ...fields, order: index }))`,
      numbering from `start`. */
  function NumberFrom(cps: seq<Checkpoint>, start: nat): (r: seq<SavedCheckpoint>)
    ensures |r| == |cps|
    ensures forall i :: 0 <= i < |cps| ==> r[i].order == start + i
    ensures forall i :: 0 <= i < |cps| ==>
      && r[i].title == cps[i].title && r[i].description == cps[i].description
      && r[i].fieldType == cps[i].fieldType && r[i].section == cps[i].section
      && r[i].isRequired == cps[i].isRequired && r[i].config == cps[i].config
  {
    if |cps| == 0 then []
    else [ToSaved(cps[0], start)] + NumberFrom(cps[1..], start + 1)
  }

  function HandleSave(e: Editor): (p: SavePayload)
    ensures p.title == e.title && p.description == e.description && p.category == e.category
    ensures |p.checkpoints| == |e.checkpoints|
    ensures forall i :: 0 <= i < |p.checkpoints| ==> p.checkpoints[i].order == i
    ensures forall i :: 0 <= i < |p.checkpoints| ==>
      && p.checkpoints[i].title == e.checkpoints[i].title
      && p.checkpoints[i].description == e.checkpoints[i].description
      && p.checkpoints[i].fieldType == e.checkpoints[i].fieldType
      && p.checkpoints[i].section == e.checkpoints[i].section
      && p.checkpoints[i].isRequired == e.checkpoints[i].isRequired
      && p.checkpoints[i].config == e.checkpoints[i].config
  {
    SavePayload(e.title, e.description, e.category, NumberFrom(e.checkpoints, 0))
  }

  function Orders(cs: seq<SavedCheckpoint>): (r: seq<nat>)
    ensures |r| == |cs| && forall i :: 0 <= i < |cs| ==> r[i] == cs[i].order
  {
    seq(|cs|, i requires 0 <= i < |cs| => cs[i].order)
  }

  /** The orders in a save payload, read in list order, are exactly 0..N-1. */
  lemma SaveOrdersAreRange(e: Editor)
    ensures Orders(HandleSave(e).checkpoints) == Iota(|e.checkpoints|)
  {
  }

  /** The save button is enabled when the title is truthy and the list
      holds a checkpoint. */
  predicate CanSave(e: Editor)
  {
    JsTruthy(e.title) && |e.checkpoints| > 0
  }

  /** An enabled save always sends a truthy title and a non-empty
      checkpoint list whose first entry has order 0. */
  lemma CanSavePayload(e: Editor)
    requires CanSave(e)
    ensures JsTruthy(HandleSave(e).title)
    ensures |HandleSave(e).checkpoints| > 0 && HandleSave(e).checkpoints[0].order == 0
  {
  }

  /** Saving after an addition sends the earlier checkpoints as before and
      the new one last, as an optional CHECKBOX with order `|cps|`. */
  lemma SaveAfterAdd(e: Editor, freshId: string)
    ensures var before := HandleSave(e).checkpoints;
            var after := HandleSave(e.(checkpoints := AddCheckpoint(e.checkpoints, freshId))).checkpoints;
            && |after| == |before| + 1
            && after[..|before|] == before
            && after[|before|].order == |e.checkpoints|
            && after[|before|].fieldType == Text("CHECKBOX")
            && after[|before|].isRequired == Defined(JBool(false))
  {
    var cps := e.checkpoints;
    var before := HandleSave(e).checkpoints;
    var after := HandleSave(e.(checkpoints := AddCheckpoint(cps, freshId))).checkpoints;
    assert |after| == |before| + 1;
    forall i | 0 <= i < |before|
      ensures after[i] == before[i]
    {
      assert AddCheckpoint(cps, freshId)[i] == cps[i];
    }
  }

  // ------------------------------------------------------ AI generation

  /** The client id of the `index`th generated checkpoint, built from the
      `Date.now()` reading `now` taken while mapping that element. */
  function GeneratedId(now: nat, index: nat): string
  {
    "checkpoint-" + NatToString(now) + "-" + NatToString(index)
  }

  /** Two generated ids are equal only for the same index, whatever clock
      readings they were built from: the index is the part after the last
      `-`, and a decimal number holds no `-`. */
  lemma GeneratedIdInjective(now1: nat, i: nat, now2: nat, j: nat)
    requires GeneratedId(now1, i) == GeneratedId(now2, j)
    ensures i == j
  {
    NatToStringOmits(i, '-');
    NatToStringOmits(j, '-');
    LastPartAfter("checkpoint-" + NatToString(now1), NatToString(i),
                  "checkpoint-" + NatToString(now2), NatToString(j), '-');
    NatToStringInjective(i, j);
  }

  /** `{ ...cp, id }` for one element of the generated list. The spread
      copies the element's own properties, so a value that is not an object
      contributes none and leaves every field `undefined`. */
  function WithGeneratedId(cp: Json, id: string): Checkpoint
  {
    Checkpoint(id, Prop(cp, "title"), Prop(cp, "description"), Prop(cp, "fieldType"),
               Prop(cp, "section"), Prop(cp, "isRequired"), Prop(cp, "config"))
  }

  /** `data.checkpoints.map((cp, index) => ({ ...cp, id: ... }))`, where
      `clock(index)` is the `Date.now()` reading taken for that element. */
  function AssignIds(items: seq<Json>, clock: nat -> nat): (r: seq<Checkpoint>)
    ensures |r| == |items|
    ensures forall i :: 0 <= i < |items| ==>
      && r[i].id == GeneratedId(clock(i), i)
      && r[i].title == Prop(items[i], "title") && r[i].description == Prop(items[i], "description")
      && r[i].fieldType == Prop(items[i], "fieldType") && r[i].section == Prop(items[i], "section")
      && r[i].isRequired == Prop(items[i], "isRequired") && r[i].config == Prop(items[i], "config")
    ensures forall i, j :: 0 <= i < j < |r| ==> r[i].id != r[j].id
  {
    var r := seq(|items|, i requires 0 <= i < |items| => WithGeneratedId(items[i], GeneratedId(clock(i), i)));
    forall i, j | 0 <= i < j < |r|
      ensures r[i].id != r[j].id
    {
      if r[i].id == r[j].id {
        GeneratedIdInjective(clock(i), i, clock(j), j);
      }
    }
    r
  }

  /** A reply body whose `checkpoints` is an array, the only value with a
      `map` method that a JSON reply can carry. */
  predicate HasList(d: Json)
  {
    Prop(d, "checkpoints").Defined? && Prop(d, "checkpoints").v.JArr?
  }

  /** The editor after `handleAIGenerate` with a non-empty prompt.
      A failed request, an unparsable body or a reply that is not ok leaves
      the editor as it was, and so does an ok reply whose body is `null`,
      since reading `data.title` throws first. Any other ok reply sets title,
      description and category to what the body holds there (possibly
      `undefined`). The checkpoint list is replaced only when the body's
      `checkpoints` is an array; otherwise `data.checkpoints.map` throws
      after the three setters ran, and the old list stays. */
  function ApplyGenerated(e: Editor, outcome: GenerateOutcome, clock: nat -> nat): (r: Editor)
    ensures !(outcome.Replied? && outcome.ok && !outcome.data.JNull?) ==> r == e
    ensures outcome.Replied? && outcome.ok && !outcome.data.JNull? ==>
      && r.title == Prop(outcome.data, "title")
      && r.description == Prop(outcome.data, "description")
      && r.category == Prop(outcome.data, "category")
    ensures outcome.Replied? && outcome.ok && !HasList(outcome.data) ==> r.checkpoints == e.checkpoints
    ensures outcome.Replied? && outcome.ok && HasList(outcome.data) ==>
      && |r.checkpoints| == |Prop(outcome.data, "checkpoints").v.items|
      && forall i, j :: 0 <= i < j < |r.checkpoints| ==> r.checkpoints[i].id != r.checkpoints[j].id
    ensures outcome.Replied? && outcome.ok && HasList(outcome.data) ==>
      var items := Prop(outcome.data, "checkpoints").v.items;
      forall i :: 0 <= i < |items| ==>
        && r.checkpoints[i].id == GeneratedId(clock(i), i)
        && r.checkpoints[i].title == Prop(items[i], "title")
        && r.checkpoints[i].description == Prop(items[i], "description")
        && r.checkpoints[i].fieldType == Prop(items[i], "fieldType")
        && r.checkpoints[i].section == Prop(items[i], "section")
        && r.checkpoints[i].isRequired == Prop(items[i], "isRequired")
        && r.checkpoints[i].config == Prop(items[i], "config")
  {
    match outcome
    case Replied(true, d) =>
      if d.JNull? then e
      else
        var texts := e.(title := Prop(d, "title"), description := Prop(d, "description"),
                        category := Prop(d, "category"));
        if HasList(d) then texts.(checkpoints := AssignIds(Prop(d, "checkpoints").v.items, clock))
        else texts
    case _ => e
  }

  /** Saving right after an ok reply that carries a list sends the reply's
      title and, entry by entry in the reply's order, the fields of the
      generated checkpoints numbered from 0. */
  lemma SaveAfterGenerate(e: Editor, d: Json, clock: nat -> nat)
    requires HasList(d)
    ensures var p := HandleSave(ApplyGenerated(e, Replied(true, d), clock));
            var items := Prop(d, "checkpoints").v.items;
            && p.title == Prop(d, "title")
            && |p.checkpoints| == |items|
            && forall i :: 0 <= i < |items| ==>
                 && p.checkpoints[i].order == i
                 && p.checkpoints[i].title == Prop(items[i], "title")
                 && p.checkpoints[i].description == Prop(items[i], "description")
                 && p.checkpoints[i].fieldType == Prop(items[i], "fieldType")
                 && p.checkpoints[i].section == Prop(items[i], "section")
                 && p.checkpoints[i].isRequired == Prop(items[i], "isRequired")
                 && p.checkpoints[i].config == Prop(items[i], "config")
  {
  }

  /** A reply without a list still overwrites the title: the editor then
      shows the new title over the old checkpoints. */
  lemma ReplyWithoutListMixes(e: Editor, clock: nat -> nat)
    ensures var r := ApplyGenerated(e, Replied(true, JObj(map["title" := JStr("Generated")])), clock);
            && r.title == Text("Generated")
            && r.description == Undefined
            && r.checkpoints == e.checkpoints
  {
  }
}

=== FILE: checksheet_form.dfy ===
/** The execution form: one input per checkpoint, grouped into sections, the
    answers kept per checkpoint id, photo uploads appended to an answer, and
    a submit payload for `POST /api/results`.

    The answers are a JavaScript object keyed by checkpoint id; `Object.entries`
    lists such an object in insertion order, so they are kept here as a list
    of entries with distinct keys. The form never gates submission on
    required checkpoints: the payload is built from the answers alone. */
module ChecksheetForm {
  import opened Base
  import ResultsApi

  /** One checkpoint as the form receives it. */
  datatype FormCheckpoint = FormCheckpoint(
    id: string,
    title: string,
    section: Option<string>,
    fieldType: string,
    isRequired: bool,
    ratingMax: Option<int>)

  /** The answer object kept for one checkpoint; `None` is a key it lacks. */
  datatype ResponseData = ResponseData(
    boolValue: Option<bool>,
    numberValue: Option<real>,
    textValue: Option<string>,
    dateValue: Option<string>,
    photoUrls: Option<seq<string>>,
    gpsLat: Option<real>)

  /** `{}` (and `{ ...undefined }`). */
  const NoData := ResponseData(None, None, None, None, None, None)

  datatype Entry = Entry(checkpointId: string, data: ResponseData)

  type Responses = seq<Entry>

  // ------------------------------------------------------------- answers

  function Keys(rs: Responses): (r: seq<string>)
    ensures |r| == |rs| && forall i :: 0 <= i < |rs| ==> r[i] == rs[i].checkpointId
  {
    if |rs| == 0 then [] else [rs[0].checkpointId] + Keys(rs[1..])
  }

  predicate UniqueKeys(rs: Responses)
  {
    forall i, j :: 0 <= i < j < |rs| ==> rs[i].checkpointId != rs[j].checkpointId
  }

  /** `responses[id]`. */
  function Lookup(rs: Responses, id: string): (r: Option<ResponseData>)
    ensures r.Some? <==> id in Keys(rs)
    ensures r.Some? ==> Entry(id, r.value) in rs
  {
    if |rs| == 0 then None
    else if rs[0].checkpointId == id then Some(rs[0].data)
    else Lookup(rs[1..], id)
  }

  /** `{ ...responses, [id]: d }`: an existing key keeps its place, a new key
      goes last. */
  function Put(rs: Responses, id: string, d: ResponseData): (r: Responses)
    ensures Lookup(r, id) == Some(d)
  {
    if |rs| == 0 then [Entry(id, d)]
    else if rs[0].checkpointId == id then [Entry(id, d)] + rs[1..]
    else [rs[0]] + Put(rs[1..], id, d)
  }

  /** Putting one key leaves every other key's answer alone. */
  lemma {:induction false} PutOthers(rs: Responses, id: string, d: ResponseData, k: string)
    requires k != id
    ensures Lookup(Put(rs, id, d), k) == Lookup(rs, k)
  {
    if |rs| > 0 && rs[0].checkpointId != id {
      PutOthers(rs[1..], id, d, k);
      assert Put(rs, id, d)[1..] == Put(rs[1..], id, d);
    }
  }

  /** The key order after a put: unchanged for a known key, the new key
      last otherwise. */
  lemma {:induction false} PutKeys(rs: Responses, id: string, d: ResponseData)
    ensures id in Keys(rs) ==> Keys(Put(rs, id, d)) == Keys(rs)
    ensures id !in Keys(rs) ==> Keys(Put(rs, id, d)) == Keys(rs) + [id]
  {
    if |rs| > 0 && rs[0].checkpointId != id {
      PutKeys(rs[1..], id, d);
      var r := Put(rs, id, d);
      assert r == [rs[0]] + Put(rs[1..], id, d);
      assert Keys(r) == [rs[0].checkpointId] + Keys(Put(rs[1..], id, d));
      assert Keys(rs) == [rs[0].checkpointId] + Keys(rs[1..]);
      assert id in Keys(rs) <==> id in Keys(rs[1..]);
    }
  }

  /** The key at each position after a put: the old key, or the new key
      at the end. */
  lemma PutKeyAt(rs: Responses, id: string, d: ResponseData, i: nat)
    requires i < |Put(rs, id, d)|
    ensures i < |rs| ==> Put(rs, id, d)[i].checkpointId == rs[i].checkpointId
    ensures i >= |rs| ==> Put(rs, id, d)[i].checkpointId == id && id !in Keys(rs)
    ensures |Put(rs, id, d)| <= |rs| + 1
  {
    PutKeys(rs, id, d);
    var kr := Keys(Put(rs, id, d));
    assert kr[i] == Put(rs, id, d)[i].checkpointId;
    if i < |rs| {
      assert Keys(rs)[i] == rs[i].checkpointId;
    }
  }

  lemma PutUnique(rs: Responses, id: string, d: ResponseData)
    requires UniqueKeys(rs)
    ensures UniqueKeys(Put(rs, id, d))
  {
    var r := Put(rs, id, d);
    forall i, j | 0 <= i < j < |r|
      ensures r[i].checkpointId != r[j].checkpointId
    {
      PutKeyAt(rs, id, d, i);
      PutKeyAt(rs, id, d, j);
      if j >= |rs| {
        assert i < |rs|;
        assert rs[i].checkpointId == Keys(rs)[i];
      }
    }
  }

  function DataOrEmpty(d: Option<ResponseData>): ResponseData
  {
    if d.Some? then d.value else NoData
  }

  /** The value an input hands to `updateResponse`, tagged with the field it
      sets. */
  datatype FieldValue =
    | BoolValue(b: bool)
    | NumberValue(n: real)
    | TextValue(s: string)
    | DateValue(s: string)

  /** `{ ...data, [field]: value }`. */
  function SetField(d: ResponseData, v: FieldValue): ResponseData
  {
    match v
    case BoolValue(b) => d.(boolValue := Some(b))
    case NumberValue(n) => d.(numberValue := Some(n))
    case TextValue(s) => d.(textValue := Some(s))
    case DateValue(s) => d.(dateValue := Some(s))
  }

  /** `updateResponse(field, value)` for checkpoint `id`. */
  function UpdateResponse(rs: Responses, id: string, v: FieldValue): (r: Responses)
    ensures Lookup(r, id) == Some(SetField(DataOrEmpty(Lookup(rs, id)), v))
    ensures forall k :: k != id ==> Lookup(r, k) == Lookup(rs, k)
    ensures UniqueKeys(rs) ==> UniqueKeys(r)
  {
    var d := SetField(DataOrEmpty(Lookup(rs, id)), v);
    assert forall k :: k != id ==> Lookup(Put(rs, id, d), k) == Lookup(rs, k) by {
      forall k | k != id { PutOthers(rs, id, d, k); }
    }
    assert UniqueKeys(rs) ==> UniqueKeys(Put(rs, id, d)) by {
      if UniqueKeys(rs) { PutUnique(rs, id, d); }
    }
    Put(rs, id, d)
  }

  /** Setting one field keeps the other fields of that answer: a checkbox
      tick does not erase the photos or the text already entered. */
  lemma UpdateKeepsOtherFields(rs: Responses, id: string, v: FieldValue)
    requires Lookup(rs, id).Some?
    ensures var before := Lookup(rs, id).value;
      var after := Lookup(UpdateResponse(rs, id, v), id).value;
      && after.photoUrls == before.photoUrls
      && after.gpsLat == before.gpsLat
      && (!v.TextValue? ==> after.textValue == before.textValue)
      && (!v.BoolValue? ==> after.boolValue == before.boolValue)
  {
  }

  // -------------------------------------------------------------- upload

  /** What the `fetch` to the upload endpoint produced. */
  datatype UploadReply = UploadOk(secureUrl: string) | UploadNotOk | UploadThrew

  const UploadFailedAlert := "Failed to upload file"

  /** `{ ...data, photoUrls: [...(data?.photoUrls || []), url] }`. */
  function AddPhoto(d: ResponseData, url: string): (r: ResponseData)
    ensures r.photoUrls.Some? && |r.photoUrls.value| >= 1
    ensures r.photoUrls.value[|r.photoUrls.value| - 1] == url
    ensures r.photoUrls.value[..|r.photoUrls.value| - 1] == (if d.photoUrls.Some? then d.photoUrls.value else [])
    ensures r.(photoUrls := d.photoUrls) == d
  {
    var current := if d.photoUrls.Some? then d.photoUrls.value else [];
    assert (current + [url])[..|current|] == current;
    d.(photoUrls := Some(current + [url]))
  }

  /** `handleFileUpload` as written: the new answers are computed from the
      `snapshot` the handler closed over when the file was picked, and
      replace whatever `current` holds once the upload finishes. */
  function UploadAsWritten(snapshot: Responses, current: Responses, id: string, reply: UploadReply): (r: Responses)
    ensures !reply.UploadOk? ==> r == current
    ensures reply.UploadOk? ==>
      Lookup(r, id) == Some(AddPhoto(DataOrEmpty(Lookup(snapshot, id)), reply.secureUrl))
    ensures reply.UploadOk? ==> forall k :: k != id ==> Lookup(r, k) == Lookup(snapshot, k)
  {
    if reply.UploadOk? then
      var d := AddPhoto(DataOrEmpty(Lookup(snapshot, id)), reply.secureUrl);
      assert forall k :: k != id ==> Lookup(Put(snapshot, id, d), k) == Lookup(snapshot, k) by {
        forall k | k != id { PutOthers(snapshot, id, d, k); }
      }
      Put(snapshot, id, d)
    else current
  }

  /** Started and finished on the same answers, the upload as written is
      the corrected upload. */
  lemma UploadAsWrittenWithoutInterleaving(answers: Responses, id: string, reply: UploadReply)
    ensures UploadAsWritten(answers, answers, id, reply) == Upload(answers, id, reply)
  {
    if reply.UploadOk? {
      var d := AddPhoto(DataOrEmpty(Lookup(answers, id)), reply.secureUrl);
      assert UploadAsWritten(answers, answers, id, reply) == Put(answers, id, d);
      assert Upload(answers, id, reply) == Put(answers, id, d);
    }
  }

  /** Two sets of answers agree on every checkpoint but `id`. */
  ghost predicate AgreeOutside(x: Responses, y: Responses, id: string)
  {
    forall k :: k != id ==> Lookup(x, k) == Lookup(y, k)
  }

  /** After a successful upload, the upload as written and the corrected
      one agree on every other checkpoint exactly when the snapshot and the
      answers current at the end agree there. */
  lemma UploadAsWrittenAgreesIff(snapshot: Responses, current: Responses, id: string, url: string)
    ensures AgreeOutside(UploadAsWritten(snapshot, current, id, UploadOk(url)), Upload(current, id, UploadOk(url)), id)
        <==> AgreeOutside(snapshot, current, id)
  {
    var a := UploadAsWritten(snapshot, current, id, UploadOk(url));
    var b := Upload(current, id, UploadOk(url));
    if AgreeOutside(snapshot, current, id) {
      forall k | k != id
        ensures Lookup(a, k) == Lookup(b, k)
      {
        assert Lookup(a, k) == Lookup(snapshot, k);
        assert Lookup(b, k) == Lookup(current, k);
      }
    }
    if AgreeOutside(a, b, id) {
      forall k | k != id
        ensures Lookup(snapshot, k) == Lookup(current, k)
      {
        assert Lookup(a, k) == Lookup(snapshot, k);
        assert Lookup(b, k) == Lookup(current, k);
      }
    }
  }

  /** An answer given, during a successful upload, to a checkpoint the
      snapshot did not hold is missing once the upload finishes. */
  lemma UploadAsWrittenDropsNewAnswers(snapshot: Responses, current: Responses, id: string, url: string, k: string)
    requires k != id && Lookup(current, k).Some? && Lookup(snapshot, k).None?
    ensures Lookup(UploadAsWritten(snapshot, current, id, UploadOk(url)), k).None?
  {
  }

  /** An answer typed into another checkpoint while a photo was uploading
      is lost when the upload finishes. */
  lemma UploadAsWrittenLosesConcurrentAnswer()
    ensures var current := UpdateResponse([], "b", TextValue("ok"));
      && Lookup(current, "b").Some?
      && Lookup(UploadAsWritten([], current, "a", UploadOk("u")), "b").None?
  {
    var current := UpdateResponse([], "b", TextValue("ok"));
    var r := UploadAsWritten([], current, "a", UploadOk("u"));
    assert r == [Entry("a", AddPhoto(NoData, "u"))];
    assert Keys(r) == ["a"];
  }

  /** The upload with the answers read when it finishes: the url is appended
      to that checkpoint's photos and nothing else changes; a refused or
      failed upload changes nothing. */
  function Upload(current: Responses, id: string, reply: UploadReply): (r: Responses)
    ensures !reply.UploadOk? ==> r == current
    ensures reply.UploadOk? ==>
      Lookup(r, id) == Some(AddPhoto(DataOrEmpty(Lookup(current, id)), reply.secureUrl))
    ensures forall k :: k != id ==> Lookup(r, k) == Lookup(current, k)
    ensures UniqueKeys(current) ==> UniqueKeys(r)
  {
    if reply.UploadOk? then
      var d := AddPhoto(DataOrEmpty(Lookup(current, id)), reply.secureUrl);
      assert forall k :: k != id ==> Lookup(Put(current, id, d), k) == Lookup(current, k) by {
        forall k | k != id { PutOthers(current, id, d, k); }
      }
      assert UniqueKeys(current) ==> UniqueKeys(Put(current, id, d)) by {
        if UniqueKeys(current) { PutUnique(current, id, d); }
      }
      Put(current, id, d)
    else current
  }

  /** Only a thrown upload raises an alert; a non-OK reply is silent. */
  function UploadAlert(reply: UploadReply): Option<string>
  {
    if reply.UploadThrew? then Some(UploadFailedAlert) else None
  }

  /** Every failed upload leaves the answers alone, and only the one that
      threw tells the inspector; a photo that was stored never raises the
      alert. */
  lemma FailedUploadAlertsOnlyOnThrow(current: Responses, id: string, reply: UploadReply)
    ensures !reply.UploadOk? ==> Upload(current, id, reply) == current
    ensures UploadAlert(reply).Some? <==> reply.UploadThrew?
    ensures UploadAlert(reply).Some? ==> UploadAlert(reply).value == UploadFailedAlert
  {
  }

  /** Successive successful uploads accumulate in order. */
  lemma UploadsAccumulate(current: Responses, id: string, u1: string, u2: string)
    requires Lookup(current, id).None?
    ensures Lookup(Upload(Upload(current, id, UploadOk(u1)), id, UploadOk(u2)), id).value.photoUrls == Some([u1, u2])
  {
    var once := Upload(current, id, UploadOk(u1));
    assert Lookup(once, id).value == AddPhoto(NoData, u1);
    assert Lookup(once, id).value.photoUrls == Some([u1]);
    var p := Lookup(Upload(once, id, UploadOk(u2)), id).value.photoUrls.value;
    assert p[..|p| - 1] == [u1];
    assert p[|p| - 1] == u2;
    assert p == p[..|p| - 1] + [p[|p| - 1]] == [u1, u2];
  }

  // ----------------------------------------------------------------- GPS

  /** No answer carries a latitude. */
  predicate NoGps(rs: Responses)
  {
    forall i :: 0 <= i < |rs| ==> rs[i].data.gpsLat.None?
  }

  /** Nothing the form does writes a latitude into an answer (the location
      button only sets the form-level location), so the per-checkpoint
      location line of a GPS checkpoint is never shown. */
  lemma FormNeverWritesGps(rs: Responses, id: string, v: FieldValue, reply: UploadReply)
    requires NoGps(rs)
    ensures NoGps(UpdateResponse(rs, id, v))
    ensures NoGps(Upload(rs, id, reply))
  {
    NoGpsPut(rs, id, SetField(DataOrEmpty(Lookup(rs, id)), v));
    if reply.UploadOk? {
      NoGpsPut(rs, id, AddPhoto(DataOrEmpty(Lookup(rs, id)), reply.secureUrl));
    }
  }

  lemma {:induction false} NoGpsPut(rs: Responses, id: string, d: ResponseData)
    requires NoGps(rs) && d.gpsLat.None?
    ensures NoGps(Put(rs, id, d))
  {
    if |rs| > 0 && rs[0].checkpointId != id {
      NoGpsPut(rs[1..], id, d);
      assert Put(rs, id, d) == [rs[0]] + Put(rs[1..], id, d);
    }
  }

  // ------------------------------------------------------------ sections

  /** `checkpoint.section || 'General'`. */
  function SectionName(c: FormCheckpoint): string
  {
    if Truthy(c.section) then c.section.value else "General"
  }

  /** The checkpoints of section `name`, in order. */
  function SectionMembers(cps: seq<FormCheckpoint>, name: string): (r: seq<FormCheckpoint>)
    ensures |r| <= |cps|
  {
    if |cps| == 0 then []
    else
      var last := cps[|cps| - 1];
      SectionMembers(cps[..|cps| - 1], name) + (if SectionName(last) == name then [last] else [])
  }

  /** A section holds exactly the checkpoints that name it. */
  lemma {:induction false} SectionMembersIn(cps: seq<FormCheckpoint>, name: string, x: FormCheckpoint)
    ensures x in SectionMembers(cps, name) <==> x in cps && SectionName(x) == name
  {
    if |cps| > 0 {
      var init := cps[..|cps| - 1];
      SectionMembersIn(init, name, x);
      assert cps == init + [cps[|cps| - 1]];
    }
  }

  datatype Section = Section(name: string, members: seq<FormCheckpoint>)

  function Names(groups: seq<Section>): (r: seq<string>)
    ensures |r| == |groups| && forall i :: 0 <= i < |groups| ==> r[i] == groups[i].name
  {
    if |groups| == 0 then [] else [groups[0].name] + Names(groups[1..])
  }

  predicate DistinctNames(groups: seq<Section>)
  {
    forall i, j :: 0 <= i < j < |groups| ==> groups[i].name != groups[j].name
  }

  /** One step of the grouping loop: push `c` onto its section, creating the
      section at the end when it is new. */
  function AddToSections(groups: seq<Section>, c: FormCheckpoint): (r: seq<Section>)
    ensures |r| == |groups| || |r| == |groups| + 1
  {
    if |groups| == 0 then [Section(SectionName(c), [c])]
    else if groups[0].name == SectionName(c) then
      [groups[0].(members := groups[0].members + [c])] + groups[1..]
    else
      [groups[0]] + AddToSections(groups[1..], c)
  }

  /** The section names after a step: unchanged for a known section, the new
      one last otherwise. */
  lemma {:induction false} AddToSectionsNames(groups: seq<Section>, c: FormCheckpoint)
    ensures Names(AddToSections(groups, c))
         == if SectionName(c) in Names(groups) then Names(groups) else Names(groups) + [SectionName(c)]
  {
    var r := AddToSections(groups, c);
    if |groups| > 0 {
      assert Names(groups) == [groups[0].name] + Names(groups[1..]);
      if groups[0].name == SectionName(c) {
        assert Names(r) == Names(groups);
      } else {
        AddToSectionsNames(groups[1..], c);
        assert r == [groups[0]] + AddToSections(groups[1..], c);
        assert Names(r) == [groups[0].name] + Names(AddToSections(groups[1..], c));
      }
    }
  }

  /** A step appends `c` to the members of its own section and of no other. */
  lemma {:induction false} AddToSectionsMembersStep(groups: seq<Section>, c: FormCheckpoint, i: nat)
    requires DistinctNames(groups) && i < |groups|
    ensures AddToSections(groups, c)[i].members
         == groups[i].members + (if groups[i].name == SectionName(c) then [c] else [])
  {
    if groups[0].name != SectionName(c) && i > 0 {
      AddToSectionsMembersStep(groups[1..], c, i - 1);
    }
  }

  lemma AddToSectionsNew(groups: seq<Section>, c: FormCheckpoint)
    requires SectionName(c) !in Names(groups)
    ensures |AddToSections(groups, c)| == |groups| + 1
    ensures AddToSections(groups, c)[|groups|] == Section(SectionName(c), [c])
  {
    AddToSectionsNames(groups, c);
    if |groups| > 0 {
      assert groups[0].name == Names(groups)[0];
      AddToSectionsNew(groups[1..], c);
    }
  }

  lemma AddToSectionsDistinct(groups: seq<Section>, c: FormCheckpoint)
    requires DistinctNames(groups)
    ensures DistinctNames(AddToSections(groups, c))
  {
    AddToSectionsNames(groups, c);
    var r := AddToSections(groups, c);
    forall i, j | 0 <= i < j < |r| ensures r[i].name != r[j].name {
      assert r[i].name == Names(r)[i] && r[j].name == Names(r)[j];
    }
  }

  /** The `forEach` that builds the section object, in checkpoint order. */
  function GroupBySection(cps: seq<FormCheckpoint>): seq<Section>
  {
    if |cps| == 0 then [] else AddToSections(GroupBySection(cps[..|cps| - 1]), cps[|cps| - 1])
  }

  /** The sections in the terms of the page: every checkpoint's section is
      shown once, and under it exactly the checkpoints of that section, in
      their order. */
  predicate Grouped(groups: seq<Section>, cps: seq<FormCheckpoint>)
  {
    && DistinctNames(groups)
    && (forall i :: 0 <= i < |groups| ==> groups[i].members == SectionMembers(cps, groups[i].name))
    && (forall i :: 0 <= i < |groups| ==> |groups[i].members| > 0)
    && (forall c :: c in cps ==> SectionName(c) in Names(groups))
  }

  lemma SectionMembersSnoc(cps: seq<FormCheckpoint>, c: FormCheckpoint, name: string)
    ensures SectionMembers(cps + [c], name)
         == SectionMembers(cps, name) + (if SectionName(c) == name then [c] else [])
  {
    assert (cps + [c])[..|cps|] == cps;
  }

  lemma {:induction false} SectionMembersNone(cps: seq<FormCheckpoint>, name: string)
    requires forall x :: x in cps ==> SectionName(x) != name
    ensures SectionMembers(cps, name) == []
  {
    if |cps| > 0 {
      var init := cps[..|cps| - 1];
      assert forall x :: x in init ==> x in cps;
      SectionMembersNone(init, name);
    }
  }

  lemma AddToSectionsMembers(groups: seq<Section>, cps: seq<FormCheckpoint>, c: FormCheckpoint, i: nat)
    requires Grouped(groups, cps) && i < |AddToSections(groups, c)|
    ensures var r := AddToSections(groups, c);
      r[i].members == SectionMembers(cps + [c], r[i].name)
  {
    var r := AddToSections(groups, c);
    var name := r[i].name;
    AddToSectionsNames(groups, c);
    SectionMembersSnoc(cps, c, name);
    if i < |groups| {
      AddToSectionsMembersStep(groups, c, i);
      assert name == Names(r)[i] == Names(groups)[i];
    } else {
      AddToSectionsNew(groups, c);
      assert forall x :: x in cps ==> SectionName(x) != name;
      SectionMembersNone(cps, name);
    }
  }

  /** A step keeps every section non-empty. */
  lemma AddToSectionsNonEmpty(groups: seq<Section>, c: FormCheckpoint, i: nat)
    requires DistinctNames(groups) && forall j :: 0 <= j < |groups| ==> |groups[j].members| > 0
    requires i < |AddToSections(groups, c)|
    ensures |AddToSections(groups, c)[i].members| > 0
  {
    var r := AddToSections(groups, c);
    if i < |groups| {
      AddToSectionsMembersStep(groups, c, i);
    } else {
      AddToSectionsNames(groups, c);
      assert i == |groups| && |Names(r)| == |groups| + 1;
      assert SectionName(c) !in Names(groups);
      AddToSectionsNew(groups, c);
      assert r[i] == Section(SectionName(c), [c]);
    }
  }

  /** A step shows the section of every checkpoint seen so far. */
  lemma AddToSectionsCovers(groups: seq<Section>, cps: seq<FormCheckpoint>, c: FormCheckpoint,
                            next: seq<FormCheckpoint>)
    requires forall x :: x in cps ==> SectionName(x) in Names(groups)
    requires next == cps + [c]
    ensures forall x :: x in next ==> SectionName(x) in Names(AddToSections(groups, c))
  {
    AddToSectionsNames(groups, c);
    assert forall x :: x in next ==> x in cps || x == c;
  }

  lemma AddToSectionsGrouped(groups: seq<Section>, cps: seq<FormCheckpoint>, c: FormCheckpoint,
                             next: seq<FormCheckpoint>)
    requires Grouped(groups, cps) && next == cps + [c]
    ensures Grouped(AddToSections(groups, c), next)
  {
    var r := AddToSections(groups, c);
    AddToSectionsDistinct(groups, c);
    forall i | 0 <= i < |r|
      ensures r[i].members == SectionMembers(next, r[i].name) && |r[i].members| > 0
    {
      AddToSectionsMembers(groups, cps, c, i);
      AddToSectionsNonEmpty(groups, c, i);
    }
    AddToSectionsCovers(groups, cps, c, next);
  }

  /** The position of the first checkpoint of section `name`, or `|cps|`
      when there is none. */
  function FirstIndex(cps: seq<FormCheckpoint>, name: string): (k: nat)
    ensures k <= |cps|
    ensures k < |cps| ==> SectionName(cps[k]) == name
    ensures forall m :: 0 <= m < k ==> SectionName(cps[m]) != name
  {
    if |cps| == 0 then 0
    else if SectionName(cps[0]) == name then 0
    else 1 + FirstIndex(cps[1..], name)
  }

  /** The sections appear in the order in which their first checkpoints do. */
  predicate InFirstSeenOrder(groups: seq<Section>, cps: seq<FormCheckpoint>)
  {
    forall i, j :: 0 <= i < j < |groups| ==> FirstIndex(cps, groups[i].name) < FirstIndex(cps, groups[j].name)
  }

  /** The first position is the one position before which no checkpoint
      names the section. */
  lemma FirstIndexIs(cps: seq<FormCheckpoint>, name: string, k: nat)
    requires k <= |cps|
    requires k < |cps| ==> SectionName(cps[k]) == name
    requires forall m :: 0 <= m < k ==> SectionName(cps[m]) != name
    ensures FirstIndex(cps, name) == k
  {
  }

  /** Appending a checkpoint keeps every first position already found; a
      section seen for the first time starts at the new checkpoint. */
  lemma FirstIndexSnoc(cps: seq<FormCheckpoint>, c: FormCheckpoint, name: string)
    ensures FirstIndex(cps + [c], name)
         == if FirstIndex(cps, name) < |cps| then FirstIndex(cps, name)
            else if SectionName(c) == name then |cps| else |cps| + 1
  {
    var s := cps + [c];
    var k := FirstIndex(cps, name);
    var want := if k < |cps| then k else if SectionName(c) == name then |cps| else |cps| + 1;
    forall m | 0 <= m < want ensures SectionName(s[m]) != name {
      if m < |cps| {
        assert s[m] == cps[m];
      }
    }
    if want < |cps| {
      assert s[want] == cps[want];
    }
    FirstIndexIs(s, name, want);
  }

  /** A section with a member has its first checkpoint inside the list. */
  lemma FirstIndexFound(cps: seq<FormCheckpoint>, name: string)
    requires |SectionMembers(cps, name)| > 0
    ensures FirstIndex(cps, name) < |cps|
  {
    if FirstIndex(cps, name) == |cps| {
      forall x | x in cps ensures SectionName(x) != name {
        var m :| 0 <= m < |cps| && cps[m] == x;
      }
      SectionMembersNone(cps, name);
    }
  }

  /** A step keeps the name and the first position of every known section. */
  lemma AddToSectionsKeepsFirst(groups: seq<Section>, cps: seq<FormCheckpoint>, c: FormCheckpoint, i: nat)
    requires Grouped(groups, cps) && i < |groups|
    ensures i < |AddToSections(groups, c)| && AddToSections(groups, c)[i].name == groups[i].name
    ensures FirstIndex(cps + [c], groups[i].name) == FirstIndex(cps, groups[i].name) < |cps|
  {
    var r := AddToSections(groups, c);
    AddToSectionsNames(groups, c);
    assert r[i].name == Names(r)[i] == Names(groups)[i];
    FirstIndexFound(cps, groups[i].name);
    FirstIndexSnoc(cps, c, groups[i].name);
  }

  /** A section opened by a step starts at the new checkpoint. */
  lemma AddToSectionsNewFirst(groups: seq<Section>, cps: seq<FormCheckpoint>, c: FormCheckpoint)
    requires Grouped(groups, cps) && |AddToSections(groups, c)| > |groups|
    ensures FirstIndex(cps + [c], AddToSections(groups, c)[|groups|].name) == |cps|
  {
    var r := AddToSections(groups, c);
    var n := SectionName(c);
    AddToSectionsNames(groups, c);
    assert r[|groups|].name == Names(r)[|groups|] == n;
    assert n !in Names(groups);
    forall m | 0 <= m < |cps| ensures SectionName(cps[m]) != n {
      assert cps[m] in cps;
    }
    FirstIndexIs(cps, n, |cps|);
    FirstIndexSnoc(cps, c, n);
  }

  /** A step keeps the sections in first-seen order. */
  lemma AddToSectionsInOrder(groups: seq<Section>, cps: seq<FormCheckpoint>, c: FormCheckpoint)
    requires Grouped(groups, cps) && InFirstSeenOrder(groups, cps)
    ensures InFirstSeenOrder(AddToSections(groups, c), cps + [c])
  {
    var r := AddToSections(groups, c);
    var next := cps + [c];
    forall i, j | 0 <= i < j < |r|
      ensures FirstIndex(next, r[i].name) < FirstIndex(next, r[j].name)
    {
      AddToSectionsKeepsFirst(groups, cps, c, i);
      if j < |groups| {
        AddToSectionsKeepsFirst(groups, cps, c, j);
        assert FirstIndex(cps, groups[i].name) < FirstIndex(cps, groups[j].name);
      } else {
        assert j == |groups|;
        AddToSectionsNewFirst(groups, cps, c);
      }
    }
  }

  lemma {:induction false} GroupBySectionGrouped(cps: seq<FormCheckpoint>)
    ensures Grouped(GroupBySection(cps), cps)
    ensures InFirstSeenOrder(GroupBySection(cps), cps)
  {
    if |cps| > 0 {
      var init := cps[..|cps| - 1];
      var last := cps[|cps| - 1];
      assert cps == init + [last];
      GroupBySectionGrouped(init);
      AddToSectionsGrouped(GroupBySection(init), init, last, cps);
      AddToSectionsInOrder(GroupBySection(init), init, last);
    }
  }

  /** The names every plain object inherits from `Object.prototype`. For
      these `sections[section]` finds the inherited member, which is truthy,
      so no array is created and `.push` throws a TypeError. */
  const InheritedNames: seq<string> := [
    "constructor", "hasOwnProperty", "isPrototypeOf", "propertyIsEnumerable",
    "toString", "toLocaleString", "valueOf", "__proto__",
    "__defineGetter__", "__defineSetter__", "__lookupGetter__", "__lookupSetter__"]

  predicate IsInherited(name: string)
  {
    name in InheritedNames
  }

  /** Checkpoint `i` names an inherited section. */
  predicate InheritedAt(cps: seq<FormCheckpoint>, i: int)
  {
    0 <= i < |cps| && IsInherited(SectionName(cps[i]))
  }

  predicate HasInheritedSection(cps: seq<FormCheckpoint>)
  {
    exists i :: 0 <= i < |cps| && InheritedAt(cps, i)
  }

  /** The grouping loop as the render runs it on a plain object: `None` when
      it throws, so that the form does not render. */
  function RenderSections(cps: seq<FormCheckpoint>): (r: Option<seq<Section>>)
  {
    if |cps| == 0 then Some([])
    else
      var before := RenderSections(cps[..|cps| - 1]);
      var last := cps[|cps| - 1];
      if before.None? || IsInherited(SectionName(last)) then None
      else Some(AddToSections(before.value, last))
  }

  /** A list has an inherited section name exactly when its front does or
      its last checkpoint has one. */
  lemma HasInheritedSectionSnoc(cps: seq<FormCheckpoint>)
    requires |cps| > 0
    ensures HasInheritedSection(cps)
        <==> HasInheritedSection(cps[..|cps| - 1]) || IsInherited(SectionName(cps[|cps| - 1]))
  {
    HasInheritedSectionGrows(cps);
    HasInheritedSectionShrinks(cps);
  }

  /** An inherited name in the prefix or at the end is one in the whole list. */
  lemma HasInheritedSectionGrows(cps: seq<FormCheckpoint>)
    requires |cps| > 0
    ensures HasInheritedSection(cps[..|cps| - 1]) || IsInherited(SectionName(cps[|cps| - 1]))
        ==> HasInheritedSection(cps)
  {
    var init := cps[..|cps| - 1];
    if HasInheritedSection(init) {
      var i :| 0 <= i < |init| && InheritedAt(init, i);
      assert cps[i] == init[i];
      assert InheritedAt(cps, i);
    } else if IsInherited(SectionName(cps[|cps| - 1])) {
      assert InheritedAt(cps, |cps| - 1);
    }
  }

  /** An inherited name in the whole list is in the prefix or at the end. */
  lemma HasInheritedSectionShrinks(cps: seq<FormCheckpoint>)
    requires |cps| > 0
    ensures HasInheritedSection(cps)
        ==> HasInheritedSection(cps[..|cps| - 1]) || IsInherited(SectionName(cps[|cps| - 1]))
  {
    var init := cps[..|cps| - 1];
    if HasInheritedSection(cps) {
      var i :| 0 <= i < |cps| && InheritedAt(cps, i);
      if i < |cps| - 1 {
        assert init[i] == cps[i];
        assert InheritedAt(init, i);
      }
    }
  }

  /** The render fails exactly when some checkpoint's section is an inherited
      name. */
  lemma {:induction false} RenderSectionsFails(cps: seq<FormCheckpoint>)
    ensures RenderSections(cps).None? <==> HasInheritedSection(cps)
  {
    if |cps| > 0 {
      RenderSectionsFails(cps[..|cps| - 1]);
      HasInheritedSectionSnoc(cps);
    }
  }

  /** When the render succeeds it produces the plain grouping. */
  lemma {:induction false} RenderSectionsSucceeds(cps: seq<FormCheckpoint>)
    ensures RenderSections(cps).Some? ==> RenderSections(cps).value == GroupBySection(cps)
  {
    if |cps| > 0 {
      RenderSectionsSucceeds(cps[..|cps| - 1]);
    }
  }

  /** The render fails exactly when some checkpoint's section is an inherited
      name. Otherwise every section is shown once and holds exactly its
      checkpoints. */
  lemma RenderSectionsGrouped(cps: seq<FormCheckpoint>)
    ensures RenderSections(cps).None? <==> HasInheritedSection(cps)
    ensures RenderSections(cps).Some? ==> Grouped(RenderSections(cps).value, cps)
  {
    RenderSectionsFails(cps);
    RenderSectionsSucceeds(cps);
    GroupBySectionGrouped(cps);
  }

  /** A section named "constructor" stops the render. */
  lemma ConstructorSectionStopsRender(c: FormCheckpoint)
    requires c.section == Some("constructor")
    ensures RenderSections([c]).None?
  {
    assert [c][..0] == [];
  }

  // -------------------------------------------------------------- rating

  /** The number of stars: `Array.from({ length: config?.max || 5 })`, where
      an absent or zero maximum means 5 and a negative one means none. */
  function RatingStars(max: Option<int>): (n: nat)
    ensures max.None? || max == Some(0) ==> n == 5
    ensures max.Some? && max.value > 0 ==> n == max.value
    ensures max.Some? && max.value < 0 ==> n == 0
  {
    if max.None? || max.value == 0 then 5
    else if max.value < 0 then 0
    else max.value
  }

  /** Whether star `index` is lit: `(numberValue || 0) > index`. */
  predicate StarLit(numberValue: Option<real>, index: nat)
  {
    numberValue.Some? && numberValue.value != 0.0 && numberValue.value > index as real
  }

  /** Clicking star `k` of the `RatingStars(max)` shown records `k + 1`,
      which lies in 1..RatingStars(max); that star and every one before it
      light up, none after it. */
  lemma RatingClick(rs: Responses, c: FormCheckpoint, k: nat, index: nat)
    requires k < RatingStars(c.ratingMax)
    ensures var d := Lookup(UpdateResponse(rs, c.id, NumberValue((k + 1) as real)), c.id).value;
      && d.numberValue.Some?
      && 1.0 <= d.numberValue.value <= RatingStars(c.ratingMax) as real
      && (StarLit(d.numberValue, index) <==> index <= k)
  {
  }

  // -------------------------------------------------------------- submit

  datatype Coords = Coords(lat: real, lng: real)

  /** `{ checkpointId, ...data }` for one entry. */
  function ToInput(e: Entry): (r: ResultsApi.ResponseInput)
    ensures r.checkpointId == Some(e.checkpointId)
    ensures r.textValue == e.data.textValue && r.numberValue == e.data.numberValue
    ensures r.boolValue == e.data.boolValue && r.dateValue == e.data.dateValue
    ensures r.photoUrls == e.data.photoUrls
  {
    ResultsApi.ResponseInput(
      Some(e.checkpointId), None, e.data.textValue, e.data.numberValue, e.data.boolValue,
      e.data.dateValue, e.data.photoUrls, None, e.data.gpsLat, None, None, None)
  }

  /** `handleSubmit`: the payload for `POST /api/results`. `showCoords` stands
      for the template literal that prints the two numbers. */
  function Submit(checksheetId: string, rs: Responses, location: Option<Coords>,
                  showCoords: Coords -> string): (b: ResultsApi.ResultBody)
    ensures b.checksheetId == Some(checksheetId)
    ensures b.location.Some? <==> location.Some?
    ensures location.Some? ==> (b.location == Some(showCoords(location.value))
      && b.gpsLat == Some(location.value.lat) && b.gpsLng == Some(location.value.lng))
    ensures location.None? ==> b.gpsLat.None? && b.gpsLng.None?
    ensures b.responses.Some? && |b.responses.value| == |rs|
    ensures forall i :: 0 <= i < |rs| ==> b.responses.value[i] == ToInput(rs[i])
    ensures b.status.None? && b.inspectorId.None?
  {
    ResultsApi.ResultBody(
      Some(checksheetId),
      if location.Some? then Some(showCoords(location.value)) else None,
      if location.Some? then Some(location.value.lat) else None,
      if location.Some? then Some(location.value.lng) else None,
      Some(seq(|rs|, i requires 0 <= i < |rs| => ToInput(rs[i]))),
      None, None)
  }

  /** The form hands its payload to the parent's `onSubmit`. If the parent
      posts it to `POST /api/results` for a signed-in user, and the
      checksheet and checkpoint ids name stored rows, the result is created
      whatever was answered or left blank (required or not): it holds one
      response per answered checkpoint, in the order they were first
      answered. */
  lemma PostedSubmissionCreated(u: User, checksheetId: string, rs: Responses, location: Option<Coords>,
                                showCoords: Coords -> string)
    ensures var r := ResultsApi.PostResult(Some(u), Some(Submit(checksheetId, rs, location, showCoords)));
      && r.status == 201
      && |r.body.value.responses| == |rs|
      && forall i :: 0 <= i < |rs| ==> r.body.value.responses[i].checkpointId == Keys(rs)[i]
  {
    var b := Submit(checksheetId, rs, location, showCoords);
    assert ResultsApi.Creatable(b);
    ResultsApi.PostKeepsResponses(u, b);
  }
}

=== FILE: checksheets_api.dfy ===
/** The checksheet collection endpoint: `GET` lists the checksheets the caller
    may see, `POST` validates a body against the checksheet schema and creates
    a checksheet owned by the caller with its checkpoints numbered in request
    order. */
module ChecksheetsApi {
  import opened Base
  import opened Strings
  import opened Query

  // ------------------------------------------------------------ field types

  /** The fourteen checkpoint field types of the schema. */
  datatype FieldType =
    | CHECKBOX | NUMBER | TEXT | TEXTAREA | PHOTO | FILE | DROPDOWN
    | MULTISELECT | GPS | SIGNATURE | DATE | TIME | DATETIME | RATING

  const FieldTypeNames: seq<string> := [
    "CHECKBOX", "NUMBER", "TEXT", "TEXTAREA", "PHOTO", "FILE", "DROPDOWN",
    "MULTISELECT", "GPS", "SIGNATURE", "DATE", "TIME", "DATETIME", "RATING"]

  /** The types in the order of their names. */
  const AllFieldTypes: seq<FieldType> := [
    CHECKBOX, NUMBER, TEXT, TEXTAREA, PHOTO, FILE, DROPDOWN,
    MULTISELECT, GPS, SIGNATURE, DATE, TIME, DATETIME, RATING]

  /** The position of a type in the schema's list. */
  function FieldTypeIndex(t: FieldType): (i: nat)
    ensures i < |AllFieldTypes| && AllFieldTypes[i] == t
  {
    match t
    case CHECKBOX => 0     case NUMBER => 1       case TEXT => 2
    case TEXTAREA => 3     case PHOTO => 4        case FILE => 5
    case DROPDOWN => 6     case MULTISELECT => 7  case GPS => 8
    case SIGNATURE => 9    case DATE => 10        case TIME => 11
    case DATETIME => 12    case RATING => 13
  }

  function FieldTypeName(t: FieldType): string
  {
    FieldTypeNames[FieldTypeIndex(t)]
  }

  /** There are exactly fourteen names, all distinct. */
  lemma FieldTypeCount()
    ensures |FieldTypeNames| == |AllFieldTypes| == 14
    ensures forall i, j :: 0 <= i < j < |FieldTypeNames| ==> FieldTypeNames[i] != FieldTypeNames[j]
    ensures forall i, j :: 0 <= i < j < |AllFieldTypes| ==> AllFieldTypes[i] != AllFieldTypes[j]
  {
  }

  /** The first position at or after `from` holding the name `s`, or the
      length of the list when there is none. */
  function NameIndex(s: string, from: nat): (i: nat)
    requires from <= |FieldTypeNames|
    ensures from <= i <= |FieldTypeNames|
    ensures i < |FieldTypeNames| ==> FieldTypeNames[i] == s
    ensures forall k :: from <= k < i ==> FieldTypeNames[k] != s
    decreases |FieldTypeNames| - from
  {
    if from == |FieldTypeNames| || FieldTypeNames[from] == s then from
    else NameIndex(s, from + 1)
  }

  /** `z.enum([...])` on a string. */
  function ParseFieldType(s: string): (r: Option<FieldType>)
    ensures r.Some? <==> s in FieldTypeNames
    ensures r.Some? ==> FieldTypeName(r.value) == s
  {
    var i := NameIndex(s, 0);
    if i < |FieldTypeNames| then
      FieldTypeCount();
      assert FieldTypeIndex(AllFieldTypes[i]) == i;
      Some(AllFieldTypes[i])
    else None
  }

  lemma FieldTypeRoundTrip(t: FieldType)
    ensures ParseFieldType(FieldTypeName(t)) == Some(t)
  {
    FieldTypeCount();
    var k := FieldTypeIndex(t);
    var i := NameIndex(FieldTypeNames[k], 0);
    assert i == k;
  }

  // ------------------------------------------------------- validated input

  datatype CheckpointInput = CheckpointInput(
    title: string,
    description: Option<string>,
    fieldType: FieldType,
    section: Option<string>,
    isRequired: Option<bool>,
    config: Option<Json>)

  datatype ChecksheetInput = ChecksheetInput(
    title: string,
    description: Option<string>,
    category: Option<string>,
    industry: Option<string>,
    isTemplate: Option<bool>,
    tags: Option<seq<string>>,
    checkpoints: Option<seq<CheckpointInput>>)

  // -------------------------------------------------- schema, declaratively

  predicate OptStr(f: map<string, Json>, k: string)
  {
    k !in f || f[k].JStr?
  }

  predicate OptBool(f: map<string, Json>, k: string)
  {
    k !in f || f[k].JBool?
  }

  predicate AllStrings(items: seq<Json>)
  {
    forall i :: 0 <= i < |items| ==> items[i].JStr?
  }

  predicate CheckpointOk(j: Json)
  {
    && j.JObj?
    && "title" in j.fields && j.fields["title"].JStr?
    && OptStr(j.fields, "description")
    && "fieldType" in j.fields && j.fields["fieldType"].JStr?
    && j.fields["fieldType"].s in FieldTypeNames
    && OptStr(j.fields, "section")
    && OptBool(j.fields, "isRequired")
  }

  /** The body shape the schema accepts: an object whose title is a string of
      length at least one, whose other listed keys are absent or of the right
      type, and every checkpoint of which names one of the fourteen field
      types. Unlisted keys are allowed (and dropped). */
  predicate Acceptable(body: Json)
  {
    && body.JObj?
    && "title" in body.fields && body.fields["title"].JStr? && |body.fields["title"].s| >= 1
    && OptStr(body.fields, "description")
    && OptStr(body.fields, "category")
    && OptStr(body.fields, "industry")
    && OptBool(body.fields, "isTemplate")
    && ("tags" !in body.fields || (body.fields["tags"].JArr? && AllStrings(body.fields["tags"].items)))
    && ("checkpoints" !in body.fields ||
          (body.fields["checkpoints"].JArr?
           && forall i :: 0 <= i < |body.fields["checkpoints"].items| ==>
                CheckpointOk(body.fields["checkpoints"].items[i])))
  }

  // --------------------------------------------------- schema, as issues

  function StrIssues(f: map<string, Json>, k: string, path: seq<string>): (r: seq<Issue>)
    ensures r == [] <==> OptStr(f, k)
  {
    if OptStr(f, k) then [] else [Issue(path + [k], InvalidType)]
  }

  function BoolIssues(f: map<string, Json>, k: string, path: seq<string>): (r: seq<Issue>)
    ensures r == [] <==> OptBool(f, k)
  {
    if OptBool(f, k) then [] else [Issue(path + [k], InvalidType)]
  }

  function TagItemIssues(items: seq<Json>, from: nat, path: seq<string>): (r: seq<Issue>)
    requires from <= |items|
    ensures r == [] <==> forall i :: from <= i < |items| ==> items[i].JStr?
    decreases |items| - from
  {
    if from == |items| then []
    else (if items[from].JStr? then [] else [Issue(path + [NatToString(from)], InvalidType)])
         + TagItemIssues(items, from + 1, path)
  }

  function CheckpointIssues(j: Json, path: seq<string>): (r: seq<Issue>)
    ensures r == [] <==> CheckpointOk(j)
  {
    if !j.JObj? then [Issue(path, InvalidType)]
    else
      var f := j.fields;
      (if "title" in f && f["title"].JStr? then [] else [Issue(path + ["title"], InvalidType)])
      + StrIssues(f, "description", path)
      + (if !("fieldType" in f && f["fieldType"].JStr?) then [Issue(path + ["fieldType"], InvalidType)]
         else if f["fieldType"].s !in FieldTypeNames then [Issue(path + ["fieldType"], InvalidEnumValue)]
         else [])
      + StrIssues(f, "section", path)
      + BoolIssues(f, "isRequired", path)
  }

  /** Every checkpoint from position `from` on has the schema's shape. */
  predicate CheckpointsOkFrom(items: seq<Json>, from: nat)
  {
    forall i :: from <= i < |items| ==> CheckpointOk(items[i])
  }

  lemma CheckpointsOkStep(items: seq<Json>, from: nat)
    requires from < |items|
    ensures CheckpointsOkFrom(items, from) <==> CheckpointOk(items[from]) && CheckpointsOkFrom(items, from + 1)
  {
  }

  function CheckpointListIssues(items: seq<Json>, from: nat, path: seq<string>): (r: seq<Issue>)
    requires from <= |items|
    ensures r == [] <==> CheckpointsOkFrom(items, from)
    decreases |items| - from
  {
    if from == |items| then []
    else
      var head := CheckpointIssues(items[from], path + [NatToString(from)]);
      var tail := CheckpointListIssues(items, from + 1, path);
      CheckpointsOkStep(items, from);
      assert |head + tail| == |head| + |tail|;
      head + tail
  }

  function TitleIssues(f: map<string, Json>): (r: seq<Issue>)
    ensures r == [] <==> "title" in f && f["title"].JStr? && |f["title"].s| >= 1
  {
    if !("title" in f && f["title"].JStr?) then [Issue(["title"], InvalidType)]
    else if |f["title"].s| < 1 then [Issue(["title"], TooSmall)]
    else []
  }

  /** Every issue the schema reports for a body, field by field. */
  function BodyIssues(body: Json): (r: seq<Issue>)
    ensures r == [] <==> Acceptable(body)
  {
    if !body.JObj? then [Issue([], InvalidType)]
    else
      var f := body.fields;
      TitleIssues(f)
      + StrIssues(f, "description", [])
      + StrIssues(f, "category", [])
      + StrIssues(f, "industry", [])
      + BoolIssues(f, "isTemplate", [])
      + (if "tags" !in f then []
         else if !f["tags"].JArr? then [Issue(["tags"], InvalidType)]
         else TagItemIssues(f["tags"].items, 0, ["tags"]))
      + (if "checkpoints" !in f then []
         else if !f["checkpoints"].JArr? then [Issue(["checkpoints"], InvalidType)]
         else CheckpointListIssues(f["checkpoints"].items, 0, ["checkpoints"]))
  }

  // ------------------------------------------------------------- decoding

  function GetStr(f: map<string, Json>, k: string): Option<string>
  {
    if k in f && f[k].JStr? then Some(f[k].s) else None
  }

  function GetBool(f: map<string, Json>, k: string): Option<bool>
  {
    if k in f && f[k].JBool? then Some(f[k].b) else None
  }

  function DecodeCheckpoint(j: Json): CheckpointInput
    requires CheckpointOk(j)
  {
    var f := j.fields;
    CheckpointInput(
      f["title"].s, GetStr(f, "description"),
      ParseFieldType(f["fieldType"].s).value,
      GetStr(f, "section"), GetBool(f, "isRequired"),
      if "config" in f then Some(f["config"]) else None)
  }

  function Decode(body: Json): ChecksheetInput
    requires Acceptable(body)
  {
    var f := body.fields;
    ChecksheetInput(
      f["title"].s, GetStr(f, "description"), GetStr(f, "category"),
      GetStr(f, "industry"), GetBool(f, "isTemplate"),
      if "tags" in f then Some(seq(|f["tags"].items|, i requires 0 <= i < |f["tags"].items| => f["tags"].items[i].s))
      else None,
      if "checkpoints" in f then
        Some(seq(|f["checkpoints"].items|, i requires 0 <= i < |f["checkpoints"].items| =>
          DecodeCheckpoint(f["checkpoints"].items[i])))
      else None)
  }

  /** `checksheetSchema.parse(body)`: the decoded input, or every issue. */
  function Validate(body: Json): (r: Result<ChecksheetInput, seq<Issue>>)
    ensures r.Success? <==> Acceptable(body)
    ensures r.Failure? ==> |r.error| > 0
    ensures r.Success? ==> r.value.title == body.fields["title"].s && |r.value.title| >= 1
    ensures r.Success? && "checkpoints" in body.fields ==>
      r.value.checkpoints.Some? && |r.value.checkpoints.value| == |body.fields["checkpoints"].items|
    ensures r.Success? && "checkpoints" !in body.fields ==> r.value.checkpoints.None?
  {
    var issues := BodyIssues(body);
    if issues == [] then Success(Decode(body)) else Failure(issues)
  }

  // ------------------------------------------------------------- encoding

  function PutStr(m: map<string, Json>, k: string, v: Option<string>): map<string, Json>
  {
    if v.Some? then m[k := JStr(v.value)] else m
  }

  function PutBool(m: map<string, Json>, k: string, v: Option<bool>): map<string, Json>
  {
    if v.Some? then m[k := JBool(v.value)] else m
  }

  function EncodeCheckpoint(c: CheckpointInput): Json
  {
    var m := map["title" := JStr(c.title), "fieldType" := JStr(FieldTypeName(c.fieldType))];
    var m := PutStr(m, "description", c.description);
    var m := PutStr(m, "section", c.section);
    var m := PutBool(m, "isRequired", c.isRequired);
    JObj(if c.config.Some? then m["config" := c.config.value] else m)
  }

  /** The scalar keys of a client body. */
  function EncodeScalars(x: ChecksheetInput): map<string, Json>
  {
    var m := map["title" := JStr(x.title)];
    var m := PutStr(m, "description", x.description);
    var m := PutStr(m, "category", x.category);
    var m := PutStr(m, "industry", x.industry);
    PutBool(m, "isTemplate", x.isTemplate)
  }

  /** A client body carrying exactly the fields of `x`. */
  function Encode(x: ChecksheetInput): Json
  {
    var m := EncodeScalars(x);
    var m := if x.tags.Some? then m["tags" := JArr(EncodeTags(x.tags.value))] else m;
    JObj(if x.checkpoints.Some? then m["checkpoints" := JArr(EncodeCheckpoints(x.checkpoints.value))] else m)
  }

  /** What the keys of an encoded checkpoint hold. */
  predicate CarriesCheckpoint(f: map<string, Json>, c: CheckpointInput)
  {
    && "title" in f && f["title"] == JStr(c.title)
    && "fieldType" in f && f["fieldType"] == JStr(FieldTypeName(c.fieldType))
    && GetStr(f, "description") == c.description && OptStr(f, "description")
    && GetStr(f, "section") == c.section && OptStr(f, "section")
    && GetBool(f, "isRequired") == c.isRequired && OptBool(f, "isRequired")
    && ("config" in f <==> c.config.Some?)
    && (c.config.Some? ==> f["config"] == c.config.value)
  }

  lemma EncodeCheckpointCarries(c: CheckpointInput)
    ensures EncodeCheckpoint(c).JObj? && CarriesCheckpoint(EncodeCheckpoint(c).fields, c)
  {
    var m0 := map["title" := JStr(c.title), "fieldType" := JStr(FieldTypeName(c.fieldType))];
    var m1 := PutStr(m0, "description", c.description);
    assert m1["title"] == JStr(c.title) && m1["fieldType"] == m0["fieldType"];
    assert "section" !in m1 && "isRequired" !in m1 && "config" !in m1;
    var m2 := PutStr(m1, "section", c.section);
    assert m2["title"] == JStr(c.title) && m2["fieldType"] == m0["fieldType"];
    assert GetStr(m2, "description") == c.description && OptStr(m2, "description");
    assert "isRequired" !in m2 && "config" !in m2;
    var m3 := PutBool(m2, "isRequired", c.isRequired);
    assert m3["title"] == JStr(c.title) && m3["fieldType"] == m0["fieldType"];
    assert GetStr(m3, "description") == c.description && OptStr(m3, "description");
    assert GetStr(m3, "section") == c.section && OptStr(m3, "section");
    assert "config" !in m3;
  }

  lemma EncodeCheckpointRoundTrip(c: CheckpointInput)
    ensures CheckpointOk(EncodeCheckpoint(c))
    ensures DecodeCheckpoint(EncodeCheckpoint(c)) == c
  {
    EncodeCheckpointCarries(c);
    FieldTypeRoundTrip(c.fieldType);
    var f := EncodeCheckpoint(c).fields;
    assert f["fieldType"].s in FieldTypeNames;
  }

  function EncodeTags(tags: seq<string>): (r: seq<Json>)
    ensures |r| == |tags| && forall i :: 0 <= i < |tags| ==> r[i] == JStr(tags[i])
  {
    seq(|tags|, i requires 0 <= i < |tags| => JStr(tags[i]))
  }

  function EncodeCheckpoints(cps: seq<CheckpointInput>): (r: seq<Json>)
    ensures |r| == |cps| && forall i :: 0 <= i < |cps| ==> r[i] == EncodeCheckpoint(cps[i])
  {
    seq(|cps|, i requires 0 <= i < |cps| => EncodeCheckpoint(cps[i]))
  }

  /** What the scalar keys of an encoded body hold. */
  predicate CarriesScalars(f: map<string, Json>, x: ChecksheetInput)
  {
    && "title" in f && f["title"] == JStr(x.title)
    && GetStr(f, "description") == x.description && OptStr(f, "description")
    && GetStr(f, "category") == x.category && OptStr(f, "category")
    && GetStr(f, "industry") == x.industry && OptStr(f, "industry")
    && GetBool(f, "isTemplate") == x.isTemplate && OptBool(f, "isTemplate")
  }

  lemma EncodeScalarsCarries(x: ChecksheetInput)
    ensures CarriesScalars(EncodeScalars(x), x)
    ensures "tags" !in EncodeScalars(x) && "checkpoints" !in EncodeScalars(x)
  {
    var m0 := map["title" := JStr(x.title)];
    var m1 := PutStr(m0, "description", x.description);
    assert m1["title"] == JStr(x.title);
    assert "category" !in m1 && "industry" !in m1 && "isTemplate" !in m1;
    var m2 := PutStr(m1, "category", x.category);
    assert m2["title"] == JStr(x.title);
    assert GetStr(m2, "description") == x.description && OptStr(m2, "description");
    assert "industry" !in m2 && "isTemplate" !in m2;
    var m3 := PutStr(m2, "industry", x.industry);
    assert m3["title"] == JStr(x.title);
    assert GetStr(m3, "description") == x.description && OptStr(m3, "description");
    assert GetStr(m3, "category") == x.category && OptStr(m3, "category");
    assert "isTemplate" !in m3;
    assert "description"[0] != "checkpoints"[0];
  }

  /** Adding a list key keeps the scalar keys. */
  lemma CarriesScalarsPut(f: map<string, Json>, x: ChecksheetInput, k: string, v: Json)
    requires CarriesScalars(f, x)
    requires k == "tags" || k == "checkpoints"
    ensures CarriesScalars(f[k := v], x)
  {
    assert "description"[0] != "checkpoints"[0];
  }

  /** The top-level keys of an encoded body and what each one holds. */
  lemma EncodeFields(x: ChecksheetInput)
    ensures var f := Encode(x).fields;
      && CarriesScalars(f, x)
      && ("tags" in f <==> x.tags.Some?)
      && (x.tags.Some? ==> f["tags"] == JArr(EncodeTags(x.tags.value)))
      && ("checkpoints" in f <==> x.checkpoints.Some?)
      && (x.checkpoints.Some? ==> f["checkpoints"] == JArr(EncodeCheckpoints(x.checkpoints.value)))
  {
    var m0 := EncodeScalars(x);
    EncodeScalarsCarries(x);
    var m1 := if x.tags.Some? then m0["tags" := JArr(EncodeTags(x.tags.value))] else m0;
    if x.tags.Some? { CarriesScalarsPut(m0, x, "tags", JArr(EncodeTags(x.tags.value))); }
    assert "checkpoints" !in m1;
    if x.checkpoints.Some? {
      CarriesScalarsPut(m1, x, "checkpoints", JArr(EncodeCheckpoints(x.checkpoints.value)));
    }
  }

  /** Every input with a non-empty title survives the schema unchanged. */
  lemma ValidateEncode(x: ChecksheetInput)
    requires |x.title| >= 1
    ensures Validate(Encode(x)) == Success(x)
  {
    var j := Encode(x);
    var f := j.fields;
    EncodeFields(x);
    if x.checkpoints.Some? {
      var cs := x.checkpoints.value;
      var items := f["checkpoints"].items;
      forall i | 0 <= i < |cs|
        ensures CheckpointOk(items[i]) && DecodeCheckpoint(items[i]) == cs[i]
      {
        EncodeCheckpointRoundTrip(cs[i]);
      }
    }
    assert Acceptable(j);
    var d := Decode(j);
    if x.tags.Some? {
      assert d.tags.value == x.tags.value;
    }
    if x.checkpoints.Some? {
      assert d.checkpoints.value == x.checkpoints.value;
    }
  }

  // ---------------------------------------------------------- stored data

  /** A stored checkpoint. Absent optional fields take the column default. */
  datatype StoredCheckpoint = StoredCheckpoint(
    title: string,
    description: Option<string>,
    fieldType: FieldType,
    section: Option<string>,
    isRequired: Option<bool>,
    config: Option<Json>,
    order: nat)

  /** The values of the checksheet status enum column. The database schema
      is not part of this model: these are the values the application writes
      and compares against, and "DRAFT" is taken to be the column default. */
  const ChecksheetStatuses: seq<string> := ["DRAFT", "ACTIVE", "ARCHIVED"]

  /** A stored checksheet; `status` is kept as the text of its enum value.
      The body sets no status, so a created checksheet gets the assumed
      column default "DRAFT". */
  datatype Checksheet = Checksheet(
    title: string,
    description: Option<string>,
    category: Option<string>,
    industry: Option<string>,
    status: string,
    isTemplate: Option<bool>,
    tags: Option<seq<string>>,
    creatorId: string,
    organizationId: Option<string>,
    checkpoints: seq<StoredCheckpoint>)

  // ------------------------------------------------- ordering of checkpoints

  predicate SortedByOrder(s: seq<StoredCheckpoint>)
  {
    forall i, j :: 0 <= i < j < |s| ==> s[i].order <= s[j].order
  }

  /** An element no later than the head of an ordered list can go in front. */
  lemma SortedCons(x: StoredCheckpoint, t: seq<StoredCheckpoint>)
    requires SortedByOrder(t) && (|t| > 0 ==> x.order <= t[0].order)
    ensures SortedByOrder([x] + t)
  {
    var r := [x] + t;
    forall i, j | 0 <= i < j < |r|
      ensures r[i].order <= r[j].order
    {
      if i == 0 && j > 1 {
        assert r[j] == t[j - 1];
        assert t[0].order <= t[j - 1].order;
      }
    }
  }

  /** The tail of an ordered list is ordered. */
  lemma SortedTail(s: seq<StoredCheckpoint>)
    requires SortedByOrder(s) && |s| > 0
    ensures SortedByOrder(s[1..])
    ensures |s| > 1 ==> s[0].order <= s[1..][0].order
  {
    var t := s[1..];
    forall i, j | 0 <= i < j < |t|
      ensures t[i].order <= t[j].order
    {
      assert t[i] == s[i + 1] && t[j] == s[j + 1];
    }
  }

  function InsertByOrder(c: StoredCheckpoint, s: seq<StoredCheckpoint>): (r: seq<StoredCheckpoint>)
    requires SortedByOrder(s)
    ensures SortedByOrder(r)
    ensures multiset(r) == multiset(s) + multiset{c}
    ensures |r| > 0 && (r[0] == c || (|s| > 0 && r[0] == s[0]))
    ensures |s| > 0 && c.order <= s[0].order ==> r == [c] + s
  {
    if |s| == 0 then [c]
    else if c.order <= s[0].order then
      SortedCons(c, s);
      [c] + s
    else
      SortedTail(s);
      var rest := InsertByOrder(c, s[1..]);
      SortedCons(s[0], rest);
      assert s == [s[0]] + s[1..];
      [s[0]] + rest
  }

  /** `orderBy: { order: 'asc' }`: a permutation sorted by order. */
  function SortByOrder(s: seq<StoredCheckpoint>): (r: seq<StoredCheckpoint>)
    ensures SortedByOrder(r)
    ensures multiset(r) == multiset(s)
    ensures |r| == |s|
  {
    if |s| == 0 then []
    else
      assert s == [s[0]] + s[1..];
      InsertByOrder(s[0], SortByOrder(s[1..]))
  }

  /** A list already in order comes back unchanged. */
  lemma {:induction false} SortSortedIsIdentity(s: seq<StoredCheckpoint>)
    requires SortedByOrder(s)
    ensures SortByOrder(s) == s
  {
    if |s| > 0 {
      SortSortedIsIdentity(s[1..]);
      assert s == [s[0]] + s[1..];
    }
  }

  // ------------------------------------------------------------------ POST

  function Store(c: CheckpointInput, order: nat): StoredCheckpoint
  {
    StoredCheckpoint(c.title, c.description, c.fieldType, c.section, c.isRequired, c.config, order)
  }

  /** `checkpoints?.map((cp, index) => ({ ...cp, order: index })) || []`. */
  function NumberCheckpoints(cps: Option<seq<CheckpointInput>>): (r: seq<StoredCheckpoint>)
    ensures cps.None? ==> r == []
    ensures cps.Some? ==> |r| == |cps.value|
    ensures cps.Some? ==> forall i :: 0 <= i < |r| ==> r[i] == Store(cps.value[i], i)
  {
    if cps.None? then []
    else seq(|cps.value|, i requires 0 <= i < |cps.value| => Store(cps.value[i], i))
  }

  function OrgColumn(o: OrgRef): Option<string>
  {
    if o.OrgId? then Some(o.id) else None
  }

  /** The checksheet `prisma.checksheet.create` stores for a validated input. */
  function CreateChecksheet(u: User, x: ChecksheetInput): (c: Checksheet)
    ensures c.creatorId == u.id && c.organizationId == OrgColumn(u.organizationId)
    ensures c.title == x.title && c.status == "DRAFT"
    ensures c.description == x.description && c.category == x.category && c.industry == x.industry
    ensures c.isTemplate == x.isTemplate && c.tags == x.tags
    ensures c.checkpoints == NumberCheckpoints(x.checkpoints)
  {
    Checksheet(x.title, x.description, x.category, x.industry, "DRAFT", x.isTemplate, x.tags,
               u.id, OrgColumn(u.organizationId), NumberCheckpoints(x.checkpoints))
  }

  /** `POST /api/checksheets`; `body` is `None` when the request body is not
      JSON at all. */
  function PostChecksheet(session: Session, body: Option<Json>): (r: Reply<Checksheet>)
    ensures session.None? ==> r == Unauthorized()
    ensures session.Some? && body.None? ==> r.status == 500
    ensures session.Some? && body.Some? && !Acceptable(body.value) ==>
      r.status == 400 && r.body.ValidationError? && |r.body.details| > 0
    ensures r.status == 201 <==> session.Some? && body.Some? && Acceptable(body.value)
    ensures r.status == 201 ==>
      && r.body.Data?
      && r.body.value.creatorId == session.value.id
      && r.body.value.organizationId == OrgColumn(session.value.organizationId)
      && SortedByOrder(r.body.value.checkpoints)
  {
    if session.None? then Unauthorized()
    else if body.None? then Reply(500, ErrorMsg("Failed to create checksheet"))
    else match Validate(body.value)
      case Failure(issues) => Reply(400, ValidationError("Validation error", issues))
      case Success(x) =>
        var c := CreateChecksheet(session.value, x);
        Reply(201, Data(c.(checkpoints := SortByOrder(c.checkpoints))))
  }

  /** The checkpoints of a created checksheet come back in request order with
      orders exactly 0..N-1, and an absent list yields none. */
  lemma PostNumbersCheckpoints(u: User, body: Json)
    requires Acceptable(body)
    ensures var r := PostChecksheet(Some(u), Some(body));
      var cps := r.body.value.checkpoints;
      && r.status == 201
      && ("checkpoints" in body.fields ==> |cps| == |body.fields["checkpoints"].items|)
      && ("checkpoints" !in body.fields ==> cps == [])
      && (forall i :: 0 <= i < |cps| ==> cps[i].order == i)
      && ("checkpoints" in body.fields ==>
            forall i :: 0 <= i < |cps| ==>
              cps[i] == Store(DecodeCheckpoint(body.fields["checkpoints"].items[i]), i))
  {
    var x := Validate(body).value;
    assert x == Decode(body);
    var c := CreateChecksheet(u, x);
    assert SortedByOrder(c.checkpoints);
    SortSortedIsIdentity(c.checkpoints);
    if "checkpoints" in body.fields {
      var items := body.fields["checkpoints"].items;
      forall i | 0 <= i < |c.checkpoints|
        ensures c.checkpoints[i] == Store(DecodeCheckpoint(items[i]), i)
      {
        assert x.checkpoints.value[i] == DecodeCheckpoint(items[i]);
      }
    }
  }

  /** Posting an encoded input creates exactly the checksheet the input
      describes: its fields, the caller as owner, and its checkpoints in
      request order numbered from 0. */
  lemma PostEncodedChecksheet(u: User, x: ChecksheetInput)
    requires |x.title| >= 1
    ensures var r := PostChecksheet(Some(u), Some(Encode(x)));
      && r.status == 201
      && r.body == Data(CreateChecksheet(u, x))
      && r.body.value.checkpoints == NumberCheckpoints(x.checkpoints)
  {
    ValidateEncode(x);
    SortSortedIsIdentity(CreateChecksheet(u, x).checkpoints);
  }

  // ------------------------------------------------------------------- GET

  datatype ListParams = ListParams(category: Option<string>, status: Option<string>, isTemplate: Option<string>)

  function OptColumn(v: Option<string>): Scalar
  {
    if v.Some? then SStr(v.value) else SNull
  }

  /** The columns a `where` filter on checksheets can look at. */
  function ToRow(c: Checksheet): Row
  {
    Row(map[
      "title" := SStr(c.title),
      "description" := OptColumn(c.description),
      "category" := OptColumn(c.category),
      "status" := SStr(c.status),
      "isTemplate" := (if c.isTemplate.Some? then SBool(c.isTemplate.value) else SNull),
      "creatorId" := SStr(c.creatorId),
      "organizationId" := OptColumn(c.organizationId)], map[])
  }

  /** The value the user's organization id takes inside a filter, passed as
      it is. */
  function OrgFilterValue(o: OrgRef): Scalar
  {
    match o
    case OrgUndefined => SUndefined
    case OrgNull => SNull
    case OrgId(id) => SStr(id)
  }

  /** `{ OR: [{ creatorId }, { organizationId }] }`. */
  function AccessOr(u: User, org: Scalar): Where
  {
    Single("OR", OrOf([Single("creatorId", Equals(SStr(u.id))), Single("organizationId", Equals(org))]))
  }

  function ListWhere(u: User, p: ListParams): Where
  {
    Single("AND", AndOf([
      if Truthy(p.category) then Single("category", Equals(SStr(p.category.value))) else Empty,
      if Truthy(p.status) then Single("status", Equals(SStr(p.status.value))) else Empty,
      if p.isTemplate == Some("true") then Single("isTemplate", Equals(SBool(true))) else Empty,
      if u.role != Admin then AccessOr(u, OrgFilterValue(u.organizationId)) else Empty]))
  }

  /** How the user's organization id, once in a filter, relates to a stored
      organization column: an undefined one constrains nothing. */
  predicate OrgMatches(o: OrgRef, col: Option<string>)
  {
    match o
    case OrgUndefined => true
    case OrgNull => col.None?
    case OrgId(id) => col == Some(id)
  }

  /** The listing rule in the application's own terms. */
  predicate Listed(u: User, p: ListParams, c: Checksheet)
  {
    && (Truthy(p.category) ==> c.category == Some(p.category.value))
    && (Truthy(p.status) ==> c.status == p.status.value)
    && (p.isTemplate == Some("true") ==> c.isTemplate == Some(true))
    && (u.role != Admin ==> c.creatorId == u.id || OrgMatches(u.organizationId, c.organizationId))
  }

  lemma AccessOrHolds(u: User, o: OrgRef, c: Checksheet)
    ensures Holds(ToRow(c), AccessOr(u, OrgFilterValue(o)))
        <==> c.creatorId == u.id || OrgMatches(o, c.organizationId)
  {
    var a := Single("creatorId", Equals(SStr(u.id)));
    var b := Single("organizationId", Equals(OrgFilterValue(o)));
    HoldsSingle(ToRow(c), "OR", OrOf([a, b]));
    HoldsOr2(ToRow(c), a, b);
    HoldsSingle(ToRow(c), "creatorId", Equals(SStr(u.id)));
    HoldsSingle(ToRow(c), "organizationId", Equals(OrgFilterValue(o)));
  }

  lemma CategoryPartHolds(c: Checksheet, p: ListParams)
    ensures Holds(ToRow(c), if Truthy(p.category) then Single("category", Equals(SStr(p.category.value))) else Empty)
        <==> (Truthy(p.category) ==> c.category == Some(p.category.value))
  {
    if Truthy(p.category) { HoldsSingle(ToRow(c), "category", Equals(SStr(p.category.value))); }
  }

  lemma StatusPartHolds(c: Checksheet, p: ListParams)
    ensures Holds(ToRow(c), if Truthy(p.status) then Single("status", Equals(SStr(p.status.value))) else Empty)
        <==> (Truthy(p.status) ==> c.status == p.status.value)
  {
    if Truthy(p.status) { HoldsSingle(ToRow(c), "status", Equals(SStr(p.status.value))); }
  }

  lemma TemplatePartHolds(c: Checksheet, p: ListParams)
    ensures Holds(ToRow(c), if p.isTemplate == Some("true") then Single("isTemplate", Equals(SBool(true))) else Empty)
        <==> (p.isTemplate == Some("true") ==> c.isTemplate == Some(true))
  {
    if p.isTemplate == Some("true") { HoldsSingle(ToRow(c), "isTemplate", Equals(SBool(true))); }
  }

  /** The `where` object the handler builds selects exactly the listed
      checksheets. */
  lemma ListWhereMeansListed(u: User, p: ListParams, c: Checksheet)
    ensures Holds(ToRow(c), ListWhere(u, p)) <==> Listed(u, p, c)
  {
    var row := ToRow(c);
    var ws := ListWhere(u, p).m["AND"].ws;
    HoldsSingle(row, "AND", AndOf(ws));
    CategoryPartHolds(c, p);
    StatusPartHolds(c, p);
    TemplatePartHolds(c, p);
    if u.role != Admin { AccessOrHolds(u, u.organizationId, c); }
    HoldsAnd4(row, ws[0], ws[1], ws[2], ws[3]);
    assert ws == [ws[0], ws[1], ws[2], ws[3]];
  }

  /** For a non-ADMIN caller with an organization, a listed checksheet is
      always the caller's own or one of the caller's organization. */
  lemma NonAdminSeesOnlyOwnOrOrg(u: User, p: ListParams, c: Checksheet)
    requires u.role != Admin && u.organizationId.OrgId?
    requires Holds(ToRow(c), ListWhere(u, p))
    ensures c.creatorId == u.id || c.organizationId == Some(u.organizationId.id)
  {
    ListWhereMeansListed(u, p, c);
  }

  /** A caller whose organization id is undefined passes an `organizationId:
      undefined` filter, so the access condition lets every checksheet
      through; this rests on the assumed Prisma semantics of `undefined`. */
  lemma UndefinedOrgSeesEverything(u: User, c: Checksheet)
    requires u.organizationId.OrgUndefined?
    ensures Holds(ToRow(c), ListWhere(u, ListParams(None, None, None)))
  {
    ListWhereMeansListed(u, ListParams(None, None, None), c);
  }

  function WithSortedCheckpoints(c: Checksheet): Checksheet
  {
    c.(checkpoints := SortByOrder(c.checkpoints))
  }

  /** The stored checksheets the listing `where` selects. */
  function Hits(u: User, p: ListParams, db: seq<Checksheet>): seq<Checksheet>
  {
    Filter(db, c => Holds(ToRow(c), ListWhere(u, p)))
  }

  function SortEach(hits: seq<Checksheet>): (out: seq<Checksheet>)
    ensures |out| == |hits| && forall i :: 0 <= i < |hits| ==> out[i] == WithSortedCheckpoints(hits[i])
  {
    seq(|hits|, i requires 0 <= i < |hits| => WithSortedCheckpoints(hits[i]))
  }

  /** The checksheets the listing `where` selects, each with its checkpoints
      in order: exactly the stored checksheets that follow the listing rule. */
  function ListedSorted(u: User, p: ListParams, db: seq<Checksheet>): (out: seq<Checksheet>)
    ensures |out| <= |db|
    ensures forall i :: 0 <= i < |out| ==> Listed(u, p, out[i]) && SortedByOrder(out[i].checkpoints)
    ensures forall c :: c in db && Listed(u, p, c) ==> WithSortedCheckpoints(c) in out
  {
    ListedSortedSound(u, p, db);
    ListedSortedComplete(u, p, db);
    SortEach(Hits(u, p, db))
  }

  lemma ListedSortedSound(u: User, p: ListParams, db: seq<Checksheet>)
    ensures var out := SortEach(Hits(u, p, db));
      forall i :: 0 <= i < |out| ==> Listed(u, p, out[i]) && SortedByOrder(out[i].checkpoints)
  {
    var hits := Hits(u, p, db);
    var out := SortEach(hits);
    forall i | 0 <= i < |out|
      ensures Listed(u, p, out[i]) && SortedByOrder(out[i].checkpoints)
    {
      assert out[i] == WithSortedCheckpoints(hits[i]);
      assert hits[i] in hits;
      ListWhereMeansListed(u, p, hits[i]);
    }
  }

  lemma ListedSortedComplete(u: User, p: ListParams, db: seq<Checksheet>)
    ensures forall c :: c in db && Listed(u, p, c) ==>
      WithSortedCheckpoints(c) in SortEach(Hits(u, p, db))
  {
    var hits := Hits(u, p, db);
    var out := SortEach(hits);
    forall c | c in db && Listed(u, p, c)
      ensures WithSortedCheckpoints(c) in out
    {
      ListWhereMeansListed(u, p, c);
      assert c in hits;
      var k :| 0 <= k < |hits| && hits[k] == c;
      assert out[k] == WithSortedCheckpoints(c);
    }
  }

  /** `GET /api/checksheets` over the stored checksheets `db`, in the order
      the database returns them (the `updatedAt` ordering is not modelled).
      A status outside the enum makes the query throw, which the handler
      reports as 500. */
  function ListChecksheets(session: Session, p: ListParams, db: seq<Checksheet>): (r: Reply<seq<Checksheet>>)
    ensures session.None? ==> r == Unauthorized()
    ensures session.Some? && !StatusParamOk(p.status, ChecksheetStatuses) ==>
      r == Reply(500, ErrorMsg("Failed to fetch checksheets"))
    ensures r.status == 200 <==> session.Some? && StatusParamOk(p.status, ChecksheetStatuses)
    ensures r.status == 200 ==> r.body.Data? && |r.body.value| <= |db|
    ensures r.status == 200 ==> forall i :: 0 <= i < |r.body.value| ==>
      Listed(session.value, p, r.body.value[i]) && SortedByOrder(r.body.value[i].checkpoints)
    ensures r.status == 200 ==> forall c :: c in db && Listed(session.value, p, c) ==>
      WithSortedCheckpoints(c) in r.body.value
  {
    if session.None? then Unauthorized()
    else if !StatusParamOk(p.status, ChecksheetStatuses) then Reply(500, ErrorMsg("Failed to fetch checksheets"))
    else Reply(200, Data(ListedSorted(session.value, p, db)))
  }
}

=== FILE: dashboard_layout.dfy ===
/** The frame of every dashboard page: the sidebar navigation with its
    active-item highlight, the user menu's labels, the language selector and
    the dark-mode preference kept in local storage.

    `toggleDarkMode` is defined in the component but no control calls it;
    it is modelled as written. Rendering and styling are not modelled. */
module DashboardLayout {
  import opened Base
  import opened Strings

  // ---------------------------------------------------------- navigation

  datatype NavItem = NavItem(name: string, href: string)

  const Navigation: seq<NavItem> := [
    NavItem("Dashboard", "/dashboard"),
    NavItem("Create Checksheet", "/checksheets/create"),
    NavItem("My Checksheets", "/checksheets"),
    NavItem("Templates", "/templates"),
    NavItem("AI Assistant", "/ai"),
    NavItem("Execute", "/execute"),
    NavItem("Reports", "/reports"),
    NavItem("Best Practices", "/best-practices"),
    NavItem("Settings", "/settings")]

  /** A link is highlighted on its own page and on every page below it; the
      separator keeps "/checksheetsX" from counting as below "/checksheets". */
  predicate IsActive(pathname: Option<string>, href: string)
  {
    pathname == Some(href) || (pathname.Some? && StartsWith(pathname.value, href + "/"))
  }

  function ActiveItems(pathname: Option<string>): (r: seq<NavItem>)
    ensures forall x :: x in r <==> x in Navigation && IsActive(pathname, x.href)
  {
    Filter(Navigation, (x: NavItem) => IsActive(pathname, x.href))
  }

  /** Every link is highlighted on its own page. */
  lemma OwnPageActive(i: nat)
    requires i < |Navigation|
    ensures Navigation[i] in ActiveItems(Some(Navigation[i].href))
  {
  }

  /** On any page the highlighted links appear in the order of the
      navigation. */
  lemma ActiveItemsInOrder(pathname: Option<string>)
    ensures Subsequence(ActiveItems(pathname), Navigation)
  {
    FilterSubsequence(Navigation, (x: NavItem) => IsActive(pathname, x.href));
  }

  /** On the create page both "Create Checksheet" and "My Checksheets" are
      highlighted, since the create page lies below "/checksheets". */
  lemma CreatePageHighlightsTwo()
    ensures IsActive(Some("/checksheets/create"), "/checksheets/create")
    ensures IsActive(Some("/checksheets/create"), "/checksheets")
    ensures !IsActive(Some("/checksheets/create"), "/dashboard")
  {
    assert "/checksheets/create"[..|"/checksheets/"|] == "/checksheets/";
    assert "/checksheets/create"[..|"/dashboard/"|] != "/dashboard/" by {
      assert "/checksheets/create"[1] != "/dashboard/"[1];
    }
  }

  /** A sibling that merely shares the prefix is not highlighted. */
  lemma PrefixSiblingNotActive()
    ensures !IsActive(Some("/checksheetsX"), "/checksheets")
  {
    assert "/checksheetsX"[12] != "/checksheets/"[12];
  }

  /** Without a pathname nothing is highlighted. */
  lemma NoPathnameNothingActive()
    ensures ActiveItems(None) == []
  {
    FilterNone(Navigation, (x: NavItem) => IsActive(None, x.href));
  }

  // ------------------------------------------------------------ user menu

  /** `s?.charAt(0)?.toUpperCase()` as a truthy value: the first letter,
      upper-cased, of a non-empty string. */
  function FirstLetter(s: Option<string>): Option<string>
  {
    if Truthy(s) then Some([UpperChar(s.value[0])]) else None
  }

  /** The avatar letter: from the name, else from the email, else "A". */
  function AvatarLetter(name: Option<string>, email: Option<string>): (r: string)
    ensures Truthy(name) ==> r == [UpperChar(name.value[0])]
    ensures !Truthy(name) && Truthy(email) ==> r == [UpperChar(email.value[0])]
    ensures !Truthy(name) && !Truthy(email) ==> r == "A"
    ensures |r| == 1
  {
    var n := FirstLetter(name);
    if n.Some? then n.value
    else
      var e := FirstLetter(email);
      if e.Some? then e.value else "A"
  }

  /** `a || b || fallback` on optional strings. */
  function FirstTruthy(a: Option<string>, b: Option<string>, fallback: string): string
  {
    if Truthy(a) then a.value else if Truthy(b) then b.value else fallback
  }

  /** The three user labels: the button (name, email or "User"), the menu
      heading (name or "User") and the role (or "USER"). */
  datatype UserLabels = UserLabels(button: string, heading: string, role: string)

  function Labels(name: Option<string>, email: Option<string>, role: Option<string>): UserLabels
  {
    UserLabels(FirstTruthy(name, email, "User"), FirstTruthy(name, None, "User"), FirstTruthy(role, None, "USER"))
  }

  /** The avatar letter and the button label always come from the same
      source: the name when it is non-empty, else the email. */
  lemma AvatarMatchesButton(name: Option<string>, email: Option<string>, role: Option<string>)
    requires Truthy(name) || Truthy(email)
    ensures var b := Labels(name, email, role).button;
      |b| > 0 && AvatarLetter(name, email) == [UpperChar(b[0])]
  {
  }

  /** A user with no name is greeted as "User" in the menu heading, and a
      user with no role is shown as "USER", whatever the email. */
  lemma NamelessLabels(email: Option<string>)
    ensures Labels(None, email, None).heading == "User"
    ensures Labels(None, email, None).role == "USER"
    ensures Labels(None, email, None).button == (if Truthy(email) then email.value else "User")
  {
  }

  // ------------------------------------------------------------- language

  datatype Language = Language(code: string, name: string, fullName: string)

  const Languages: seq<Language> := [
    Language("en", "EN", "English"),
    Language("id", "ID", "Indonesian"),
    Language("es", "ES", "Spanish"),
    Language("fr", "FR", "French"),
    Language("de", "DE", "German"),
    Language("zh", "ZH", "Chinese"),
    Language("ja", "JA", "Japanese")]

  datatype LangMenu = LangMenu(selected: string, open: bool)

  const InitialLang := LangMenu("en", false)

  function ToggleLangMenu(m: LangMenu): LangMenu
  {
    m.(open := !m.open)
  }

  /** Picking a language selects it and closes the menu. */
  function SelectLanguage(m: LangMenu, l: Language): LangMenu
  {
    LangMenu(l.code, false)
  }

  /** The selector's caption: the selected code upper-cased. */
  function LangCaption(m: LangMenu): (r: string)
    ensures |r| == |m.selected|
  {
    Upper(m.selected)
  }

  /** For every offered language the caption after picking it is the short
      name the menu lists for it. */
  lemma CaptionIsShortName(m: LangMenu, i: nat)
    requires i < |Languages|
    ensures LangCaption(SelectLanguage(m, Languages[i])) == Languages[i].name
  {
    var l := Languages[i];
    assert |l.code| == 2;
    assert Upper(l.code) == [UpperChar(l.code[0]), UpperChar(l.code[1])];
  }

  /** Opening and closing the menu again keeps the selection and the
      caption. */
  lemma LangMenuToggleTwice(m: LangMenu)
    ensures ToggleLangMenu(ToggleLangMenu(m)) == m
    ensures ToggleLangMenu(m).open != m.open
    ensures LangCaption(ToggleLangMenu(m)) == LangCaption(m)
  {
  }

  // ------------------------------------------------------------ dark mode

  /** The mode, the stored preference and whether the root element carries
      the dark class. */
  datatype Theme = Theme(dark: bool, stored: Option<string>, darkClass: bool)

  /** The mount effect: dark exactly when the stored text is "true"; the
      class is added then, and never removed here. */
  function Mount(stored: Option<string>, darkClass: bool): Theme
  {
    var isDark := stored == Some("true");
    Theme(isDark, stored, darkClass || isDark)
  }

  /** `toggleDarkMode`: flip the mode, store `String(newMode)`, set the
      class to match. */
  function Toggle(t: Theme): Theme
  {
    var newMode := !t.dark;
    Theme(newMode, Some(if newMode then "true" else "false"), newMode)
  }

  /** The stored preference survives a reload: mounting from what a toggle
      stored gives back the toggled mode. */
  lemma ToggleSurvivesReload(t: Theme)
    ensures Mount(Toggle(t).stored, false) == Toggle(t)
  {
  }

  /** Two toggles restore the mode, with the class in step with it. */
  lemma ToggleTwice(t: Theme)
    ensures Toggle(Toggle(t)).dark == t.dark
    ensures Toggle(Toggle(t)).darkClass == t.dark
  {
  }

  /** Only the exact text "true" selects the dark mode. */
  lemma OnlyExactTrueIsDark()
    ensures !Mount(Some("TRUE"), false).dark && !Mount(Some("1"), false).dark
    ensures !Mount(None, false).dark
  {
    assert "TRUE" != "true" by { assert "TRUE"[0] != "true"[0]; }
  }
}

=== FILE: gemini.dfy ===
/** The generative-language adapter: the text the model returns is trimmed
    and stripped of markdown code fences before it is parsed as JSON, and a
    failure is turned into a message for the user.

    The model call and `JSON.parse` are not part of this model: the model's
    reply is an input, the parser a parameter. */
module Gemini {
  import opened Base
  import opened Strings

  // ------------------------------------------------------------------ trim

  /** The characters `String.prototype.trim` removes: the ECMAScript
      WhiteSpace and LineTerminator code points. */
  predicate IsSpace(c: char)
  {
    || c == '\t' || c == '\n' || c == '\U{000B}' || c == '\U{000C}' || c == '\r' || c == ' '
    || c == '\U{00A0}' || c == '\U{1680}' || ('\U{2000}' <= c <= '\U{200A}')
    || c == '\U{2028}' || c == '\U{2029}' || c == '\U{202F}' || c == '\U{205F}'
    || c == '\U{3000}' || c == '\U{FEFF}'
  }

  /** The end of the run of white space that starts at `i`. */
  function LeadingEnd(s: string, i: nat): (n: nat)
    requires i <= |s|
    ensures i <= n <= |s|
    ensures forall k :: i <= k < n ==> IsSpace(s[k])
    ensures n < |s| ==> !IsSpace(s[n])
    decreases |s| - i
  {
    if i < |s| && IsSpace(s[i]) then LeadingEnd(s, i + 1) else i
  }

  /** The start of the run of white space that ends at `j`, not going below
      `lo`. */
  function TrailingStart(s: string, lo: nat, j: nat): (m: nat)
    requires lo <= j <= |s|
    ensures lo <= m <= j
    ensures forall k :: m <= k < j ==> IsSpace(s[k])
    ensures m > lo ==> !IsSpace(s[m - 1])
    decreases j
  {
    if j > lo && IsSpace(s[j - 1]) then TrailingStart(s, lo, j - 1) else j
  }

  /** `r` is the slice of `s` that starts at `i`, with only white space
      before and after it. */
  predicate TrimmedAt(s: string, r: string, i: nat)
  {
    && i + |r| <= |s| && r == s[i..i + |r|]
    && (forall k :: 0 <= k < i ==> IsSpace(s[k]))
    && (forall k :: i + |r| <= k < |s| ==> IsSpace(s[k]))
  }

  /** `text.trim()`: a slice of the text with only white space outside it
      and no white space at either end of it. */
  function Trim(s: string): (r: string)
    ensures exists i: nat :: TrimmedAt(s, r, i)
    ensures |r| > 0 ==> !IsSpace(r[0]) && !IsSpace(r[|r| - 1])
  {
    var i := LeadingEnd(s, 0);
    var j := TrailingStart(s, i, |s|);
    assert TrimmedAt(s, s[i..j], i);
    s[i..j]
  }

  lemma TrimIdentity(s: string)
    requires |s| > 0 ==> !IsSpace(s[0]) && !IsSpace(s[|s| - 1])
    ensures Trim(s) == s
  {
  }

  // ------------------------------------------------------- fence removal

  const Fence := "```"
  const JsonFence := "```json"

  /** `s.replace(/<p>\n?/g, '')`: every occurrence of `p`, found left to
      right without overlap, is removed together with one newline right after
      it, if there is one. */
  function RemoveAll(s: string, p: string): (r: string)
    requires |p| > 0
    ensures |r| <= |s|
    decreases |s|
  {
    if |s| == 0 then ""
    else if StartsWith(s, p) then
      var rest := s[|p|..];
      if |rest| > 0 && rest[0] == '\n' then RemoveAll(rest[1..], p) else RemoveAll(rest, p)
    else [s[0]] + RemoveAll(s[1..], p)
  }

  /** Text without `p` passes through unchanged. */
  lemma {:induction false} RemoveAllIdentity(s: string, p: string)
    requires |p| > 0 && !Contains(s, p)
    ensures RemoveAll(s, p) == s
    decreases |s|
  {
    if |s| > 0 {
      assert !OccursAt(s, p, 0);
      assert !Contains(s[1..], p) by {
        forall i | 0 <= i <= |s[1..]| - |p|
          ensures !OccursAt(s[1..], p, i)
        {
          assert !OccursAt(s, p, i + 1);
          assert s[1..][i..i + |p|] == s[i + 1..i + 1 + |p|];
        }
      }
      RemoveAllIdentity(s[1..], p);
    }
  }

  /** After removing every "```", no "```" is left: removal can never glue
      backticks together into a new fence. */
  lemma {:induction false} RemoveFenceLeavesNone(s: string)
    ensures !Contains(RemoveAll(s, Fence), Fence)
    decreases |s|
  {
    var r := RemoveAll(s, Fence);
    if |s| == 0 {
    } else if StartsWith(s, Fence) {
      var rest := s[|Fence|..];
      if |rest| > 0 && rest[0] == '\n' {
        RemoveFenceLeavesNone(rest[1..]);
      } else {
        RemoveFenceLeavesNone(rest);
      }
    } else {
      var tail := RemoveAll(s[1..], Fence);
      assert r == [s[0]] + tail;
      RemoveFenceLeavesNone(s[1..]);
      forall i | 0 <= i <= |r| - |Fence|
        ensures !OccursAt(r, Fence, i)
      {
        if i > 0 {
          assert r[i..i + 3] == tail[i - 1..i + 2];
          assert !OccursAt(tail, Fence, i - 1);
        }
      }
    }
  }

  /** Removal is global: text free of backticks before a fence is kept, the
      fence (and one newline after it) goes, and removal continues behind
      it. */
  lemma {:induction false} RemoveFenceInside(x: string, y: string)
    requires forall i :: 0 <= i < |x| ==> x[i] != '`'
    ensures RemoveAll(x + Fence + y, Fence)
         == x + RemoveAll(if |y| > 0 && y[0] == '\n' then y[1..] else y, Fence)
    decreases |x|
  {
    var s := x + Fence + y;
    if |x| == 0 {
      assert s == Fence + y;
      assert StartsWith(s, Fence);
      assert s[3..] == y;
    } else {
      assert s[0] == x[0] != '`';
      assert !StartsWith(s, Fence);
      assert s[1..] == x[1..] + Fence + y;
      assert RemoveAll(s, Fence) == [x[0]] + RemoveAll(s[1..], Fence);
      RemoveFenceInside(x[1..], y);
      assert x == [x[0]] + x[1..];
    }
  }

  // ----------------------------------------------------------- extraction

  /** The text handed to `JSON.parse`. */
  function ExtractJson(text: string): (r: string)
    ensures !StartsWith(Trim(text), Fence) ==> r == Trim(text)
    ensures StartsWith(Trim(text), JsonFence) ==>
      r == RemoveAll(RemoveAll(Trim(text), JsonFence), Fence)
    ensures StartsWith(Trim(text), Fence) && !StartsWith(Trim(text), JsonFence) ==>
      r == RemoveAll(Trim(text), Fence)
    ensures StartsWith(Trim(text), Fence) ==> !Contains(r, Fence)
  {
    var t := Trim(text);
    if StartsWith(t, JsonFence) then
      var once := RemoveAll(t, JsonFence);
      RemoveFenceLeavesNone(once);
      RemoveAll(once, Fence)
    else if StartsWith(t, Fence) then
      RemoveFenceLeavesNone(t);
      RemoveAll(t, Fence)
    else t
  }

  /** A reply wrapped in a ```json fence yields the wrapped JSON (plus the
      newline that preceded the closing fence, which `JSON.parse` ignores). */
  lemma ExtractFencedJson(body: string)
    requires forall i :: 0 <= i < |body| ==> body[i] != '`'
    ensures ExtractJson(JsonFence + "\n" + body + "\n" + Fence) == body + "\n"
  {
    var text := JsonFence + "\n" + body + "\n" + Fence;
    TrimIdentity(text);
    assert StartsWith(text, JsonFence);
    var tail := body + "\n" + Fence;
    assert text[|JsonFence|..] == "\n" + tail;
    assert RemoveAll(text, JsonFence) == RemoveAll(tail, JsonFence);
    assert !Contains(tail, JsonFence) by {
      forall i | 0 <= i <= |tail| - |JsonFence|
        ensures !OccursAt(tail, JsonFence, i)
      {
        assert i < |body|;
        assert tail[i] == body[i] != '`';
      }
    }
    RemoveAllIdentity(tail, JsonFence);
    assert tail == (body + "\n") + Fence + "";
    RemoveFenceInside(body + "\n", "");
  }

  // --------------------------------------------------------------- prompt

  /** The text sent to the model: the fixed instructions `system`, the user's
      request, and the category only when it is truthy. */
  function FullPrompt(system: string, prompt: string, category: Option<string>): string
  {
    var head := system + "\n\nUser request: " + prompt;
    if Truthy(category) then head + "\nCategory: " + category.value else head
  }

  /** A missing or empty category leaves the prompt as it is without one,
      which is a strict prefix of the prompt with a category. */
  lemma FullPromptExtends(system: string, prompt: string, category: Option<string>)
    ensures !Truthy(category) ==> FullPrompt(system, prompt, category) == FullPrompt(system, prompt, None)
    ensures Truthy(category) ==>
      && StartsWith(FullPrompt(system, prompt, category), FullPrompt(system, prompt, None))
      && |FullPrompt(system, prompt, category)| > |FullPrompt(system, prompt, None)|
  {
    var head := FullPrompt(system, prompt, None);
    if Truthy(category) {
      assert FullPrompt(system, prompt, category)[..|head|] == head;
    }
  }

  /** The category line can be read back: two truthy categories give the
      same prompt only when they are the same. */
  lemma FullPromptCategoryInjective(system: string, prompt: string, c1: Option<string>, c2: Option<string>)
    requires Truthy(c1) && Truthy(c2)
    requires FullPrompt(system, prompt, c1) == FullPrompt(system, prompt, c2)
    ensures c1.value == c2.value
  {
    var head := system + "\n\nUser request: " + prompt + "\nCategory: ";
    assert FullPrompt(system, prompt, c1) == head + c1.value;
    assert FullPrompt(system, prompt, c2) == head + c2.value;
    assert c1.value == (head + c1.value)[|head|..];
    assert c2.value == (head + c2.value)[|head|..];
  }

  // -------------------------------------------------------------- errors

  /** What a `catch` clause can see of a thrown value: a numeric `status`
      property, whether it is an `Error`, and its message. */
  datatype Thrown = Thrown(status: Option<int>, isError: bool, message: string)

  datatype GenResult<+D> = GenOk(data: D) | GenFailed(error: string)

  const QuotaMessage := "AI quota exceeded. Please wait a moment and try again, or create checksheet manually."
  const GenerateFallback := "Failed to generate checksheet"
  const SuggestFallback := "Failed to generate suggestions"

  /** The `catch` of `generateChecksheet`. */
  function ClassifyGenerateError(e: Thrown): string
  {
    if e.status == Some(429) then QuotaMessage
    else if e.isError then e.message
    else GenerateFallback
  }

  /** The `catch` of `suggestImprovements`, which has no rate-limit case. */
  function ClassifySuggestError(e: Thrown): string
  {
    if e.isError then e.message else SuggestFallback
  }

  /** `generateChecksheet`: `reply` is what the model call produced (its text
      or what it threw), `parse` stands for `JSON.parse`. */
  function GenerateChecksheet<D>(reply: Result<string, Thrown>, parse: string -> Result<D, Thrown>): (r: GenResult<D>)
    ensures reply.Failure? ==> r == GenFailed(ClassifyGenerateError(reply.error))
    ensures reply.Success? ==>
      (r.GenOk? <==> parse(ExtractJson(reply.value)).Success?)
    ensures reply.Success? && r.GenOk? ==> r.data == parse(ExtractJson(reply.value)).value
  {
    match reply
    case Failure(e) => GenFailed(ClassifyGenerateError(e))
    case Success(text) =>
      match parse(ExtractJson(text))
      case Success(d) => GenOk(d)
      case Failure(e) => GenFailed(ClassifyGenerateError(e))
  }

  /** `suggestImprovements`, with the same extraction rule. */
  function SuggestImprovements<D>(reply: Result<string, Thrown>, parse: string -> Result<D, Thrown>): (r: GenResult<D>)
    ensures reply.Failure? ==> r == GenFailed(ClassifySuggestError(reply.error))
    ensures reply.Success? ==>
      (r.GenOk? <==> parse(ExtractJson(reply.value)).Success?)
    ensures reply.Success? && r.GenOk? ==> r.data == parse(ExtractJson(reply.value)).value
  {
    match reply
    case Failure(e) => GenFailed(ClassifySuggestError(e))
    case Success(text) =>
      match parse(ExtractJson(text))
      case Success(d) => GenOk(d)
      case Failure(e) => GenFailed(ClassifySuggestError(e))
  }

  /** Both entry points hand the parser the same text, so on a successful
      model reply they succeed together with the same data. */
  lemma SameExtraction<D>(text: string, parse: string -> Result<D, Thrown>)
    ensures GenerateChecksheet(Success(text), parse).GenOk? <==> SuggestImprovements(Success(text), parse).GenOk?
    ensures GenerateChecksheet(Success(text), parse).GenOk? ==>
      GenerateChecksheet(Success(text), parse) == SuggestImprovements(Success(text), parse)
  {
  }

  /** A rate-limited model call surfaces the quota message from
      `generateChecksheet` but the error's own message from
      `suggestImprovements`. */
  lemma RateLimitOnlySpecialInGenerate<D>(e: Thrown, parse: string -> Result<D, Thrown>)
    requires e.status == Some(429) && e.isError && e.message != QuotaMessage
    ensures GenerateChecksheet(Failure(e), parse) == GenFailed(QuotaMessage)
    ensures SuggestImprovements(Failure(e), parse) == GenFailed(e.message)
    ensures GenerateChecksheet(Failure(e), parse) != SuggestImprovements(Failure(e), parse)
  {
  }
}

=== FILE: global_search.dfy ===
/** The search box of the top bar: typing a query of two or more characters
    asks the search endpoint (after a pause), the answer opens a dropdown
    with the hits of each kind, and clearing or a click elsewhere closes it.

    The 300 ms pause and the cancelled timers are not modelled: a query
    change that survives the pause is `QueryChanged` followed by the
    `Answered` of its request. A request still in flight when the query
    changes is not cancelled, so its answer can arrive after a clear. */
module GlobalSearch {
  import opened Base
  import SearchApi
  import ChecksheetsApi
  import ResultsApi

  datatype State = State(
    query: string,
    isOpen: bool,
    isSearching: bool,
    results: Option<SearchApi.SearchResults>)

  const Initial := State("", false, false, None)

  /** The request a query change schedules, if any. */
  function RequestFor(q: string): Option<string>
  {
    if |q| < 2 then None else Some(q)
  }

  /** Typing: a query shorter than two characters drops the results and
      sends nothing; a longer one marks a search as running. */
  function QueryChanged(st: State, q: string): State
  {
    if |q| < 2 then st.(query := q, results := None)
    else st.(query := q, isSearching := true)
  }

  /** What the request produced. */
  datatype Fetched = FetchOk(data: SearchApi.SearchResults) | FetchNotOk | FetchThrew

  /** The answer of a request: an OK answer replaces the results and opens
      the dropdown; any answer ends the spinner. */
  function Answered(st: State, f: Fetched): State
  {
    if f.FetchOk? then st.(results := Some(f.data), isOpen := true, isSearching := false)
    else st.(isSearching := false)
  }

  function HandleClear(st: State): State
  {
    st.(query := "", results := None, isOpen := false)
  }

  /** Focusing the box reopens the dropdown only for a long enough query. */
  function Focused(st: State): State
  {
    if |st.query| >= 2 then st.(isOpen := true) else st
  }

  /** A mouse-down outside the component, or a click on a hit. */
  function Closed(st: State): State
  {
    st.(isOpen := false)
  }

  function TotalResults(results: Option<SearchApi.SearchResults>): nat
  {
    if results.None? then 0
    else |results.value.checksheets| + |results.value.templates| + |results.value.results|
  }

  predicate DropdownVisible(st: State)
  {
    st.isOpen && st.results.Some?
  }

  /** The "No results found" line. */
  predicate ShowsNoResults(st: State)
  {
    DropdownVisible(st) && TotalResults(st.results) == 0
  }

  /** A query too short to send hides the dropdown, whatever was shown. */
  lemma ShortQueryHidesDropdown(st: State, q: string)
    requires |q| < 2
    ensures !DropdownVisible(QueryChanged(st, q))
    ensures RequestFor(q).None?
  {
  }

  /** Every request the box sends passes the endpoint's length check, so for
      a signed-in user the dropdown lists at most five hits of each kind and
      fifteen in all. */
  lemma RequestsAreNeverTooShort(u: User, q: string, cs: seq<ChecksheetsApi.Checksheet>,
                                 ts: seq<SearchApi.Template>, rs: seq<ResultsApi.StoredResult>)
    requires RequestFor(q).Some?
    ensures !SearchApi.TooShort(Some(q))
    ensures var reply := SearchApi.Search(Some(u), Some(q), cs, ts, rs);
      TotalResults(Some(reply.body.value)) <= 3 * SearchApi.PageSize
  {
  }

  /** "No results" is shown exactly when the dropdown is open on an answer
      with no hit of any kind. */
  lemma NoResultsMeansEmptyAnswer(st: State, data: SearchApi.SearchResults)
    ensures ShowsNoResults(Answered(st, FetchOk(data))) <==> data == SearchApi.NoResults
  {
  }

  /** A request sent before a clear that answers after it reopens the
      dropdown on the old hits while the box is empty. */
  lemma LateAnswerAfterClear(st: State, data: SearchApi.SearchResults)
    ensures var r := Answered(HandleClear(st), FetchOk(data));
      r.query == "" && DropdownVisible(r)
  {
  }

  /** Typing a query long enough to send and receiving its OK answer shows
      a dropdown with exactly that answer, for that query, with the spinner
      off. */
  lemma TypeThenAnswer(st: State, q: string, data: SearchApi.SearchResults)
    requires RequestFor(q) == Some(q)
    ensures var r := Answered(QueryChanged(st, q), FetchOk(data));
      && r.query == q && r.results == Some(data) && !r.isSearching && DropdownVisible(r)
  {
  }

  /** An answer that is not OK stops the spinner and leaves what was shown. */
  lemma FailedAnswerKeepsView(st: State, f: Fetched)
    requires !f.FetchOk?
    ensures Answered(st, f) == st.(isSearching := false)
  {
  }

  /** After a clear, focusing the empty box does not bring the dropdown back. */
  lemma ClearedBoxStaysClosed(st: State)
    ensures Focused(HandleClear(st)) == HandleClear(st)
    ensures !DropdownVisible(Focused(HandleClear(st)))
  {
  }

  /** Closing the dropdown and focusing the box again restores it: the
      click elsewhere changed nothing but `isOpen`. */
  lemma RefocusRestores(st: State)
    requires |st.query| >= 2 && st.isOpen
    ensures Focused(Closed(st)) == st
  {
  }
}

=== FILE: photo_upload.dfy ===
/** The photo picker: a picked file is checked (present, an image, at most
    10 MiB) before anything is sent, the upload's outcome is reported, and
    the parent is told the new url only when the upload succeeded. */
module PhotoUpload {
  import opened Base
  import opened Strings

  /** What the picker sees of a file: its MIME type and size in bytes. */
  datatype PickedFile = PickedFile(mimeType: string, size: nat)

  /** What the upload request produced: the url of an OK reply, the `error`
      field of a refused one, or a throw (which includes a refused reply
      whose body is not JSON). */
  datatype UploadReply = UploadOk(url: string) | UploadNotOk(error: Option<string>) | UploadThrew

  const MaxBytes: nat := 10 * 1024 * 1024
  const NotImageAlert := "Please select an image file"
  const TooLargeAlert := "File size must be less than 10MB"
  const UploadFailedAlert := "Failed to upload image"

  /** The effects of one file change: whether the request was sent (and the
      button showed "Uploading..." meanwhile), the alert raised, and the url
      handed to `onChange`. The uploading flag is false again afterwards in
      every case. */
  datatype Outcome = Outcome(requested: bool, alert: Option<string>, changed: Option<string>)

  /** The checks a file must pass before it is sent, in the order made. */
  predicate Sendable(f: PickedFile)
  {
    StartsWith(f.mimeType, "image/") && f.size <= MaxBytes
  }

  /** `handleFileChange`. */
  function HandleFileChange(file: Option<PickedFile>, reply: UploadReply): (o: Outcome)
    ensures file.None? ==> o == Outcome(false, None, None)
    ensures o.requested <==> file.Some? && Sendable(file.value)
    ensures file.Some? && !StartsWith(file.value.mimeType, "image/") ==> o.alert == Some(NotImageAlert)
    ensures file.Some? && StartsWith(file.value.mimeType, "image/") && file.value.size > MaxBytes ==>
      o.alert == Some(TooLargeAlert)
    ensures o.changed.Some? <==> o.requested && reply.UploadOk?
    ensures o.changed.Some? ==> o.changed.value == reply.url && o.alert.None?
    ensures o.requested && reply.UploadNotOk? ==>
      o.alert == Some(if Truthy(reply.error) then reply.error.value else UploadFailedAlert)
    ensures o.requested && reply.UploadThrew? ==> o.alert == Some(UploadFailedAlert)
  {
    if file.None? then Outcome(false, None, None)
    else if !StartsWith(file.value.mimeType, "image/") then Outcome(false, Some(NotImageAlert), None)
    else if file.value.size > MaxBytes then Outcome(false, Some(TooLargeAlert), None)
    else
      match reply
      case UploadOk(url) => Outcome(true, None, Some(url))
      case UploadNotOk(e) => Outcome(true, Some(if Truthy(e) then e.value else UploadFailedAlert), None)
      case UploadThrew => Outcome(true, Some(UploadFailedAlert), None)
  }

  /** A file rejected by the checks never reaches the network: whatever the
      server would have answered, the outcome is the same. */
  lemma RejectedFileIgnoresServer(file: Option<PickedFile>, r1: UploadReply, r2: UploadReply)
    requires file.None? || !Sendable(file.value)
    ensures HandleFileChange(file, r1) == HandleFileChange(file, r2)
    ensures HandleFileChange(file, r1).changed.None?
  {
  }

  /** The size limit is inclusive: an image of exactly 10 MiB is sent, one
      byte more is refused with the size alert. */
  lemma SizeLimitBoundary(mime: string, reply: UploadReply)
    requires StartsWith(mime, "image/")
    ensures HandleFileChange(Some(PickedFile(mime, 10485760)), reply).requested
    ensures HandleFileChange(Some(PickedFile(mime, 10485761)), reply) == Outcome(false, Some(TooLargeAlert), None)
  {
  }

  /** The type is checked first: an oversized non-image gets the type alert. */
  lemma TypeCheckedBeforeSize(mime: string, size: nat, reply: UploadReply)
    requires !StartsWith(mime, "image/") && size > MaxBytes
    ensures HandleFileChange(Some(PickedFile(mime, size)), reply).alert == Some(NotImageAlert)
  {
  }

  /** What the component shows: the preview with a remove button when it has
      a (non-empty) value, the picker otherwise. */
  datatype View = Preview(src: string) | Picker(caption: string, disabled: bool)

  function Render(value: Option<string>, uploading: bool): View
  {
    if Truthy(value) then Preview(value.value)
    else Picker(if uploading then "Uploading..." else "Choose Photo", uploading)
  }

  /** Once the parent stores the url a successful upload reported, the
      component previews exactly that url. */
  lemma UploadedPhotoIsPreviewed(f: PickedFile, url: string)
    requires Sendable(f) && url != ""
    ensures var o := HandleFileChange(Some(f), UploadOk(url));
      Render(o.changed, false) == Preview(url)
  {
  }
}

=== FILE: proxy.dfy ===
/** The page-route gate that runs before every page request: unauthenticated
    visitors are sent to the sign-in page, non-ADMIN users are kept out of the
    admin area, everything else passes. */
module Proxy {
  import opened Base
  import opened Strings

  datatype Decision = Next | Redirect(to: string)

  const SignIn := "/auth/signin"
  const Dashboard := "/dashboard"

  /** A public path: a plain-string prefix "/auth" (so "/authors" too), or
      the root. */
  predicate IsPublic(path: string)
  {
    StartsWith(path, "/auth") || path == "/"
  }

  predicate IsAdmin(session: Session)
  {
    session.Some? && session.value.role == Admin
  }

  function Decide(path: string, session: Session): (d: Decision)
    ensures !IsPublic(path) && session.None? ==> d == Redirect(SignIn)
    ensures (IsPublic(path) || session.Some?) && StartsWith(path, "/admin") && !IsAdmin(session) ==>
      d == Redirect(Dashboard)
    ensures d == Next <==>
      (IsPublic(path) || session.Some?) && (StartsWith(path, "/admin") ==> IsAdmin(session))
  {
    if !IsPublic(path) && session.None? then Redirect(SignIn)
    else if StartsWith(path, "/admin") && !IsAdmin(session) then Redirect(Dashboard)
    else Next
  }

  /** No admin path is public. */
  lemma AdminPathNotPublic(path: string)
    requires StartsWith(path, "/admin")
    ensures !IsPublic(path)
  {
    assert path[..5] != "/auth" by {
      assert path[..5][2] == path[..6][2] == 'd';
    }
  }

  /** The authentication check comes first: an unauthenticated request for an
      admin page goes to sign-in, not to the dashboard. */
  lemma UnauthenticatedAdminGoesToSignIn(path: string)
    requires StartsWith(path, "/admin")
    ensures Decide(path, None) == Redirect(SignIn)
  {
    AdminPathNotPublic(path);
  }

  /** The prefix test is a plain string test: "/authors" is public and an
      anonymous visitor passes through. */
  lemma AuthorsIsPublic()
    ensures IsPublic("/authors")
    ensures Decide("/authors", None) == Next
  {
    assert "/authors"[..5] == "/auth";
    assert "/authors"[..6] != "/admin" by {
      assert "/authors"[..6][2] == 'u';
    }
  }

  /** The only redirects are to sign-in and to the dashboard, and a signed-in
      ADMIN is never redirected. */
  lemma RedirectTargets(path: string, session: Session)
    ensures Decide(path, session).Redirect? ==> Decide(path, session).to in {SignIn, Dashboard}
    ensures IsAdmin(session) ==> Decide(path, session) == Next
  {
  }
}

=== FILE: query.dfy ===
/** Prisma `where` objects, as the request handlers build them, and what it
    means for a stored row to satisfy one.

    A `where` object is a map from keys to clauses, exactly like the
    JavaScript object literal it stands for, so that object spread
    (`{...a, ...b}`) is map union with the right operand winning.

    The evaluation below is an ASSUMPTION about Prisma, which is not part of
    this model: a scalar filter whose value is `undefined` constrains nothing,
    `null` matches a NULL column, `contains` never matches a NULL column,
    `AND` is conjunction and `OR` is disjunction over their lists. */
module Query {
  import opened Strings

  /** A scalar column value, or the JavaScript `undefined` in a filter. */
  datatype Scalar = SStr(s: string) | SBool(b: bool) | SNull | SUndefined

  datatype Clause =
    | Equals(v: Scalar)                  // { field: v }
    | ContainsCI(needle: string)         // { field: { contains, mode: 'insensitive' } }
    | AndOf(ws: seq<Where>)              // AND: [ ... ]
    | OrOf(ws: seq<Where>)               // OR: [ ... ]
    | Related(w: Where)                  // { relation: { ... } }

  datatype Where = Where(m: map<string, Clause>)

  /** A stored row: its scalar columns and its to-one relations. */
  datatype Row = Row(cols: map<string, Scalar>, rels: map<string, Row>)

  const Empty: Where := Where(map[])

  /** A one-key `where` object. */
  function Single(key: string, c: Clause): Where
  {
    Where(map[key := c])
  }

  /** JavaScript object spread `{...a, ...b}`. */
  function Spread(a: Where, b: Where): (r: Where)
    ensures r.m.Keys == a.m.Keys + b.m.Keys
    ensures forall k :: k in b.m ==> r.m[k] == b.m[k]
    ensures forall k :: k in a.m && k !in b.m ==> r.m[k] == a.m[k]
  {
    Where(a.m + b.m)
  }

  predicate Holds(r: Row, w: Where)
    decreases w
  {
    forall k :: k in w.m ==> ClauseHolds(r, k, w.m[k])
  }

  predicate ClauseHolds(r: Row, key: string, c: Clause)
    decreases c
  {
    match c
    case Equals(v) =>
      v == SUndefined || (key in r.cols && r.cols[key] == v)
    case ContainsCI(needle) =>
      key in r.cols && r.cols[key].SStr? && ContainsInsensitive(r.cols[key].s, needle)
    case AndOf(ws) =>
      forall i :: 0 <= i < |ws| ==> Holds(r, ws[i])
    case OrOf(ws) =>
      exists i :: 0 <= i < |ws| && Holds(r, ws[i])
    case Related(w) =>
      key in r.rels && Holds(r.rels[key], w)
  }

  lemma HoldsEmpty(r: Row)
    ensures Holds(r, Empty)
  {
  }

  lemma HoldsSingle(r: Row, key: string, c: Clause)
    ensures Holds(r, Single(key, c)) <==> ClauseHolds(r, key, c)
  {
    var w := Single(key, c);
    if ClauseHolds(r, key, c) {
      forall k | k in w.m
        ensures ClauseHolds(r, k, w.m[k])
      {
        assert k == key;
      }
    } else {
      assert key in w.m;
    }
  }

  lemma HoldsPair(r: Row, k1: string, c1: Clause, k2: string, c2: Clause)
    requires k1 != k2
    ensures Holds(r, Where(map[k1 := c1, k2 := c2])) <==> ClauseHolds(r, k1, c1) && ClauseHolds(r, k2, c2)
  {
    var w := Where(map[k1 := c1, k2 := c2]);
    if ClauseHolds(r, k1, c1) && ClauseHolds(r, k2, c2) {
      forall k | k in w.m
        ensures ClauseHolds(r, k, w.m[k])
      {
        assert k == k1 || k == k2;
      }
    } else {
      assert k1 in w.m && k2 in w.m;
    }
  }

  lemma HoldsAnd2(r: Row, a: Where, b: Where)
    ensures ClauseHolds(r, "AND", AndOf([a, b])) <==> Holds(r, a) && Holds(r, b)
  {
    var ws := [a, b];
    if Holds(r, a) && Holds(r, b) {
      forall i | 0 <= i < |ws|
        ensures Holds(r, ws[i])
      {
      }
    } else {
      assert !Holds(r, ws[0]) || !Holds(r, ws[1]);
    }
  }

  lemma HoldsAnd4(r: Row, a: Where, b: Where, c: Where, d: Where)
    ensures ClauseHolds(r, "AND", AndOf([a, b, c, d]))
        <==> Holds(r, a) && Holds(r, b) && Holds(r, c) && Holds(r, d)
  {
    var ws := [a, b, c, d];
    if Holds(r, a) && Holds(r, b) && Holds(r, c) && Holds(r, d) {
      forall i | 0 <= i < |ws|
        ensures Holds(r, ws[i])
      {
      }
    } else {
      assert !Holds(r, ws[0]) || !Holds(r, ws[1]) || !Holds(r, ws[2]) || !Holds(r, ws[3]);
    }
  }

  lemma HoldsOr2(r: Row, a: Where, b: Where)
    ensures ClauseHolds(r, "OR", OrOf([a, b])) <==> Holds(r, a) || Holds(r, b)
  {
    var ws := [a, b];
    if Holds(r, a) {
      assert Holds(r, ws[0]);
    } else if Holds(r, b) {
      assert Holds(r, ws[1]);
    }
  }
}

=== FILE: results_api.dfy ===
/** The result collection endpoint: `GET` lists execution results (an
    inspector only sees their own), `POST` records a new result with its
    responses exactly as the body gives them, filling in defaults. Neither
    checks that a response's checkpoint belongs to the result's checksheet,
    nor that required checkpoints were answered. */
module ResultsApi {
  import opened Base
  import opened Query
  import ChecksheetsApi

  // ----------------------------------------------------------------- body

  /** One response of a request body; `None` is a key the object lacks. */
  datatype ResponseInput = ResponseInput(
    checkpointId: Option<string>,
    value: Option<Json>,
    textValue: Option<string>,
    numberValue: Option<real>,
    boolValue: Option<bool>,
    dateValue: Option<string>,
    photoUrls: Option<seq<string>>,
    fileUrls: Option<seq<string>>,
    gpsLat: Option<real>,
    gpsLng: Option<real>,
    status: Option<string>,
    notes: Option<string>)

  /** The request body. `status` and `inspectorId` stand for keys a client may
      send; the handler never reads them. */
  datatype ResultBody = ResultBody(
    checksheetId: Option<string>,
    location: Option<string>,
    gpsLat: Option<real>,
    gpsLng: Option<real>,
    responses: Option<seq<ResponseInput>>,
    status: Option<string>,
    inspectorId: Option<string>)

  // --------------------------------------------------------------- stored

  datatype StoredResponse = StoredResponse(
    checkpointId: string,
    value: Option<Json>,
    textValue: Option<string>,
    numberValue: Option<real>,
    boolValue: Option<bool>,
    dateValue: Option<string>,
    photoUrls: seq<string>,
    fileUrls: seq<string>,
    gpsLat: Option<real>,
    gpsLng: Option<real>,
    status: string,
    notes: Option<string>)

  datatype ResultRecord = ResultRecord(
    checksheetId: string,
    inspectorId: string,
    location: Option<string>,
    gpsLat: Option<real>,
    gpsLng: Option<real>,
    status: string,
    responses: seq<StoredResponse>)

  /** A stored result together with the checksheet it executes (the
      relation that filters and includes reach through). */
  datatype StoredResult = StoredResult(result: ResultRecord, checksheet: ChecksheetsApi.Checksheet)

  // ------------------------------------------------------------------ POST

  /** `x || []` on an optional array: absent becomes empty; an array, even an
      empty one, is kept. */
  function OrEmpty(x: Option<seq<string>>): seq<string>
  {
    if x.Some? then x.value else []
  }

  /** `response.status || 'PENDING'`. */
  function StatusOrPending(s: Option<string>): string
  {
    if Truthy(s) then s.value else "PENDING"
  }

  function StoreResponse(x: ResponseInput): (r: StoredResponse)
    requires x.checkpointId.Some?
    ensures r.checkpointId == x.checkpointId.value
    ensures x.photoUrls.None? ==> r.photoUrls == []
    ensures x.fileUrls.None? ==> r.fileUrls == []
    ensures r.status != ""
  {
    StoredResponse(
      x.checkpointId.value, x.value, x.textValue, x.numberValue, x.boolValue, x.dateValue,
      OrEmpty(x.photoUrls), OrEmpty(x.fileUrls), x.gpsLat, x.gpsLng,
      StatusOrPending(x.status), x.notes)
  }

  predicate AllHaveCheckpointId(rs: seq<ResponseInput>)
  {
    forall i :: 0 <= i < |rs| ==> rs[i].checkpointId.Some?
  }

  /** The stored responses for `responses?.map(...) || []`. */
  function StoreResponses(rs: Option<seq<ResponseInput>>): (r: seq<StoredResponse>)
    requires rs.Some? ==> AllHaveCheckpointId(rs.value)
    ensures rs.None? ==> r == []
    ensures rs.Some? ==> |r| == |rs.value|
    ensures rs.Some? ==> forall i :: 0 <= i < |r| ==> r[i] == StoreResponse(rs.value[i])
  {
    if rs.None? then []
    else seq(|rs.value|, i requires 0 <= i < |rs.value| => StoreResponse(rs.value[i]))
  }

  /** Whether the database accepts the create: every required foreign key is
      present. (A create that leaves one out throws, which the handler turns
      into a 500.) */
  predicate Creatable(b: ResultBody)
  {
    b.checksheetId.Some? && (b.responses.Some? ==> AllHaveCheckpointId(b.responses.value))
  }

  /** `POST /api/results`; `body` is `None` when the request body is not JSON. */
  function PostResult(session: Session, body: Option<ResultBody>): (r: Reply<ResultRecord>)
    ensures session.None? ==> r == Unauthorized()
    ensures r.status == 201 <==> session.Some? && body.Some? && Creatable(body.value)
    ensures session.Some? && !(body.Some? && Creatable(body.value)) ==>
      r == Reply(500, ErrorMsg("Failed to create result"))
    ensures r.status == 201 ==>
      && r.body.Data?
      && r.body.value.status == "IN_PROGRESS"
      && r.body.value.inspectorId == session.value.id
      && r.body.value.checksheetId == body.value.checksheetId.value
  {
    if session.None? then Unauthorized()
    else if body.None? || !Creatable(body.value) then Reply(500, ErrorMsg("Failed to create result"))
    else
      var b := body.value;
      Reply(201, Data(ResultRecord(
        b.checksheetId.value, session.value.id, b.location, b.gpsLat, b.gpsLng,
        "IN_PROGRESS", StoreResponses(b.responses))))
  }

  /** Each input response yields exactly one stored response, in order, with
      the same checkpoint id, whatever checksheet those checkpoints belong to;
      an absent list yields none; a client-sent status or inspector id has no
      effect. */
  lemma PostKeepsResponses(u: User, b: ResultBody)
    requires Creatable(b)
    ensures var r := PostResult(Some(u), Some(b)).body.value;
      && (b.responses.None? ==> r.responses == [])
      && (b.responses.Some? ==>
            && |r.responses| == |b.responses.value|
            && forall i :: 0 <= i < |r.responses| ==>
                 r.responses[i].checkpointId == b.responses.value[i].checkpointId.value)
      && PostResult(Some(u), Some(b.(status := None, inspectorId := None))).body.value == r
  {
  }

  /** Absent photo and file lists default to empty lists and an absent or
      empty response status to "PENDING"; supplied values are kept. */
  lemma PostDefaults(u: User, b: ResultBody, i: nat)
    requires Creatable(b) && b.responses.Some? && i < |b.responses.value|
    ensures var x := b.responses.value[i];
      var s := PostResult(Some(u), Some(b)).body.value.responses[i];
      && s.photoUrls == (if x.photoUrls.Some? then x.photoUrls.value else [])
      && s.fileUrls == (if x.fileUrls.Some? then x.fileUrls.value else [])
      && s.status == (if x.status.Some? && x.status.value != "" then x.status.value else "PENDING")
  {
  }

  // ------------------------------------------------------------------- GET

  datatype ResultParams = ResultParams(checksheetId: Option<string>, status: Option<string>)

  /** The values of the result status enum column. The database schema is not
      part of this model: these are the values the application writes and
      compares against. */
  const ResultStatuses: seq<string> := ["IN_PROGRESS", "COMPLETED"]

  function ToRow(s: StoredResult): Row
  {
    Row(map[
      "checksheetId" := SStr(s.result.checksheetId),
      "inspectorId" := SStr(s.result.inspectorId),
      "status" := SStr(s.result.status)],
      map["checksheet" := ChecksheetsApi.ToRow(s.checksheet)])
  }

  function ListWhere(u: User, p: ResultParams): Where
  {
    Single("AND", AndOf([
      if Truthy(p.checksheetId) then Single("checksheetId", Equals(SStr(p.checksheetId.value))) else Empty,
      if Truthy(p.status) then Single("status", Equals(SStr(p.status.value))) else Empty,
      if u.role == Inspector then Single("inspectorId", Equals(SStr(u.id))) else Empty]))
  }

  /** The listing rule in the application's own terms: the optional filters,
      and for an inspector only their own results. */
  predicate Listed(u: User, p: ResultParams, s: StoredResult)
  {
    && (Truthy(p.checksheetId) ==> s.result.checksheetId == p.checksheetId.value)
    && (Truthy(p.status) ==> s.result.status == p.status.value)
    && (u.role == Inspector ==> s.result.inspectorId == u.id)
  }

  lemma ListWhereMeansListed(u: User, p: ResultParams, s: StoredResult)
    ensures Holds(ToRow(s), ListWhere(u, p)) <==> Listed(u, p, s)
  {
    var row := ToRow(s);
    var ws := ListWhere(u, p).m["AND"].ws;
    HoldsSingle(row, "AND", AndOf(ws));
    assert Holds(row, ws[0]) <==> (Truthy(p.checksheetId) ==> s.result.checksheetId == p.checksheetId.value) by {
      if Truthy(p.checksheetId) { HoldsSingle(row, "checksheetId", Equals(SStr(p.checksheetId.value))); }
    }
    assert Holds(row, ws[1]) <==> (Truthy(p.status) ==> s.result.status == p.status.value) by {
      if Truthy(p.status) { HoldsSingle(row, "status", Equals(SStr(p.status.value))); }
    }
    assert Holds(row, ws[2]) <==> (u.role == Inspector ==> s.result.inspectorId == u.id) by {
      if u.role == Inspector { HoldsSingle(row, "inspectorId", Equals(SStr(u.id))); }
    }
    assert ClauseHolds(row, "AND", AndOf(ws)) <==> Holds(row, ws[0]) && Holds(row, ws[1]) && Holds(row, ws[2]);
  }

  /** Without filters, every role but INSPECTOR sees every result, whoever
      ran it and whatever organization it belongs to. */
  lemma NonInspectorUnrestricted(u: User, s: StoredResult)
    requires u.role != Inspector
    ensures Holds(ToRow(s), ListWhere(u, ResultParams(None, None)))
  {
    ListWhereMeansListed(u, ResultParams(None, None), s);
  }

  /** `GET /api/results` over the stored results `db`, in database order. A
      status outside the enum makes the query throw, which the handler reports
      as 500. */
  function ListResults(session: Session, p: ResultParams, db: seq<StoredResult>): (r: Reply<seq<StoredResult>>)
    ensures session.None? ==> r == Unauthorized()
    ensures session.Some? && !StatusParamOk(p.status, ResultStatuses) ==>
      r == Reply(500, ErrorMsg("Failed to fetch results"))
    ensures r.status == 200 <==> session.Some? && StatusParamOk(p.status, ResultStatuses)
    ensures r.status == 200 ==> r.body.Data?
    ensures r.status == 200 ==> forall s :: s in r.body.value <==> s in db && Listed(session.value, p, s)
  {
    if session.None? then Unauthorized()
    else if !StatusParamOk(p.status, ResultStatuses) then Reply(500, ErrorMsg("Failed to fetch results"))
    else
      var u := session.value;
      var w := ListWhere(u, p);
      var hits := Filter(db, s => Holds(ToRow(s), w));
      assert forall s :: s in hits <==> s in db && Listed(u, p, s) by {
        forall s
          ensures s in hits <==> s in db && Listed(u, p, s)
        {
          ListWhereMeansListed(u, p, s);
        }
      }
      Reply(200, Data(hits))
  }
}

=== FILE: search_api.dfy ===
/** The global search endpoint: one query string searched in checksheets,
    public templates and execution results, at most five hits each.

    For a non-ADMIN caller the checksheet filter is built as
    `{ ...searchCondition, ...{ OR: access } }`; both objects have an `OR`
    key, so the access condition replaces the text match and the query text
    no longer constrains which checksheets come back. */
module SearchApi {
  import opened Base
  import opened Strings
  import opened Query
  import ChecksheetsApi
  import ResultsApi

  /** A best-practice template as the search sees it. */
  datatype Template = Template(
    title: string,
    description: Option<string>,
    category: string,
    usageCount: nat,
    isPublic: bool)

  datatype SearchResults = SearchResults(
    checksheets: seq<ChecksheetsApi.Checksheet>,
    templates: seq<Template>,
    results: seq<ResultsApi.StoredResult>)

  const NoResults := SearchResults([], [], [])

  /** The number of hits per entity (`take: 5`). */
  const PageSize: nat := 5

  /** The text condition: title or description contains the query,
      ignoring case. */
  function SearchCondition(q: string): Where
  {
    Single("OR", OrOf([Single("title", ContainsCI(q)), Single("description", ContainsCI(q))]))
  }

  /** `session.user.organizationId || undefined`: null, undefined and the
      empty string all become undefined. */
  function SearchOrg(o: OrgRef): OrgRef
  {
    if o.OrgId? && o.id != "" then o else OrgUndefined
  }

  function ChecksheetWhere(u: User, q: string): Where
  {
    Spread(SearchCondition(q),
           if u.role != Admin then ChecksheetsApi.AccessOr(u, ChecksheetsApi.OrgFilterValue(SearchOrg(u.organizationId)))
           else Empty)
  }

  function TemplateWhere(q: string): Where
  {
    Spread(SearchCondition(q), Single("isPublic", Equals(SBool(true))))
  }

  function ResultWhere(u: User, q: string): Where
  {
    Spread(if u.role == Inspector then Single("inspectorId", Equals(SStr(u.id))) else Empty,
           Single("checksheet", Related(SearchCondition(q))))
  }

  function TemplateRow(t: Template): Row
  {
    Row(map[
      "title" := SStr(t.title),
      "description" := ChecksheetsApi.OptColumn(t.description),
      "category" := SStr(t.category),
      "isPublic" := SBool(t.isPublic)], map[])
  }

  // ------------------------------------------------ the rules, in words

  predicate TextMatch(q: string, title: string, description: Option<string>)
  {
    ContainsInsensitive(title, q) || (description.Some? && ContainsInsensitive(description.value, q))
  }

  /** Which checksheets the search returns: for ADMIN those matching the text;
      for anyone else those the access condition admits, text or no text. */
  predicate ChecksheetHit(u: User, q: string, c: ChecksheetsApi.Checksheet)
  {
    if u.role == Admin then TextMatch(q, c.title, c.description)
    else c.creatorId == u.id || ChecksheetsApi.OrgMatches(SearchOrg(u.organizationId), c.organizationId)
  }

  predicate TemplateHit(q: string, t: Template)
  {
    t.isPublic && TextMatch(q, t.title, t.description)
  }

  /** Which results the search returns: those whose checksheet matches the
      text, and for an inspector only their own. */
  predicate ResultHit(u: User, q: string, s: ResultsApi.StoredResult)
  {
    && (u.role == Inspector ==> s.result.inspectorId == u.id)
    && TextMatch(q, s.checksheet.title, s.checksheet.description)
  }

  lemma SearchConditionHolds(row: Row, q: string, title: string, description: Option<string>)
    requires "title" in row.cols && row.cols["title"] == SStr(title)
    requires "description" in row.cols && row.cols["description"] == ChecksheetsApi.OptColumn(description)
    ensures Holds(row, SearchCondition(q)) <==> TextMatch(q, title, description)
  {
    var a := Single("title", ContainsCI(q));
    var b := Single("description", ContainsCI(q));
    HoldsSingle(row, "OR", OrOf([a, b]));
    HoldsOr2(row, a, b);
    HoldsSingle(row, "title", ContainsCI(q));
    HoldsSingle(row, "description", ContainsCI(q));
  }

  lemma ChecksheetWhereMeansHit(u: User, q: string, c: ChecksheetsApi.Checksheet)
    ensures Holds(ChecksheetsApi.ToRow(c), ChecksheetWhere(u, q)) <==> ChecksheetHit(u, q, c)
  {
    var row := ChecksheetsApi.ToRow(c);
    if u.role == Admin {
      assert ChecksheetWhere(u, q) == SearchCondition(q);
      SearchConditionHolds(row, q, c.title, c.description);
    } else {
      var acc := ChecksheetsApi.AccessOr(u, ChecksheetsApi.OrgFilterValue(SearchOrg(u.organizationId)));
      assert ChecksheetWhere(u, q) == acc;
      ChecksheetsApi.AccessOrHolds(u, SearchOrg(u.organizationId), c);
    }
  }

  lemma TemplateWhereMeansHit(q: string, t: Template)
    ensures Holds(TemplateRow(t), TemplateWhere(q)) <==> TemplateHit(q, t)
  {
    var row := TemplateRow(t);
    var w := TemplateWhere(q);
    var text := SearchCondition(q).m["OR"];
    assert w.m == map["OR" := text, "isPublic" := Equals(SBool(true))];
    SearchConditionHolds(row, q, t.title, t.description);
    HoldsSingle(row, "OR", text);
    HoldsPair(row, "OR", text, "isPublic", Equals(SBool(true)));
  }

  lemma ResultWhereMeansHit(u: User, q: string, s: ResultsApi.StoredResult)
    ensures Holds(ResultsApi.ToRow(s), ResultWhere(u, q)) <==> ResultHit(u, q, s)
  {
    var row := ResultsApi.ToRow(s);
    var w := ResultWhere(u, q);
    var rel := Related(SearchCondition(q));
    SearchConditionHolds(ChecksheetsApi.ToRow(s.checksheet), q, s.checksheet.title, s.checksheet.description);
    assert ClauseHolds(row, "checksheet", rel) <==> TextMatch(q, s.checksheet.title, s.checksheet.description);
    if u.role == Inspector {
      assert w.m == map["inspectorId" := Equals(SStr(u.id)), "checksheet" := rel];
      HoldsPair(row, "inspectorId", Equals(SStr(u.id)), "checksheet", rel);
    } else {
      assert w == Single("checksheet", rel);
      HoldsSingle(row, "checksheet", rel);
    }
  }

  // ------------------------------------------------------------ handler

  /** `q` is too short to search: absent, empty or a single character. */
  predicate TooShort(q: Option<string>)
  {
    !Truthy(q) || |q.value| < 2
  }

  /** `GET /api/search?q=...` over the three stored collections, each in
      database order. */
  function Search(session: Session, q: Option<string>, cs: seq<ChecksheetsApi.Checksheet>,
                  ts: seq<Template>, rs: seq<ResultsApi.StoredResult>): (r: Reply<SearchResults>)
    ensures session.None? ==> r == Unauthorized()
    ensures session.Some? ==> r.status == 200 && r.body.Data?
    ensures session.Some? && TooShort(q) ==> r.body.value == NoResults
    ensures session.Some? ==>
      |r.body.value.checksheets| <= PageSize && |r.body.value.templates| <= PageSize
      && |r.body.value.results| <= PageSize
    ensures session.Some? && !TooShort(q) ==>
      && r.body.value.checksheets == Take(Filter(cs, c => ChecksheetHit(session.value, q.value, c)), PageSize)
      && r.body.value.templates == Take(Filter(ts, t => TemplateHit(q.value, t)), PageSize)
      && r.body.value.results == Take(Filter(rs, s => ResultHit(session.value, q.value, s)), PageSize)
  {
    if session.None? then Unauthorized()
    else if TooShort(q) then Reply(200, Data(NoResults))
    else
      var u := session.value;
      var query := q.value;
      var cw := ChecksheetWhere(u, query);
      var tw := TemplateWhere(query);
      var rw := ResultWhere(u, query);
      forall c | c in cs
        ensures Holds(ChecksheetsApi.ToRow(c), cw) == ChecksheetHit(u, query, c)
      {
        ChecksheetWhereMeansHit(u, query, c);
      }
      FilterCongruent(cs, c => Holds(ChecksheetsApi.ToRow(c), cw), c => ChecksheetHit(u, query, c));
      forall t | t in ts
        ensures Holds(TemplateRow(t), tw) == TemplateHit(query, t)
      {
        TemplateWhereMeansHit(query, t);
      }
      FilterCongruent(ts, t => Holds(TemplateRow(t), tw), t => TemplateHit(query, t));
      forall s | s in rs
        ensures Holds(ResultsApi.ToRow(s), rw) == ResultHit(u, query, s)
      {
        ResultWhereMeansHit(u, query, s);
      }
      FilterCongruent(rs, s => Holds(ResultsApi.ToRow(s), rw), s => ResultHit(u, query, s));
      Reply(200, Data(SearchResults(
        Take(Filter(cs, c => Holds(ChecksheetsApi.ToRow(c), cw)), PageSize),
        Take(Filter(ts, t => Holds(TemplateRow(t), tw)), PageSize),
        Take(Filter(rs, s => Holds(ResultsApi.ToRow(s), rw)), PageSize))))
  }

  /** For a non-ADMIN caller the query text does not change which checksheets
      are found: the spread dropped the text match. */
  lemma NonAdminChecksheetHitsIgnoreQuery(u: User, q1: string, q2: string, c: ChecksheetsApi.Checksheet)
    requires u.role != Admin
    ensures Holds(ChecksheetsApi.ToRow(c), ChecksheetWhere(u, q1))
        <==> Holds(ChecksheetsApi.ToRow(c), ChecksheetWhere(u, q2))
  {
    ChecksheetWhereMeansHit(u, q1, c);
    ChecksheetWhereMeansHit(u, q2, c);
  }

  /** A non-ADMIN caller finds every checksheet of their own under any
      query, including one whose title and description do not contain it. */
  lemma NonAdminFindsOwnWhateverQuery(u: User, q: string, c: ChecksheetsApi.Checksheet)
    requires u.role != Admin && c.creatorId == u.id
    ensures Holds(ChecksheetsApi.ToRow(c), ChecksheetWhere(u, q))
  {
    ChecksheetWhereMeansHit(u, q, c);
  }

  /** A non-ADMIN caller with no organization (null, undefined or empty id)
      gets an undefined organization filter, so every checksheet passes the
      access condition; this rests on the assumed Prisma semantics of
      `undefined`. */
  lemma NoOrgSearchSeesEveryChecksheet(u: User, q: string, c: ChecksheetsApi.Checksheet)
    requires u.role != Admin && !(u.organizationId.OrgId? && u.organizationId.id != "")
    ensures Holds(ChecksheetsApi.ToRow(c), ChecksheetWhere(u, q))
  {
    ChecksheetWhereMeansHit(u, q, c);
  }

  // ------------------------------------------- the intended access filter

  /** The checksheet filter as evidently intended: the text condition and,
      for a non-ADMIN caller, the access condition both apply. */
  function IntendedChecksheetWhere(u: User, q: string): Where
  {
    if u.role != Admin then
      Single("AND", AndOf([SearchCondition(q),
        ChecksheetsApi.AccessOr(u, ChecksheetsApi.OrgFilterValue(SearchOrg(u.organizationId)))]))
    else SearchCondition(q)
  }

  predicate IntendedHit(u: User, q: string, c: ChecksheetsApi.Checksheet)
  {
    && TextMatch(q, c.title, c.description)
    && (u.role != Admin ==>
          c.creatorId == u.id || ChecksheetsApi.OrgMatches(SearchOrg(u.organizationId), c.organizationId))
  }

  /** The corrected filter admits exactly the checksheets that match the text
      and that the caller may see. */
  lemma IntendedChecksheetWhereMeansHit(u: User, q: string, c: ChecksheetsApi.Checksheet)
    ensures Holds(ChecksheetsApi.ToRow(c), IntendedChecksheetWhere(u, q)) <==> IntendedHit(u, q, c)
  {
    var row := ChecksheetsApi.ToRow(c);
    SearchConditionHolds(row, q, c.title, c.description);
    if u.role != Admin {
      var acc := ChecksheetsApi.AccessOr(u, ChecksheetsApi.OrgFilterValue(SearchOrg(u.organizationId)));
      HoldsSingle(row, "AND", AndOf([SearchCondition(q), acc]));
      HoldsAnd2(row, SearchCondition(q), acc);
      ChecksheetsApi.AccessOrHolds(u, SearchOrg(u.organizationId), c);
    }
  }

  /** Every checksheet the corrected filter admits is one the as-written
      filter admits too; only the text condition is lost in the spread. */
  lemma IntendedNarrowsAsWritten(u: User, q: string, c: ChecksheetsApi.Checksheet)
    requires Holds(ChecksheetsApi.ToRow(c), IntendedChecksheetWhere(u, q))
    ensures Holds(ChecksheetsApi.ToRow(c), ChecksheetWhere(u, q))
  {
    IntendedChecksheetWhereMeansHit(u, q, c);
    ChecksheetWhereMeansHit(u, q, c);
  }

  /** The discrepancy: a non-ADMIN caller's own checksheet whose title and
      description do not contain the query is found by the filter as
      written and not by the intended one. */
  lemma SpreadDropsTextMatch(u: User, q: string, c: ChecksheetsApi.Checksheet)
    requires u.role != Admin && c.creatorId == u.id && !TextMatch(q, c.title, c.description)
    ensures Holds(ChecksheetsApi.ToRow(c), ChecksheetWhere(u, q))
    ensures !Holds(ChecksheetsApi.ToRow(c), IntendedChecksheetWhere(u, q))
  {
    ChecksheetWhereMeansHit(u, q, c);
    IntendedChecksheetWhereMeansHit(u, q, c);
  }
}

=== FILE: strings.dfy ===
/** String predicates used by the request handlers and the client components.
    Strings are sequences of characters; case-insensitivity is modelled with
    ASCII lower-casing only. */
module Strings {

  /** `s.startsWith(p)`. */
  predicate StartsWith(s: string, p: string)
  {
    |p| <= |s| && s[..|p|] == p
  }

  /** `p` occurs in `s` at position `i`. */
  predicate OccursAt(s: string, p: string, i: int)
  {
    0 <= i && i + |p| <= |s| && s[i..i + |p|] == p
  }

  /** `s.includes(p)`. */
  predicate Contains(s: string, p: string)
  {
    exists i :: 0 <= i <= |s| - |p| && OccursAt(s, p, i)
  }

  function LowerChar(c: char): char
  {
    if 'A' <= c <= 'Z' then (c as int + 32) as char else c
  }

  function Lower(s: string): (r: string)
    ensures |r| == |s|
    ensures forall i :: 0 <= i < |s| ==> r[i] == LowerChar(s[i])
  {
    if |s| == 0 then "" else [LowerChar(s[0])] + Lower(s[1..])
  }

  function UpperChar(c: char): char
  {
    if 'a' <= c <= 'z' then (c as int - 32) as char else c
  }

  function Upper(s: string): (r: string)
    ensures |r| == |s|
    ensures forall i :: 0 <= i < |s| ==> r[i] == UpperChar(s[i])
  {
    if |s| == 0 then "" else [UpperChar(s[0])] + Upper(s[1..])
  }

  /** A `contains` filter with `mode: 'insensitive'`. */
  predicate ContainsInsensitive(s: string, p: string)
  {
    Contains(Lower(s), Lower(p))
  }

  lemma StartsWithAppend(s: string, p: string, q: string)
    requires StartsWith(s, p + q)
    ensures StartsWith(s, p)
  {
    assert s[..|p|] == (p + q)[..|p|];
  }

  /** Decimal rendering of a natural number, as `${index}` gives it. */
  function NatToString(n: nat): (r: string)
    ensures |r| > 0
    decreases n
  {
    if n < 10 then [Digit(n)] else NatToString(n / 10) + [Digit(n % 10)]
  }

  function Digit(d: nat): char
    requires d < 10
  {
    "0123456789"[d]
  }

  lemma DigitInjective(a: nat, b: nat)
    requires a < 10 && b < 10 && Digit(a) == Digit(b)
    ensures a == b
  {
  }

  lemma {:induction false} NatToStringLength(n: nat)
    ensures n < 10 <==> |NatToString(n)| == 1
  {
    if n >= 10 {
      assert |NatToString(n / 10)| >= 1;
    }
  }

  /** Distinct numbers render as distinct strings. */
  lemma {:induction false} NatToStringInjective(a: nat, b: nat)
    requires NatToString(a) == NatToString(b)
    ensures a == b
    decreases a
  {
    NatToStringLength(a);
    NatToStringLength(b);
    var s := NatToString(a);
    if a < 10 {
      DigitInjective(a, b);
    } else {
      assert b >= 10;
      var pa := NatToString(a / 10);
      var pb := NatToString(b / 10);
      assert s == pa + [Digit(a % 10)] == pb + [Digit(b % 10)];
      assert s[|s| - 1] == Digit(a % 10) == Digit(b % 10);
      DigitInjective(a % 10, b % 10);
      assert pa == s[..|s| - 1] == pb;
      NatToStringInjective(a / 10, b / 10);
    }
  }

  /** A decimal rendering holds digits only, so never the character `c`
      when `c` is not a digit. */
  lemma {:induction false} NatToStringOmits(n: nat, c: char)
    requires !('0' <= c <= '9')
    ensures c !in NatToString(n)
    decreases n
  {
    if n >= 10 {
      NatToStringOmits(n / 10, c);
    }
  }

  /** Two strings that end in a separator followed by a part free of that
      separator have equal last parts exactly when they are equal there:
      the last occurrence of the separator fixes where the part starts. */
  lemma LastPartAfter(a: string, d1: string, b: string, d2: string, sep: char)
    requires sep !in d1 && sep !in d2
    requires a + [sep] + d1 == b + [sep] + d2
    ensures d1 == d2
  {
    SeparatorIsLast(a, d1, sep);
    SeparatorIsLast(b, d2, sep);
    if |d1| != |d2| {
      assert false;
    }
    var s := a + [sep] + d1;
    assert d1 == s[|s| - |d1|..] == d2;
  }

  /** In `a + [sep] + d` with `sep` not in `d`, the separator stands at
      `|a|` and nowhere after it. */
  lemma SeparatorIsLast(a: string, d: string, sep: char)
    requires sep !in d
    ensures (a + [sep] + d)[|a|] == sep
    ensures forall k :: |a| < k < |a| + 1 + |d| ==> (a + [sep] + d)[k] != sep
  {
    var s := a + [sep] + d;
    forall k | |a| < k < |a| + 1 + |d|
      ensures s[k] != sep
    {
      assert s[k] == d[k - |a| - 1];
    }
  }
}
